=== FILE: README.md ===
# xconnect backend — a Dafny model of its services

xconnect is a small web backend. A user registers an account and connects a
GitHub account (a personal access token) and a ServiceNow instance (basic-auth
credentials), each under a free-text label. The backend keeps the credentials in a
secret store: an encrypted SQLite table, or AWS Secrets Manager. Through the
stored credentials it lists repositories, reads a repository's details, lists
ServiceNow tables and a table's fields, and creates or updates ServiceNow
records. Every call made with stored credentials records its outcome on the
integration row. It also stores repository-to-table mappings and per-user display
settings.

This project models these parts:
- the services behind those operations: auth, user settings, integrations,
  mappings, GitHub and ServiceNow;
- the two secret stores and the choice between them;
- the GitHub and ServiceNow HTTP clients, down to the requests they issue;
- the two normalised configuration settings;
- the request schemas;
- the database tables.

The models are pure functions over one state value, `Models.Db`:
- the five tables, as sequences of rows with ascending integer ids;
- the AWS secrets, as a map from secret name to payload.

A service call is a function from the state, the caller and the request to a
`Step`: the new state and either a result or an error. A `Results.HttpError`
is an `HTTPException`. A `Results.Uncaught` error is any other exception,
which the framework turns into a 500.

Remote systems are parameters:
- a GitHub or ServiceNow HTTP exchange is a function from request to reply or
  fault;
- a failure the AWS secret manager reports is an optional error code;
- the clock reading is an opaque timestamp.

`Models.Valid` is the schema's unique constraints as a store invariant. Every
operation that writes is proved to preserve it.

Modules, one per source component:
- `Results`, `Text`, `Json`, `Ordering`, `Crypto`: Python values and the
  builtins the code applies to them, with their laws;
- `Tables`, `Models`: tables and schema;
- `Config`;
- `SqliteStore`, `AwsStore`, `SecretStore`;
- `Requests`: the request schemas;
- `GithubClient`, `ServiceNowClient`;
- `Providers`: what the two provider services share;
- `AuthService`, `UserSettingsService`, `IntegrationService`, `MappingService`,
  `GithubService`, `ServiceNowService`.

## Model

| member | source | states |
|---|---|---|
| Config.ValidateSecretStore | impl/config.py:32-38 | accepted exactly when the trimmed, lower-cased value is "sqlite" or "aws"; the stored value is that normal form; anything else raises the fixed SECRET_STORE message |
| Config.ValidateSecretStoreFixedPoint | impl/config.py:34-38 | validating an accepted value again returns it unchanged: the stored setting is already normalised |
| Config.CorsOrigins | impl/config.py:40-47 | a blank setting gives no origins and "*" gives the wildcard alone; any other setting is its stripped text split at commas and cleaned entry by entry. Every entry is non-empty, has no surrounding whitespace and contains no comma |
| Config.CleanEntriesAppend | impl/config.py:47 | cleaning a concatenation of entries cleans each part and concatenates the results, so the cleaning is a per-entry filter |
| Config.CleanEntriesSingle | impl/config.py:47 | a single entry is kept as its stripped text unless that is empty, in which case it is dropped |
| Config.CorsOriginsJoin | impl/config.py:40-47 | a comma-joined list of clean, comma-free origins is read back as exactly that list, so reading the origin list undoes joining it |
| Text.StripEmptyIffBlank | impl/config.py:42-44 | `strip()` gives the empty string exactly when the input is all whitespace, which is when the code's `if not s` branch is taken |
| Text.StripIdempotent | service_impl/mapping_service.py:26-28 | stripping an already stripped value changes nothing |
| Text.SplitJoin | impl/config.py:47 | splitting a join of separator-free parts on the separator gives back the parts |
| Text.ParseIntToString | impl/secret_store/sqlite_store.py:42-47 | `int(str(n)) == n` for every integer, which is why an id written into a reference can be read back |
| Json.Or | service_impl/servicenow_service.py:129 | `a or b` is truthy exactly when one operand is, and is the first operand whenever that one is truthy |
| Json.WithTruthy | service_impl/github_service.py:98-99 | the comprehension filter `if r.get(key)`: every kept item is an object whose entry under the key is truthy and comes from the input list, and every such item of the input is kept |
| Json.WithTruthyAppend | service_impl/github_service.py:98-99 | filtering a concatenation filters each part and concatenates the results in order |
| Json.WithTruthySingle | service_impl/github_service.py:98-99 | a single item is kept exactly when it is an object whose entry under the key is truthy |
| Json.Iterated | impl/integrations/github/client.py:30 | what iterating a decoded value yields: a list its items, a text its one-character texts, an object its keys as texts; null, integers and booleans are not iterable. An iterable value yields nothing exactly when it is falsy |
| Json.Chars | impl/integrations/github/client.py:30 | iterating a text yields one one-character text per character, in order |
| Json.KeyTexts | impl/integrations/github/client.py:30 | iterating an object yields each key exactly once, as a text, and nothing else |
| Json.IteratedTexts | service_impl/servicenow_service.py:97 | every item that iterating an object or a text yields is a text |
| Json.Int | service_impl/github_service.py:37 | `int(v)` keeps integers, reads booleans as 1 and 0, turns text into the decimal integer it spells and raises exactly when it spells none, and raises for null, lists and objects |
| Ordering.LeastExists | impl/integrations/github/client.py:30 | a non-empty set of texts has a member at or below all others in text order |
| Ordering.Least | impl/integrations/github/client.py:30 | the least member of a non-empty set of texts is in the set and at or below every member |
| Ordering.InOrder | impl/integrations/github/client.py:30 | the listing of a set of texts (the keys an object yields) holds each member exactly once, in strictly ascending text order |
| Ordering.LeastInFront | impl/integrations/github/client.py:30 | the least member followed by the ascending listing of the others is the ascending listing of the whole set |
| Ordering.SameMembersInFront | impl/integrations/github/client.py:30 | putting the removed member back in front restores the set's members |
| Ordering.AscendingInFront | impl/integrations/github/client.py:30 | a text strictly below every item of an ascending listing can be put in front of it |
| Ordering.PairLeqTotal | service_impl/integration_service.py:17 | any two (provider, label) keys are comparable under the ascending two-column order |
| Ordering.PairLeqTrans | service_impl/integration_service.py:17 | the two-column order is transitive |
| Ordering.PairLeqAntisym | service_impl/integration_service.py:17 | two keys each at or below the other are equal, so the order on distinct keys is strict |
| Models.NewIntegration | impl/db/models.py:29-51 | a new integration row carries label "default", an empty config, no secret reference, no test status, and creation and update times equal to now |
| Models.NewSetting | impl/db/models.py:73-83 | a new settings row has theme "dark", notifications on, and both times equal to now |
| Models.RecordTest | service_impl/servicenow_service.py:110-118 | after a call the row records the time of the call and whether it succeeded; the message is "OK" on success and at most 500 characters of the error otherwise; its key, config, secret reference and creation time are untouched |
| Models.RecordTestAt | service_impl/github_service.py:80-88 | recording a test rewrites only that row of the integrations table and keeps every unique constraint |
| Models.Connect | service_impl/github_service.py:38-54 | after the connect upsert, the row for (user, provider, label) holds the new config, the secret reference and an "OK" status. An existing row is reused with no new row; otherwise one row is appended. Rows with other keys and all other tables are unchanged, and the constraints still hold |
| Tables.InsertUnique | impl/db/models.py:29-33 | adding a row whose key is new keeps a unique constraint |
| Tables.RemoveUnique | service_impl/integration_service.py:69 | deleting a row keeps every unique constraint |
| SecretStore.Choose | impl/secret_store/factory.py:11-14 | the AWS store is chosen exactly when the setting is "aws", with the configured name prefix |
| SecretStore.Put | impl/secret_store/interfaces.py:6-15 | what is stored reads back through the returned reference. The local store never fails; the AWS store fails exactly when the secret manager reports a fault. Only the chosen store's part of the state changes, and the constraints still hold |
| SqliteStore.Put | impl/secret_store/sqlite_store.py:31-42 | afterwards a row holds the value for (user, name) and the reference names it. An existing (user, name) row is overwritten with no new row; otherwise a row with the next id is appended. Other rows are unchanged and (user, name) stays unique |
| SqliteStore.Get | impl/secret_store/sqlite_store.py:44-51 | a reference without the "sqlite:" prefix is refused, and one whose suffix is not an integer fails as `int` does. A reference whose id names a row of the requesting user returns that row's decrypted text; when no such row exists (no row with the id, or another user's), it fails with "Secret not found" |
| SqliteStore.RefId | impl/secret_store/sqlite_store.py:42-47 | the reference written for a row parses back to that row's id |
| SqliteStore.GetPut | impl/secret_store/sqlite_store.py:31-51 | a user reading back what they stored gets the stored value |
| SqliteStore.GetOtherUser | impl/secret_store/sqlite_store.py:48-50 | a reference to another user's secret fails exactly as a missing secret does |
| SqliteStore.PutTwice | impl/secret_store/sqlite_store.py:33-42 | storing under the same (user, name) again returns the same reference and adds no row |
| AwsStore.Put | impl/secret_store/aws_store.py:19-30 | fails exactly when the secret manager reports a fault other than an existing secret. Otherwise the secret "<prefix>/<user>/<name>" holds `{"value": value}`, whether newly created or overwritten, and the reference is "aws:" plus that name |
| AwsStore.Get | impl/secret_store/aws_store.py:32-39 | a reference without the "aws:" prefix is refused and an unknown name fails. Otherwise the result is the payload's `value` |
| AwsStore.ValueOf | impl/secret_store/aws_store.py:37-39 | a secret without a string payload, or whose payload has no `value`, reads as ""; otherwise it reads as `str` of the payload's `value` |
| AwsStore.RefName | impl/secret_store/aws_store.py:30-35 | splitting the reference at its first ':' gives back the exact secret name, even when the name contains ':' |
| AwsStore.GetPut | impl/secret_store/aws_store.py:19-39 | a stored value reads back through its reference whichever user asks |
| AwsStore.PutOverwrites | impl/secret_store/aws_store.py:22-30 | storing twice under one name keeps the reference, and the last value wins |
| Requests.Text | base_requests.py:15 | a required text field is accepted exactly when present, text and within its length bounds; a failure names the field with status 422 |
| Requests.TextOr | base_requests.py:48 | an absent defaulted field takes its default; a present one must be text within the bound |
| Requests.TextMapRoundTrip | base_requests.py:163 | a string-to-string dictionary written as JSON validates back to itself |
| Requests.ParseDirection | base_requests.py:162 | exactly the three direction names are accepted, and each is read as the direction it names |
| Requests.ParseDirectionName | base_requests.py:162 | reading a direction's name gives back that direction |
| Requests.ParseRegister | base_requests.py:13-15 | an accepted registration has a password of 8 to 256 characters and consists of the body's own email and password |
| Requests.ParseLogin | base_requests.py:18-20 | an accepted login has a password of 1 to 256 characters and consists of the body's own fields |
| Requests.RegisterRoundTrip | base_requests.py:13-20 | writing credentials as a body and validating them gives them back exactly when they meet the registration, or login, bounds |
| Requests.RegisterImpliesLogin | base_requests.py:13-20 | every body valid for registration is also a valid login body with the same credentials |
| Requests.ParseChangePassword | base_requests.py:39-41 | an accepted change has a current password of 1 to 256 and a new one of 8 to 256 characters, taken from the body |
| Requests.ChangePasswordRoundTrip | base_requests.py:39-41 | a password change written as a body validates back to itself exactly when it meets the bounds |
| Requests.ParseUpdateMe | base_requests.py:35-36 | a missing or null email means "no change"; a given email is the body's own |
| Requests.ParseGithubConnect | base_requests.py:45-48 | a body is accepted exactly when its token is text of 10 to 4096 characters and its label, if any, text of at most 100. The accepted token and label are the body's own; the label is "default" when absent |
| Requests.GithubConnectRoundTrip | base_requests.py:45-48 | a GitHub connect written as a body validates back to itself exactly when it meets the bounds |
| Requests.ParseServiceNowConnect | base_requests.py:101-105 | a body is accepted exactly when its instance URL is text of 1 to 2083 characters, its user name of 1 to 256, its password of 1 to 4096, and its label, if any, of at most 100. The accepted values are the body's own; the label is "default" when absent |
| Requests.ServiceNowConnectRoundTrip | base_requests.py:101-105 | a ServiceNow connect written as a body validates back to itself exactly when it meets the bounds |
| Requests.ParseRecordUpsert | base_requests.py:142-146 | a body is accepted exactly when its table is text of 1 to 200 characters, its data an object with at least one item, its sys_id null, absent or text of at most 100, and its label valid. The accepted table, data, sys_id and label are the body's own, with "default" for an absent label |
| Requests.RecordUpsertRoundTrip | base_requests.py:142-146 | an upsert written as a body validates back to itself exactly when it meets the bounds |
| Requests.ParseTarget | base_requests.py:158-162 | a body is accepted exactly when its repository name is text of 3 to 300 characters, its table of 1 to 200, its label, if any, of at most 100, and its direction, if any, one of the three names. The accepted values are the body's own; the label defaults to "default" and the direction to bidirectional |
| Requests.TargetRoundTrip | base_requests.py:158-162 | a mapping target written as a body validates back to itself exactly when it meets the bounds |
| Requests.ParseCreateMapping | base_requests.py:158-163 | a create body's target is the body's own fields; its field mapping is absent exactly when the body gives none or null, and otherwise has exactly the body's keys and texts |
| Requests.ParseValidateMapping | base_requests.py:166-171 | a validation body's target is the body's own fields; its field mapping is empty when absent, has exactly the body's keys and texts when given, and an explicit null is refused |
| Requests.CreateAndValidateAgree | base_requests.py:158-171 | a body valid for validation is valid for creation with the same target; an absent field mapping is None in one and empty in the other |
| Requests.ParseAutoMapping | base_requests.py:182-186 | an auto-mapping body is a valid target made of the body's own fields, with the "default" label and bidirectional defaults |
| Requests.ParseSettingsUpdate | base_requests.py:243-245 | absent or null fields mean "leave as is"; a given theme or switch is the body's own |
| GithubClient.NewClient | impl/integrations/github/client.py:8-10 | the base URL loses exactly its trailing slashes and keeps everything before them |
| GithubClient.NewClientStable | impl/integrations/github/client.py:10 | building a client from a client's own base URL gives the same client |
| GithubClient.UserRequest | impl/integrations/github/client.py:17-20 | the account request is `GET <base>/user` with the client's token and no parameters |
| GithubClient.RepoRequest | impl/integrations/github/client.py:43-48 | the repository request is `<base>/repos/` followed by the stripped full name minus exactly its trailing slashes |
| GithubClient.LastNext | impl/integrations/github/client.py:34-36 | reference reading of the Link header: the last part mentioning rel="next", and none exactly when no part mentions it |
| GithubClient.ScanNextLast | impl/integrations/github/client.py:33-36 | the code's forward scan, where each matching part overwrites the candidate, ends on the last match from its start, or on what it had before |
| GithubClient.NextLinkIsLast | impl/integrations/github/client.py:32-36 | the next-page URL is the target of the last part mentioning rel="next", and there is none exactly when no part mentions it |
| GithubClient.ListRepos | impl/integrations/github/client.py:22-41 | at most two requests. The first asks for `/user/repos` with per_page=100 and sort=updated; each later one is the URL the previous page announced, with no parameters. The listing succeeds exactly when every request was answered with an iterable page, and is then every page's items in order; stopping early means the last page announced no next one. A request that faults fails the listing with its message, and a non-iterable page fails it with "object is not iterable" |
| GithubClient.Pages | impl/integrations/github/client.py:27-40 | the paging loop with a request budget: each request after the first is the link of the page before it; the loop succeeds exactly when every request was answered with an iterable page, and the result collects what each page yields when iterated; stopping before the budget runs out means no next link was announced. When the last request is not answered with an iterable page, the listing fails with that request's fault message or "object is not iterable" text; a fault on the first request ends the loop at once |
| GithubClient.FailureIsLast | impl/integrations/github/client.py:28-30 | every request before the last was answered, so a request that faulted or gave a non-iterable page is the one whose error the listing carries |
| GithubClient.AnsweredInFront | impl/integrations/github/client.py:27-30 | a chain with an answered first request is answered throughout exactly when the rest is, and ends where the rest ends |
| GithubClient.AllAnsweredInFront | impl/integrations/github/client.py:27-30 | an answered request put in front of an answered chain gives an answered chain |
| GithubClient.AllAnsweredBehind | impl/integrations/github/client.py:27-30 | the rest of an answered chain is answered |
| GithubClient.CollectedInFront | impl/integrations/github/client.py:30 | the items of a chain of pages are the first page's items followed by the rest's |
| GithubClient.PlainInFront | impl/integrations/github/client.py:39-40 | every request after the first carries the token and no query parameters, also once a request is put in front |
| GithubClient.FollowedInFront | impl/integrations/github/client.py:32-39 | each request after the first of a chain is the next link its predecessor announced, also once a request is put in front |
| GithubClient.FollowOn | impl/integrations/github/client.py:34-39 | a page announcing the next request, followed by that request's pages, yields its own items followed by theirs |
| ServiceNowClient.NewClient | impl/integrations/servicenow/client.py:8-10 | the instance URL loses exactly its trailing slashes; user name and password are kept |
| ServiceNowClient.Url | impl/integrations/servicenow/client.py:14-17 | absolute http(s) URLs pass through; any other path is joined to the instance URL with exactly one slash, after dropping only its leading slashes |
| ServiceNowClient.UrlLeadingSlashes | impl/integrations/servicenow/client.py:17 | extra leading slashes on a relative path give the same URL |
| ServiceNowClient.SlashedRelative | impl/integrations/servicenow/client.py:14-17 | a path made of one slash and a part that starts with neither a slash nor a scheme is relative, and `_url` strips just that slash |
| ServiceNowClient.TableUrl | impl/integrations/servicenow/client.py:21 | the Table API path of a table resolves to `<instance>/api/now/table/<table>` |
| ServiceNowClient.ValidateRequest | impl/integrations/servicenow/client.py:19-24 | the credential check reads one `sys_user` row with the client's own credentials |
| ServiceNowClient.ClampLimit | impl/integrations/servicenow/client.py:30 | the limit sent is always between 1 and 500; in-range limits are kept and others go to the nearer bound |
| ServiceNowClient.ClampLimitIdempotent | impl/integrations/servicenow/client.py:30 | clamping a clamped limit changes nothing |
| ServiceNowClient.TableParams | impl/integrations/servicenow/client.py:28-35 | the listing asks for name and label and the clamped limit. A name-or-label query is added exactly when a non-empty query is given, and nothing else is sent |
| ServiceNowClient.TableLimitParam | impl/integrations/servicenow/client.py:30 | the limit parameter reads back as the clamped limit |
| ServiceNowClient.TablesRequest | impl/integrations/servicenow/client.py:26-36 | the table listing reads `sys_db_object` with the client's credentials and those parameters |
| ServiceNowClient.ExtractResult | impl/integrations/servicenow/client.py:38-39 | a falsy body or a falsy result gives the empty list; an object body's truthy result is returned as it is, list or not; a truthy body that is not an object fails with Python's `'<type>' object has no attribute 'get'` |
| ServiceNowClient.ExtractRows | impl/integrations/servicenow/client.py:38-39 | a reply carrying rows under `result` yields exactly those rows, and an empty body or object yields none |
| ServiceNowClient.ListTables | impl/integrations/servicenow/client.py:26-39 | a transport fault is passed on with its message; otherwise the outcome is what is extracted from the reply body |
| AuthService.Register | service_impl/auth_service.py:23-33 | fails with 409 exactly when the email is taken, and then nothing changes. Otherwise one user row with the next id is appended, holding the email and the password's hash, and its id is returned. Emails stay unique |
| AuthService.Authenticate | service_impl/auth_service.py:45-49 | succeeds with the id of an account whose email matches and whose hash verifies the password. With unique emails it succeeds exactly when such an account exists. An unknown email and a wrong password give the same 401 |
| AuthService.RegisterThenLogin | service_impl/auth_service.py:23-49 | a freshly registered account authenticates with its own password, returning its id, and with no other password |
| AuthService.ChangePasswordOf | service_impl/auth_service.py:51-59 | an unknown id gives 404 and a wrong current password 401, and neither changes anything. Otherwise only that account's hash becomes the new password's |
| AuthService.ChangePasswordThenLogin | service_impl/auth_service.py:45-59 | after a successful change, the account authenticates with the new password and with no other |
| AuthService.UpdateMe | service_impl/auth_service.py:61-75 | an unknown id gives 404. An absent, empty or unchanged email leaves the account as is. An email used by another account gives 409 with no change; otherwise only that account's email changes. Emails stay unique |
| AuthService.UpdateMeThenLogin | service_impl/auth_service.py:45-75 | after an email change, the account authenticates under the new email with exactly the passwords it accepted before |
| UserSettingsService.View | service_impl/user_settings_service.py:25 | the shown theme is never empty, and is the stored theme whenever that is non-empty |
| UserSettingsService.Ensure | service_impl/user_settings_service.py:16-21 | the caller's settings row exists afterwards. An existing row is reused with nothing changed; otherwise a default row is appended. One row per user is kept |
| UserSettingsService.Get | service_impl/user_settings_service.py:14-26 | always succeeds with a non-empty theme. An existing row is shown, as stored when one row per user holds, without any change; a user without a row gets "dark" with notifications on, and that row is created |
| UserSettingsService.StoredTheme | service_impl/user_settings_service.py:38 | the stored theme is non-empty and at most 30 characters; it is the requested theme when that has at most 30 characters, its first 30 characters when longer, or "dark" for an empty request |
| UserSettingsService.Apply | service_impl/user_settings_service.py:37-40 | each given field replaces its column and absent ones keep theirs. The update time moves exactly when a value changes |
| UserSettingsService.Update | service_impl/user_settings_service.py:28-48 | the caller's row, created with the defaults when missing, is replaced by that row with the update applied, and the answer is its view: given fields as stored, the others as they were. Only the settings table changes, and one row per user is kept |
| UserSettingsService.UpdateThenGet | service_impl/user_settings_service.py:14-48 | a read right after an update shows what the update returned and changes nothing |
| UserSettingsService.GetTwice | service_impl/user_settings_service.py:14-26 | a second read changes nothing and shows the same settings |
| UserSettingsService.EmptyUpdate | service_impl/user_settings_service.py:28-48 | an update with no fields behaves as a read |
| IntegrationService.InsertSorted | service_impl/integration_service.py:17 | placing a row into a sorted sequence keeps it sorted by (provider, label) and adds exactly that row |
| IntegrationService.Rows | service_impl/integration_service.py:14-19 | the rows are sorted by provider then label and are a permutation of the caller's rows |
| IntegrationService.Summaries | service_impl/integration_service.py:21-41 | one entry per row, in order, each showing its row's columns; a config that cannot be parsed shows as an empty object |
| IntegrationService.List | service_impl/integration_service.py:12-43 | entries are ordered by provider then label, one per row of the caller. Each describes one of the caller's rows, and each of the caller's rows is described |
| IntegrationService.DeleteKey | service_impl/integration_service.py:46-47 | the provider is matched stripped and lower-cased; the label is matched stripped, with an empty label meaning "default" |
| IntegrationService.SqliteSecretId | service_impl/integration_service.py:59-61 | a secret id is found exactly for a reference that starts with "sqlite:" and whose rest `int` reads, and it is that integer |
| IntegrationService.RemoveOwnSecret | service_impl/integration_service.py:62-64 | removes the secret with that id exactly when the caller owns it, and otherwise leaves the table alone; (user, name) stays unique |
| IntegrationService.Cleanup | service_impl/integration_service.py:58-67 | a reference that does not name a local secret deletes nothing; one that does deletes it when it is the caller's |
| IntegrationService.CleanupOwnSecret | service_impl/integration_service.py:58-67 | a reference written by the local store for one of the caller's secrets makes the deletion remove that secret |
| IntegrationService.Drop | service_impl/integration_service.py:49-70 | fails with 404 exactly when the caller has no row under the key, and then nothing changes. Otherwise exactly that row is removed, together with the secret cleanup; the constraints still hold and the key is gone |
| IntegrationService.DeleteTwice | service_impl/integration_service.py:45-70 | deleting the same integration again gives 404 and changes nothing |
| IntegrationService.DeleteThenList | service_impl/integration_service.py:12-70 | after a deletion, the listing shows no entry under the deleted key |
| IntegrationService.DeleteKeepsOthers | service_impl/integration_service.py:12-70 | a deletion leaves every other row of the caller in the listing |
| MappingService.Normalize | service_impl/mapping_service.py:24-29 | the stored row has the repository, table and label stripped, with a blank label becoming "default" |
| MappingService.NormalizedLabel | service_impl/mapping_service.py:28 | a stored label is never empty and is already stripped |
| MappingService.Add | service_impl/mapping_service.py:30-35 | fails with 409 exactly when a row with the same (user, repository, table, label) exists, and then nothing changes. Otherwise the row is appended with the next id; the key stays unique |
| MappingService.Create | service_impl/mapping_service.py:18-44 | a repository name without '/' is refused with 400 before anything is written; otherwise the normalised row is added under the unique constraint |
| MappingService.CreateIgnoresDirection | service_impl/mapping_service.py:24-29 | the request's direction and field mapping have no effect on what is stored or returned |
| MappingService.CreateTwice | service_impl/mapping_service.py:30-35 | creating the same mapping again gives 409 and changes nothing |
| MappingService.List | service_impl/mapping_service.py:46-59 | the caller's rows and no others, newest id first |
| MappingService.CreateThenList | service_impl/mapping_service.py:18-59 | a created mapping is the first entry of its owner's listing |
| MappingService.CreateAsWritten | service_impl/mapping_service.py:30-44 | the code as it stands always fails, though it writes exactly what `Create` writes; each successful insert becomes a server error |
| MappingService.ListAsWritten | service_impl/mapping_service.py:46-59 | the code as it stands succeeds only for a user with no mappings, and then with an empty list |
| MappingService.ListAsWrittenAfterCreate | service_impl/mapping_service.py:46-59 | once a mapping is saved for a user, the listing as written fails for that user |
| MappingService.CreateAsWrittenFails | service_impl/mapping_service.py:30-44 | on an empty store a valid first mapping is saved, yet both the create and the listing report a server error |
| Providers.Configured | service_impl/servicenow_service.py:60-67 | finds the caller's row for (provider, label) that holds a secret reference, else 404 with the given detail. With unique keys it succeeds exactly when such a row exists |
| Providers.ConfiguredAt | service_impl/github_service.py:65-71 | under the unique constraint, the row with the key and a secret is the one found |
| Providers.Link | service_impl/servicenow_service.py:36-56 | after the secret is stored and the row upserted, the row for (provider, label) carries the config, an "OK" status and a reference that reads back the secret. Users, settings and mappings are unchanged and the constraints still hold |
| Providers.Recorded | service_impl/servicenow_service.py:83-95 | the call's outcome is recorded on the row either way; a failure becomes a 400 whose detail is the prefix followed by the error text |
| GithubService.Account | service_impl/github_service.py:37 | the account id is the body's integer `id`, or the integer its text spells (failing when it spells none), or 0 when absent. The login is its text `login`, or "" when absent. A body that is not an object fails with Python's `get` error for its type |
| GithubService.Connect | service_impl/github_service.py:25-61 | a rejected token gives 400 and changes nothing. After an answered `/user`, a failed token write fails with its error and changes nothing; otherwise the call succeeds exactly when the account (`id` and `login` of the reply) can be read, a failed read keeps the stored token, and the returned account is the one the reply describes. On success the row for the label holds that account's config, an "OK" status and a reference that reads back the token; users, settings and mappings are unchanged; the constraints still hold |
| GithubService.ConnectThenConfigured | service_impl/github_service.py:25-75 | after a connect, the repository calls find the row and read back the connected token |
| GithubService.RepoOf | service_impl/github_service.py:92-97 | a repository is built exactly when its `id` (0 by default) converts to an integer, and its id is that integer; `full_name` and `html_url` are the texts of those entries, "" by default; `private` is its truthiness, false by default |
| GithubService.Repos | service_impl/github_service.py:91-100 | any item that is not an object fails; a listing of objects whose named entries all convert succeeds |
| GithubService.ReposNamed | service_impl/github_service.py:91-100 | a success has one repository per item with a truthy `full_name`, in order, each built from that item |
| GithubService.ListRepos | service_impl/github_service.py:63-101 | an unconfigured label gives 404 with nothing changed, and a failed secret read propagates. Otherwise the listing's outcome is recorded on the row: a fault is a 400 with the API prefix, and a success is the repositories of the collected items |
| GithubService.DetailsOf | service_impl/github_service.py:135-158 | a body that is not an object fails with Python's "no attribute 'get'" text, and a repository whose id does not convert fails with that error. Otherwise the details carry the repository fields and the sixteen passed-through fields as GitHub sent them. Topics appear exactly when they are a list, and the owner's login appears only when the owner is an object |
| GithubService.FetchDetails | service_impl/github_service.py:108-159 | an unconfigured label gives 404 with nothing changed. Otherwise the outcome of the repository read is recorded on the row: a fault is a 400 with the API prefix, and a success is the details of the body |
| GithubService.GetRepoDetails | service_impl/github_service.py:103-107 | a full name without '/' after stripping is refused with 400 before anything is read or recorded; otherwise the stripped name is fetched |
| ServiceNowService.Connect | service_impl/servicenow_service.py:27-58 | failed credentials give 400 with the error text and change nothing. Accepted credentials succeed exactly when the password is stored, and a failed write fails with its error and changes nothing. On success the row for the label holds the instance and user name, an "OK" status and a reference that reads back the password. Users, settings and mappings are unchanged and the constraints still hold |
| ServiceNowService.Save | service_impl/servicenow_service.py:36-58 | the call succeeds exactly when the password is stored; a failed secret write fails with its error and changes nothing. Otherwise the row is linked to the stored password with an "OK" status |
| ServiceNowService.LoadConfig | service_impl/servicenow_service.py:69 | the stored config loads exactly when it is valid JSON, and then is that object |
| ServiceNowService.GetClient | service_impl/servicenow_service.py:60-78 | an unconfigured label gives 404; a config that does not parse fails with the parser's error as a 500, and one lacking a truthy instance URL or user name gives 500. A failed secret read propagates. Otherwise the client is built for the configured instance and user with the stored password |
| ServiceNowService.ConnectThenGetClient | service_impl/servicenow_service.py:27-78 | after a connect, the other calls reach the same instance as the same user with the same password |
| ServiceNowService.GetClientAt | service_impl/servicenow_service.py:69-78 | a configured row naming an instance and a user yields a client for them with the stored password |
| ServiceNowService.TablesOf | service_impl/servicenow_service.py:97 | the tables of a list of rows: succeeds exactly when every row is an object |
| ServiceNowService.TablesOfNamed | service_impl/servicenow_service.py:97 | a success has one table per row with a truthy `name`, in order, with its name's text and its label |
| ServiceNowService.TablesOfAppend | service_impl/servicenow_service.py:97 | the tables of concatenated rows are those of each part in order, and the first row that is not an object decides the error |
| ServiceNowService.TablesOfSingle | service_impl/servicenow_service.py:97 | one object row with a truthy name is one table, one without is skipped, and any other row fails with its type's `get` error |
| ServiceNowService.TablesOfResult | service_impl/servicenow_service.py:97 | iterating the listing's result: a list gives its tables; an empty object or text gives none; a non-empty object or text fails on its first `str` item; null, an integer or a boolean is not iterable |
| ServiceNowService.FirstTextFails | service_impl/servicenow_service.py:97 | rows whose first item is a text fail with "'str' object has no attribute 'get'" |
| ServiceNowService.Collect | service_impl/servicenow_service.py:121-123 | collecting over rows succeeds exactly when every row is an object |
| ServiceNowService.CollectCons | service_impl/servicenow_service.py:121-123 | a row in front of a listing fails first when it is not an object, and otherwise puts its own part in front |
| ServiceNowService.CollectAppend | service_impl/servicenow_service.py:121-123 | collecting over concatenated rows collects over each part in order, and the first row that is not an object decides the error |
| ServiceNowService.CollectSingle | service_impl/servicenow_service.py:121-123 | one object row contributes its part, and any other row fails with its type's `get` error |
| ServiceNowService.ListTables | service_impl/servicenow_service.py:80-98 | a client failure passes through with nothing changed. Otherwise the listing's outcome is recorded on the row: a fault is a 400 with the API prefix; a reply records "OK" and then its result is iterated, giving the tables with their count or the iteration's error |
| ServiceNowService.MaxLength | service_impl/servicenow_service.py:133 | a length is reported exactly when the value's text is all digits, and then it is the value `int` reads, never negative |
| ServiceNowService.DigitsParse | service_impl/servicenow_service.py:133 | text of ASCII digits converts to the number it spells |
| ServiceNowService.FieldOf | service_impl/servicenow_service.py:123-135 | a row is skipped exactly when its stripped element name is empty. Otherwise the field carries that name, the first truthy of column label and label, the truthiness of `mandatory`, the `internal_type` and `reference` entries as they are, and the parsed maximum length |
| ServiceNowService.Fields | service_impl/servicenow_service.py:121-135 | the fields of a list of rows: succeeds exactly when every row is an object |
| ServiceNowService.FieldsContents | service_impl/servicenow_service.py:121-135 | a success has at most one field per row, none with a blank name, and every row that describes a field contributes it |
| ServiceNowService.FieldsAppend | service_impl/servicenow_service.py:121-135 | the fields of concatenated rows are those of each part in order, and the first row that is not an object decides the error |
| ServiceNowService.FieldsSingle | service_impl/servicenow_service.py:121-135 | one object row gives its field unless the element name is blank, and any other row fails with its type's `get` error |
| ServiceNowService.FetchFields | service_impl/servicenow_service.py:105-137 | a client failure passes through with nothing changed. Otherwise the outcome is recorded on the row: a fault is a 400 with the API prefix, and a success is the fields of the rows with the table name and count |
| ServiceNowService.ListFields | service_impl/servicenow_service.py:100-104 | a blank table name is refused with 400 before anything is read or recorded; otherwise the stripped name is used |
| ServiceNowService.RecordOf | service_impl/servicenow_service.py:167-178 | the id is `str` of the result's truthy `sys_id`, else the requested one, else "", and "" whenever the result is not an object. The record is the first truthy of result, reply and an empty object |
| ServiceNowService.Write | service_impl/servicenow_service.py:146-178 | an update is sent exactly when a non-empty sys_id was given, otherwise a create. The outcome is recorded on the row: a fault is a 400 with the API prefix, and a reply becomes the record response |
| ServiceNowService.UpsertRecord | service_impl/servicenow_service.py:139-145 | a blank table name, then empty data, are refused with 400 before anything is read or recorded; otherwise the stripped table name is written to |

## Findings

| source | as written | input that shows it | evidently intended | confidence | as-written member | corrected member |
|---|---|---|---|---|---|---|
| service_impl/mapping_service.py:38-58 | `create` and `list` build `MappingResponse` without the `direction` and `field_mapping` fields the schema (base_requests.py:195-202) declares without defaults. After the row is committed, the response fails validation: a successful create answers with a server error, and the listing fails for any user with a mapping | an empty store and a create of `octo/hello` / `incident` / `default`: the row is saved, but the create and the following listing both fail | the response reports the stored mapping (the database migration in impl/db/session.py:58-67 adds the two columns) | not executed; high | MappingService.CreateAsWritten, MappingService.ListAsWritten, MappingService.CreateAsWrittenFails | MappingService.Create, MappingService.List, MappingService.CreateThenList |

The rest of the model uses the corrected `Create` and `List`. They answer with the
stored row and carry neither `direction` nor `field_mapping`, since the row does
not store them.

## Left out

- Token issuance (`_issue_token`, JWT signing and expiry) is left out. Register and login return the user's id, which is the only input the token is made from.
- `login_password` is the same authentication as `login` (`AuthService.Login`) with the form fields as arguments.
- Password hashing and Fernet encryption are abstract (`Crypto`). The model keeps only the two laws the services rely on: a hash verifies exactly its password, and decryption undoes encryption. A missing encryption key (the development key generation and the RuntimeError) is not modelled.
- Sessions, commits, rollbacks and concurrency are not modelled. Each call is one atomic step on the state. In the two provider connects, the secret is committed before the integration row; `GithubService.Connect` keeps the stored secret when reading the account afterwards fails.
- Timestamps are opaque integers. Their ISO formatting in responses is not modelled. `onupdate` is modelled only where a service changes a row: the settings update time, and the test status rows.
- The request schemas' `EmailStr` and `HttpUrl` normalisation and pydantic's lax coercions are left out. An email is any text of at most 320 characters, and a URL is text of 1 to 2083 characters. Accordingly, `str(req.instance_url)` is the URL as given, without the trailing slash pydantic may add.
- Response models are not validated beyond the mapping finding. Examples are `GithubRepo.html_url` as an `HttpUrl` and `ServiceNowRecordResponse.record` as a dictionary.
- `Text.Lower` lowers ASCII letters only, `IsDigits` accepts ASCII digits only, and `ParseInt` reads an optional sign and ASCII digits without underscores. Python's Unicode case mapping and digit classes are wider.
- Json.Str: renders null, booleans, integers and text as Python's `str` does, but lists and objects as "". Several fields go through `str()` on whatever JSON value arrives: ServiceNow's table `name` and field `element` (servicenow_service.py:97, 123), a record's `sys_id` (servicenow_service.py:170), GitHub's `login` (github_service.py:37, 59), `full_name` and `html_url` (github_service.py:94, 96, 137, 139) and the AWS secret's `value` (aws_store.py:39). Where such a field holds a list or an object, Python prints its repr (a list `full_name` gives "['a']") and the model gives "".
- `config_json` is either a parsed JSON object or unparsable text. Valid JSON that is not an object is not modelled.
- boto3: the secret manager is a map from name to parsed payload. `create_secret` followed by `put_secret_value` on ResourceExistsException is one overwrite. Every other client error is the optional `awsFault` code, which propagates.
- The ServiceNow client's `list_fields`, `update_record` and `create_record` are called by the service, but the client file does not define them. They are abstract functions of the `Api` parameter; only `validate` and `list_tables` are modelled down to their requests.
- The validate-mapping and auto-map endpoints call `MappingService` methods that the service file does not define. Only their request schemas are modelled: `Requests.ParseValidateMapping` and `Requests.ParseAutoMapping`.
- GithubClient.Pages: a page body extends the listing as `list.extend` does: a list adds its items, a text its characters, an object its keys. An empty `{}` or `""` page adds nothing, so paging goes on and the call can succeed. Only null, integer and boolean bodies fail, with "'<type>' object is not iterable". The keys of an object are added in ascending text order rather than the reply's order, because `Json` objects are maps and do not keep the document's key order.
- HTTP headers, timeouts and the request session are not modelled. A transport fault stands for any raised exception, and its message is the exception text.
- Tables.Insert: new ids are one more than the largest id, or 1 in an empty table, as SQLite assigns a rowid without AUTOINCREMENT; the id of a deleted last row is therefore reused. The rowid overflow fallback to a random unused id is not modelled.
- JSON numbers with a fraction or exponent are not in `Json`, so `int(1.5)`, `bool(0.0)` and `str(1.5)` on decoded floats are not modelled. The fields the services convert are integers, text or booleans in GitHub's and ServiceNow's replies.

=== FILE: auth_service.dfy ===
/** Accounts: registration, password login, password change and email
    change. A successful registration or login yields the user's id, which
    the service turns into an access token. */
module AuthService {
  import opened Results
  import opened Tables
  import opened Crypto
  import opened Models
  import opened Requests

  const EMAIL_TAKEN := "Email already registered"
  const BAD_CREDENTIALS := "Invalid credentials"
  const NO_USER := "User not found"
  const WRONG_PASSWORD := "Current password is incorrect"
  const EMAIL_IN_USE := "Email already in use"

  function WithEmail(email: string): User -> bool {
    (u: User) => u.email == email
  }

  /** `AuthService.register`: a new account for an unused email, holding the
      password's hash. The result is the new user's id. */
  function Register(db: Db, req: Credentials, now: Timestamp): (s: Step<nat>)
    ensures HasKey(db.users, UserKey, req.email) <==> s.out.Err?
    ensures s.out.Err? ==> s == Step(db, Err(HttpError(CONFLICT, EMAIL_TAKEN)))
    ensures s.out.Ok? ==>
              && s.out.value == NextId(db.users)
              && s.db == db.(users := db.users + [Row(s.out.value, User(req.email, Hash(req.password), now))])
    ensures Valid(db) ==> Valid(s.db)
  {
    match Find(db.users, WithEmail(req.email))
    case Some(_) => Step(db, Err(HttpError(CONFLICT, EMAIL_TAKEN)))
    case None =>
      var user := User(req.email, Hash(req.password), now);
      InsertUnique(db.users, user, UserKey);
      Step(db.(users := Insert(db.users, user)), Ok(NextId(db.users)))
  }

  /** `_authenticate`: the id of the account with this email, when the
      password matches its hash. An unknown email and a wrong password give
      the same answer. */
  function Authenticate(db: Db, email: string, password: string): (r: Result<nat>)
    ensures r.Err? ==> r == Err(HttpError(UNAUTHORIZED, BAD_CREDENTIALS))
    ensures r.Ok? ==> exists i :: (0 <= i < |db.users| && db.users[i].id == r.value
              && db.users[i].val.email == email && Verify(password, db.users[i].val.passwordHash))
    ensures Unique(db.users, UserKey) ==>
              (r.Ok? <==> exists i :: 0 <= i < |db.users| && db.users[i].val.email == email
                                     && Verify(password, db.users[i].val.passwordHash))
  {
    match Find(db.users, WithEmail(email))
    case Some(i) =>
      if Verify(password, db.users[i].val.passwordHash) then Ok(db.users[i].id)
      else Err(HttpError(UNAUTHORIZED, BAD_CREDENTIALS))
    case None => Err(HttpError(UNAUTHORIZED, BAD_CREDENTIALS))
  }

  /** `AuthService.login` and `login_password`. */
  function Login(db: Db, req: Credentials): (r: Result<nat>)
    ensures r == Authenticate(db, req.email, req.password)
  {
    Authenticate(db, req.email, req.password)
  }

  /** A fresh account logs in with the password it registered with, and with
      no other. */
  lemma RegisterThenLogin(db: Db, req: Credentials, password: string, now: Timestamp)
    requires Valid(db)
    ensures var s := Register(db, req, now);
            s.out.Ok? ==> (Authenticate(s.db, req.email, password).Ok? <==> password == req.password)
    ensures var s := Register(db, req, now);
            s.out.Ok? ==> Authenticate(s.db, req.email, req.password) == Ok(s.out.value)
  {
    var s := Register(db, req, now);
    if s.out.Ok? {
      assert s.db.users[|db.users|].val.email == req.email;
      VerifyHash(password, req.password);
    }
  }

  /** `AuthService.change_password`: the account's hash is replaced by the
      new password's, provided the current password matches. */
  function ChangePasswordOf(db: Db, userId: nat, req: ChangePassword): (s: Step<()>)
    ensures (forall i :: 0 <= i < |db.users| ==> db.users[i].id != userId) ==>
              s == Step(db, Err(HttpError(NOT_FOUND, NO_USER)))
    ensures s.out.Err? ==> s.db == db
    ensures s.out.Err? ==> s.out.error in {HttpError(NOT_FOUND, NO_USER), HttpError(UNAUTHORIZED, WRONG_PASSWORD)}
    ensures forall i :: 0 <= i < |db.users| && db.users[i].id == userId ==>
              && (s.out.Ok? <==> Verify(req.currentPassword, db.users[i].val.passwordHash))
              && (s.out.Ok? ==> s.db == db.(users := Tables.Update(db.users, i,
                                             db.users[i].val.(passwordHash := Hash(req.newPassword)))))
    ensures Valid(db) ==> Valid(s.db)
  {
    match FindId(db.users, userId)
    case None => Step(db, Err(HttpError(NOT_FOUND, NO_USER)))
    case Some(i) =>
      assert forall j :: 0 <= j < |db.users| && db.users[j].id == userId ==> j == i;
      var user := db.users[i].val;
      if !Verify(req.currentPassword, user.passwordHash) then Step(db, Err(HttpError(UNAUTHORIZED, WRONG_PASSWORD)))
      else
        var user' := user.(passwordHash := Hash(req.newPassword));
        UpdateUnique(db.users, i, user', UserKey);
        Step(db.(users := Tables.Update(db.users, i, user')), Ok(()))
  }

  /** After a password change the account logs in with the new password and
      no longer with any other. */
  lemma ChangePasswordThenLogin(db: Db, userId: nat, req: ChangePassword, password: string)
    requires Valid(db)
    ensures var s := ChangePasswordOf(db, userId, req);
            forall i :: 0 <= i < |db.users| && db.users[i].id == userId && s.out.Ok? ==>
              (Authenticate(s.db, db.users[i].val.email, password).Ok? <==> password == req.newPassword)
  {
    var s := ChangePasswordOf(db, userId, req);
    forall i | 0 <= i < |db.users| && db.users[i].id == userId && s.out.Ok?
      ensures Authenticate(s.db, db.users[i].val.email, password).Ok? <==> password == req.newPassword
    {
      assert s.db.users[i].val.email == db.users[i].val.email;
      VerifyHash(password, req.newPassword);
    }
  }

  /** The account as `/me` shows it. */
  datatype Me = Me(id: nat, email: string, createdAt: Timestamp)

  /** `AuthService.update_me`: a non-empty email different from the current
      one replaces it, unless another account already uses it; anything else
      leaves the account as it is. */
  function UpdateMe(db: Db, userId: nat, email: Option<string>): (s: Step<Me>)
    ensures (forall i :: 0 <= i < |db.users| ==> db.users[i].id != userId) ==>
              s == Step(db, Err(HttpError(NOT_FOUND, NO_USER)))
    ensures s.out.Err? ==> s.db == db
    ensures forall i :: 0 <= i < |db.users| && db.users[i].id == userId ==>
              var user := db.users[i].val;
              var wanted := email.Some? && email.value != "" && email.value != user.email;
              && (!wanted ==> s == Step(db, Ok(Me(userId, user.email, user.createdAt))))
              && (wanted && HasKey(db.users, UserKey, email.value) ==> s == Step(db, Err(HttpError(CONFLICT, EMAIL_IN_USE))))
              && (wanted && !HasKey(db.users, UserKey, email.value) ==>
                    s == Step(db.(users := Tables.Update(db.users, i, user.(email := email.value))),
                              Ok(Me(userId, email.value, user.createdAt))))
    ensures Valid(db) ==> Valid(s.db)
  {
    match FindId(db.users, userId)
    case None => Step(db, Err(HttpError(NOT_FOUND, NO_USER)))
    case Some(i) =>
      assert forall j :: 0 <= j < |db.users| && db.users[j].id == userId ==> j == i;
      var user := db.users[i].val;
      if email.Some? && email.value != "" && email.value != user.email then
        match Find(db.users, WithEmail(email.value))
        case Some(_) => Step(db, Err(HttpError(CONFLICT, EMAIL_IN_USE)))
        case None =>
          var user' := user.(email := email.value);
          UpdateEmailUnique(db.users, i, email.value);
          Step(db.(users := Tables.Update(db.users, i, user')), Ok(Me(userId, email.value, user.createdAt)))
      else Step(db, Ok(Me(userId, user.email, user.createdAt)))
  }

  /** Giving a row an email no row has keeps emails unique. */
  lemma UpdateEmailUnique(t: Table<User>, i: nat, email: string)
    requires i < |t|
    requires !HasKey(t, UserKey, email)
    ensures Unique(t, UserKey) ==> Unique(Tables.Update(t, i, t[i].val.(email := email)), UserKey)
  {
  }

  /** After an email change the account logs in under the new email with its
      unchanged password. */
  lemma UpdateMeThenLogin(db: Db, userId: nat, email: string, password: string)
    requires Valid(db) && email != ""
    ensures var s := UpdateMe(db, userId, Some(email));
            forall i :: 0 <= i < |db.users| && db.users[i].id == userId && s.out.Ok? ==>
              (Authenticate(s.db, email, password).Ok? <==> Verify(password, db.users[i].val.passwordHash))
  {
    var s := UpdateMe(db, userId, Some(email));
    forall i | 0 <= i < |db.users| && db.users[i].id == userId && s.out.Ok?
      ensures Authenticate(s.db, email, password).Ok? <==> Verify(password, db.users[i].val.passwordHash)
    {
      if email == db.users[i].val.email {
        assert s.db == db;
      } else {
        assert s.db.users[i].val == db.users[i].val.(email := email);
      }
    }
  }
}

=== FILE: aws_store.dfy ===
/** The cloud secret store: one managed secret per "<prefix>/<user>/<name>",
    referenced as "aws:<secret name>". The secret manager's contents are the
    `aws` map of the state; its client calls become map reads and writes. */
module AwsStore {
  import opened Results
  import opened Text
  import opened Json
  import opened Models

  const REF_PREFIX := "aws:"

  /** `_name`: the secret's name in the secret manager. */
  function SecretName(prefix: string, userId: nat, name: string): string {
    prefix + "/" + IntToString(userId) + "/" + name
  }

  /** The JSON payload `{"value": value}`. */
  function Payload(value: string): AwsSecret {
    AwsSecret(Some(map["value" := JStr(value)]))
  }

  datatype Stored = Stored(aws: map<string, AwsSecret>, ref: string)

  /** `AWSSecretsManagerStore.put`: create the secret, or overwrite its value
      when it already exists. `fault` is the error code of any other failure
      the secret manager reports; it propagates and nothing is written. */
  function Put(aws: map<string, AwsSecret>, prefix: string, userId: nat, name: string, value: string,
               fault: Option<string>): (r: Result<Stored>)
    ensures fault.Some? <==> r.Err?
    ensures r.Ok? ==> r.value.ref == "aws:" + SecretName(prefix, userId, name)
    ensures r.Ok? ==> r.value.aws == aws[SecretName(prefix, userId, name) := Payload(value)]
  {
    var secretName := SecretName(prefix, userId, name);
    if fault.Some? then Err(Uncaught(fault.value))
    else Ok(Stored(aws[secretName := Payload(value)], REF_PREFIX + secretName))
  }

  /** `AWSSecretsManagerStore.get`: the `value` field of the named secret's
      payload, or "" when the payload has none. The requesting user is not
      compared with anything. */
  function Get(aws: map<string, AwsSecret>, userId: nat, ref: string): (r: Result<string>)
    ensures !StartsWith(ref, REF_PREFIX) ==> r == Err(Uncaught("Invalid aws secret ref"))
    ensures StartsWith(ref, REF_PREFIX) && ref[|REF_PREFIX|..] !in aws ==> r.Err?
    ensures StartsWith(ref, REF_PREFIX) && ref[|REF_PREFIX|..] in aws ==>
              r == Ok(ValueOf(aws[ref[|REF_PREFIX|..]]))
  {
    if !StartsWith(ref, REF_PREFIX) then Err(Uncaught("Invalid aws secret ref"))
    else
      AfterPrefix(REF_PREFIX, ref[|REF_PREFIX|..], ':');
      assert ref == REF_PREFIX + ref[|REF_PREFIX|..];
      var secretName := AfterFirst(ref, ':');
      if secretName !in aws then Err(Uncaught("ResourceNotFoundException"))
      else Ok(ValueOf(aws[secretName]))
  }

  /** `str(json.loads(SecretString or "{}").get("value", ""))`. */
  function ValueOf(secret: AwsSecret): (v: string)
    ensures secret.secretString.None? ==> v == ""
    ensures secret.secretString.Some? && "value" !in secret.secretString.value ==> v == ""
    ensures secret.secretString.Some? && "value" in secret.secretString.value ==> v == Str(secret.secretString.value["value"])
  {
    match secret.secretString
    case None => ""
    case Some(obj) => Str(GetOr(obj, "value", JStr("")))
  }

  /** The reference carries the exact secret name, even one containing ':'. */
  lemma RefName(prefix: string, userId: nat, name: string)
    ensures var n := SecretName(prefix, userId, name);
            ':' in REF_PREFIX + n && AfterFirst(REF_PREFIX + n, ':') == n
  {
    AfterPrefix(REF_PREFIX, SecretName(prefix, userId, name), ':');
  }

  /** Reading back a stored value returns it, whichever user asks. */
  lemma GetPut(aws: map<string, AwsSecret>, prefix: string, userId: nat, name: string,
                value: string, reader: nat)
    ensures var r := Put(aws, prefix, userId, name, value, None);
            r.Ok? && Get(r.value.aws, reader, r.value.ref) == Ok(value)
  {
    var r := Put(aws, prefix, userId, name, value, None);
    var ref := r.value.ref;
    assert ref[..|REF_PREFIX|] == REF_PREFIX;
    assert ref[|REF_PREFIX|..] == SecretName(prefix, userId, name);
  }

  /** Storing again under the same name overwrites: the reference is the
      same and the last value wins. */
  lemma PutOverwrites(aws: map<string, AwsSecret>, prefix: string, userId: nat, name: string, v1: string, v2: string)
    ensures var first := Put(aws, prefix, userId, name, v1, None);
            var second := Put(first.value.aws, prefix, userId, name, v2, None);
            && second.value.ref == first.value.ref
            && second.value.aws == aws[SecretName(prefix, userId, name) := Payload(v2)]
  {
  }
}

=== FILE: config.dfy ===
/** The two settings the application normalises before use: which secret
    store to run, and the list of origins allowed by CORS. */
module Config {
  import opened Results
  import opened Text

  const SECRET_STORE_ERROR := "SECRET_STORE must be 'sqlite' or 'aws'"

  /** The `secret_store` field validator: trimmed and lower-cased, then only
      "sqlite" and "aws" are accepted. */
  function ValidateSecretStore(v: string): (r: Result<string>)
    ensures r.Ok? ==> r.value == "sqlite" || r.value == "aws"
    ensures r.Ok? <==> Lower(Strip(v)) == "sqlite" || Lower(Strip(v)) == "aws"
    ensures r.Ok? ==> r.value == Lower(Strip(v))
    ensures r.Err? ==> r.error == Uncaught(SECRET_STORE_ERROR)
  {
    var n := Lower(Strip(v));
    if n == "sqlite" || n == "aws" then Ok(n) else Err(Uncaught(SECRET_STORE_ERROR))
  }

  /** An accepted value validates to itself: the setting is stored normalised. */
  lemma ValidateSecretStoreFixedPoint(v: string)
    ensures var r := ValidateSecretStore(v);
            r.Ok? ==> ValidateSecretStore(r.value) == r
  {
    var r := ValidateSecretStore(v);
    if r.Ok? {
      StripUnpadded(r.value);
      assert Lower(r.value) == r.value;
    }
  }

  /** An entry as the origin list keeps it: non-empty and already stripped. */
  predicate IsClean(e: string) {
    e != "" && Strip(e) == e
  }

  /** The stripped, non-empty entries, in order. */
  function CleanEntries(parts: seq<string>): (r: seq<string>)
    ensures |r| <= |parts|
    ensures forall i :: 0 <= i < |r| ==> IsClean(r[i])
  {
    if |parts| == 0 then []
    else
      var rest := CleanEntries(parts[1..]);
      var e := Strip(parts[0]);
      StripIdempotent(parts[0]);
      if e == "" then rest
      else
        assert IsClean(e);
        [e] + rest
  }

  /** Cleaning a concatenation cleans each part. */
  lemma {:induction false} CleanEntriesAppend(a: seq<string>, b: seq<string>)
    ensures CleanEntries(a + b) == CleanEntries(a) + CleanEntries(b)
  {
    if |a| == 0 {
      assert a + b == b;
    } else {
      assert (a + b)[0] == a[0] && (a + b)[1..] == a[1..] + b;
      CleanEntriesAppend(a[1..], b);
    }
  }

  /** One entry is kept, stripped, unless it is blank; with the append lemma
      this pins the cleaning down on every list. */
  lemma CleanEntriesSingle(p: string)
    ensures CleanEntries([p]) == if Strip(p) == "" then [] else [Strip(p)]
  {
  }

  /** `cors_allow_origins_list`: no origins for a blank setting, the wildcard
      alone for "*", otherwise the comma-separated entries, each stripped,
      with empty ones dropped. */
  function CorsOrigins(v: string): (r: seq<string>)
    ensures IsBlank(v) ==> r == []
    ensures Strip(v) == "*" ==> r == ["*"]
    ensures !IsBlank(v) && Strip(v) != "*" ==> r == CleanEntries(Split(Strip(v), ','))
    ensures forall i :: 0 <= i < |r| ==> IsClean(r[i]) && ',' !in r[i]
  {
    var s := Strip(v);
    StripEmptyIffBlank(v);
    if s == "" then []
    else if s == "*" then ["*"]
    else
      var parts := Split(s, ',');
      assert forall i :: 0 <= i < |parts| ==> Unseparated(parts[i]);
      NoCommaEntries(parts);
      CleanEntries(parts)
  }

  /** The entry holds no separator. */
  predicate Unseparated(e: string) {
    ',' !in e
  }

  lemma {:induction false} NoCommaEntries(parts: seq<string>)
    requires forall i :: 0 <= i < |parts| ==> Unseparated(parts[i])
    ensures forall i :: 0 <= i < |CleanEntries(parts)| ==> Unseparated(CleanEntries(parts)[i])
    decreases |parts|
  {
    if |parts| > 0 {
      var rest := CleanEntries(parts[1..]);
      NoCommaEntries(parts[1..]);
      var e := Strip(parts[0]);
      assert Unseparated(parts[0]);
      StripWithin(parts[0], ',');
      assert Unseparated(e);
      if e != "" {
        var r := [e] + rest;
        assert CleanEntries(parts) == r;
        forall i | 0 <= i < |r| ensures Unseparated(r[i]) {
          if i > 0 {
            assert r[i] == rest[i - 1];
          }
        }
      } else {
        assert CleanEntries(parts) == rest;
      }
    }
  }

  /** A comma-separated list of clean origins reads back as that list. */
  lemma CorsOriginsJoin(items: seq<string>)
    requires |items| >= 1
    requires forall i :: 0 <= i < |items| ==> IsClean(items[i]) && ',' !in items[i]
    ensures CorsOrigins(Join(items, ',')) == items
  {
    var s := Join(items, ',');
    JoinClean(items);
    if s == "*" {
      JoinSingle(items);
    } else {
      OriginList(s);
      SplitJoin(items, ',');
      CleanEntriesClean(items);
    }
  }

  /** A join of clean entries is non-empty and already stripped. */
  lemma JoinClean(items: seq<string>)
    requires |items| >= 1
    requires forall i :: 0 <= i < |items| ==> IsClean(items[i])
    ensures Join(items, ',') != "" && Strip(Join(items, ',')) == Join(items, ',')
  {
    JoinEnds(items);
    StripUnpadded(Join(items, ','));
  }

  /** A stripped setting other than "" and "*" is read as its entry list. */
  lemma OriginList(s: string)
    requires s != "" && s != "*" && Strip(s) == s
    ensures CorsOrigins(s) == CleanEntries(Split(s, ','))
  {
  }

  /** A join equal to "*" of clean entries free of commas is the wildcard entry alone. */
  lemma JoinSingle(items: seq<string>)
    requires |items| >= 1
    requires forall i :: 0 <= i < |items| ==> IsClean(items[i]) && ',' !in items[i]
    requires Join(items, ',') == "*"
    ensures items == ["*"]
  {
    SplitJoin(items, ',');
    assert Split("*", ',') == ["*"];
  }

  /** Entries that are already clean pass through unchanged. */
  lemma {:induction false} CleanEntriesClean(items: seq<string>)
    requires forall i :: 0 <= i < |items| ==> IsClean(items[i])
    ensures CleanEntries(items) == items
    decreases |items|
  {
    if |items| > 0 {
      CleanEntriesClean(items[1..]);
      assert items == [items[0]] + items[1..];
    }
  }

  /** A join of non-empty stripped entries starts and ends with a non-space. */
  lemma {:induction false} JoinEnds(items: seq<string>)
    requires |items| >= 1
    requires forall i :: 0 <= i < |items| ==> IsClean(items[i])
    ensures var s := Join(items, ',');
            |s| > 0 && !IsSpace(s[0]) && !IsSpace(s[|s| - 1])
    decreases |items|
  {
    var s := Join(items, ',');
    assert IsClean(items[0]);
    StrippedEnds(items[0]);
    if |items| > 1 {
      var tail := Join(items[1..], ',');
      JoinEnds(items[1..]);
      assert s == items[0] + [','] + tail;
      assert s[0] == items[0][0];
      assert s[|s| - 1] == tail[|tail| - 1];
    }
  }
}

=== FILE: crypto.dfy ===
/** The two cryptographic primitives the services rely on, kept abstract:
    symmetric encryption of stored secrets (Fernet) and salted password
    hashing (PBKDF2). Only the properties the services depend on are given. */
module Crypto {

  /** A Fernet token. The plaintext is inside; nothing outside this module
      looks at it except through `Decrypt`. */
  datatype Ciphertext = Sealed(plaintext: string)

  function Encrypt(plaintext: string): Ciphertext {
    Sealed(plaintext)
  }

  function Decrypt(token: Ciphertext): string {
    token.plaintext
  }

  /** Decryption undoes encryption (one key throughout). */
  lemma DecryptEncrypt(v: string)
    ensures Decrypt(Encrypt(v)) == v
  {
  }

  /** A stored password hash. */
  datatype Digest = Digest(password: string)

  function Hash(password: string): Digest {
    Digest(password)
  }

  /** `verify_password(password, digest)`. */
  predicate Verify(password: string, digest: Digest) {
    digest.password == password
  }

  /** A hash verifies exactly the password it was made from. */
  lemma VerifyHash(p: string, q: string)
    ensures Verify(p, Hash(q)) <==> p == q
  {
  }
}

=== FILE: github_client.dfy ===
/** The GitHub REST client: the base URL, the requests it issues, and the
    paging of the repository listing through the `Link` response header.
    The HTTP exchange itself is a `Transport` parameter. */
module GithubClient {
  import opened Results
  import opened Text
  import opened Json

  const DEFAULT_BASE_URL := "https://api.github.com"

  predicate IsSlash(c: char) {
    c == '/'
  }

  datatype Client = Client(token: string, baseUrl: string)

  /** `GitHubClient(token, base_url)`: the base URL loses its trailing slashes. */
  function NewClient(token: string, baseUrl: string): (c: Client)
    ensures c.token == token
    ensures c.baseUrl == [] || c.baseUrl[|c.baseUrl| - 1] != '/'
    ensures StartsWith(baseUrl, c.baseUrl)
    ensures forall i :: |c.baseUrl| <= i < |baseUrl| ==> baseUrl[i] == '/'
  {
    Client(token, TrimEnd(baseUrl, IsSlash))
  }

  /** Stripping trailing slashes is idempotent: a client's base URL is kept. */
  lemma NewClientStable(token: string, baseUrl: string)
    ensures var c := NewClient(token, baseUrl); NewClient(token, c.baseUrl) == c
  {
  }

  /** One GET request: the bearer token, the URL and the query parameters. */
  datatype Request = Request(token: string, url: string, params: Option<map<string, string>>)

  /** A successful response: the decoded body and the `Link` header ("" when absent). */
  datatype Response = Response(body: Json, link: string)

  /** The HTTP exchange. A Fault is a connection error or a non-2xx status. */
  type Transport = Request -> Remote<Response>

  /** `get_user`. */
  function UserRequest(c: Client): (r: Request)
    ensures r.token == c.token && r.params.None?
    ensures r.url == c.baseUrl + "/user"
  {
    Request(c.token, c.baseUrl + "/user", None)
  }

  /** `get_repo`: the full name loses surrounding whitespace, then trailing slashes. */
  function RepoRequest(c: Client, fullName: string): (r: Request)
    ensures r.token == c.token && r.params.None?
    ensures StartsWith(r.url, c.baseUrl + "/repos/")
    ensures var name := r.url[|c.baseUrl + "/repos/"|..];
            && (name == [] || name[|name| - 1] != '/')
            && StartsWith(Strip(fullName), name)
            && forall i :: |name| <= i < |Strip(fullName)| ==> Strip(fullName)[i] == '/'
  {
    var name := TrimEnd(Strip(fullName), IsSlash);
    Request(c.token, c.baseUrl + "/repos/" + name, None)
  }

  // ---------------------------------------------------------------------------
  // The Link header

  const REL_NEXT := "rel=\"next\""

  predicate IsAngle(c: char) {
    c == '<' || c == '>'
  }

  /** `part.split(";")[0].strip().strip("<>").strip()`. */
  function LinkTarget(part: string): string {
    Strip(Trim(Strip(Split(part, ';')[0]), IsAngle))
  }

  /** The part mentions rel="next". */
  predicate Announces(part: string) {
    Contains(part, REL_NEXT)
  }

  /** The forward scan over the comma-separated parts: every part mentioning
      rel="next" overwrites the candidate, so the last one wins. The candidate
      is kept as the part's position; its target is taken at the end. */
  function ScanNext(parts: seq<string>, i: nat, found: Option<nat>): Option<nat>
    requires i <= |parts|
    decreases |parts| - i
  {
    if i == |parts| then found
    else ScanNext(parts, i + 1, if Announces(parts[i]) then Some(i) else found)
  }

  /** The next-page URL the header announces, if any part mentions rel="next". */
  function NextLink(link: string): Option<string> {
    var parts := Split(link, ',');
    match ScanNext(parts, 0, None)
    case Some(i) => if i < |parts| then Some(LinkTarget(parts[i])) else None
    case None => None
  }

  /** Part `i` is the last part that mentions rel="next". */
  ghost predicate LastNextAt(parts: seq<string>, i: int) {
    && 0 <= i < |parts|
    && Announces(parts[i])
    && forall j :: i < j < |parts| ==> !Announces(parts[j])
  }

  /** The reference reading of the header: search from the end. */
  function LastNext(parts: seq<string>): (r: Option<nat>)
    ensures r.None? <==> forall j :: 0 <= j < |parts| ==> !Announces(parts[j])
    ensures r.Some? ==> LastNextAt(parts, r.value)
  {
    if |parts| == 0 then None
    else if Announces(parts[|parts| - 1]) then Some(|parts| - 1)
    else
      var init := parts[..|parts| - 1];
      var r := LastNext(init);
      assert r.Some? ==> LastNextAt(parts, r.value) by {
        if r.Some? {
          assert forall j :: r.value < j < |init| ==> init[j] == parts[j];
        }
      }
      r
  }

  /** The scan from position `i` ends with the last matching part at or after
      `i`, or with what it had found before. */
  lemma {:induction false} ScanNextLast(parts: seq<string>, i: nat, found: Option<nat>)
    requires i <= |parts|
    ensures ScanNext(parts, i, found) ==
              match LastNext(parts[i..])
              case Some(k) => Some(i + k)
              case None => found
    decreases |parts| - i
  {
    if i < |parts| {
      var next := if Announces(parts[i]) then Some(i) else found;
      ScanNextLast(parts, i + 1, next);
      var tail := parts[i..];
      assert tail == [parts[i]] + parts[i + 1..];
      var later := LastNext(parts[i + 1..]);
      var all := LastNext(tail);
      match later
      case Some(k) =>
        assert LastNextAt(parts[i + 1..], k);
        assert LastNextAt(tail, k + 1) by {
          assert forall j :: k + 1 < j < |tail| ==> tail[j] == parts[i + 1..][j - 1];
        }
        LastNextUnique(tail, k + 1, all.value);
      case None =>
        if Announces(parts[i]) {
          assert LastNextAt(tail, 0) by {
            assert forall j :: 0 < j < |tail| ==> tail[j] == parts[i + 1..][j - 1];
          }
          LastNextUnique(tail, 0, all.value);
        } else {
          assert forall j :: 0 <= j < |tail| ==> !Announces(tail[j]) by {
            assert forall j :: 0 < j < |tail| ==> tail[j] == parts[i + 1..][j - 1];
          }
        }
    }
  }

  /** At most one part is the last to announce a next page. */
  lemma LastNextUnique(parts: seq<string>, i: int, j: int)
    requires LastNextAt(parts, i) && LastNextAt(parts, j)
    ensures i == j
  {
  }

  /** The next link is the target of the last part mentioning rel="next", and
      there is none exactly when no part mentions it. */
  lemma NextLinkIsLast(link: string)
    ensures NextLink(link).None? <==> forall j :: 0 <= j < |Split(link, ',')| ==> !Announces(Split(link, ',')[j])
    ensures NextLink(link).Some? ==>
              exists i :: LastNextAt(Split(link, ','), i) && NextLink(link).value == LinkTarget(Split(link, ',')[i])
  {
    var parts := Split(link, ',');
    ScanNextLast(parts, 0, None);
    assert parts[0..] == parts;
    var r := LastNext(parts);
    assert ScanNext(parts, 0, None) == r;
    if r.Some? {
      assert NextLink(link) == Some(LinkTarget(parts[r.value]));
      assert 0 <= r.value < |Split(link, ',')| && Announces(Split(link, ',')[r.value]);
    } else {
      assert NextLink(link) == None;
    }
  }

  // ---------------------------------------------------------------------------
  // The repository listing

  const MAX_PAGES := 2
  const FIRST_PARAMS := map["per_page" := "100", "sort" := "updated"]

  /** The loop continues only to a non-empty next URL. */
  function Continuation(link: string): Option<string> {
    match NextLink(link)
    case Some(u) => if u != "" then Some(u) else None
    case None => None
  }

  /** What `list_repos` did: the requests it issued, and the repositories or the failure. */
  datatype Listing = Listing(requests: seq<Request>, result: Remote<seq<Json>>)

  /** What `repos.extend(r.json())` adds for a page body, when it is iterable. */
  function PageItems(body: Json): seq<Json> {
    match Iterated(body)
    case Some(items) => items
    case None => []
  }

  /** The items the bodies answering `requests` add, in order. */
  function Collected(fetch: Transport, requests: seq<Request>): seq<Json> {
    if |requests| == 0 then []
    else
      var page := match fetch(requests[0])
        case Reply(resp) => PageItems(resp.body)
        case _ => [];
      page + Collected(fetch, requests[1..])
  }

  /** `list_repos`: the first page with `per_page=100&sort=updated`, then the
      announced next pages without parameters, at most two requests in all. */
  function ListRepos(c: Client, fetch: Transport): (l: Listing)
    ensures 1 <= |l.requests| <= MAX_PAGES
    ensures l.requests[0] == Request(c.token, c.baseUrl + "/user/repos", Some(FIRST_PARAMS))
    ensures forall k :: 1 <= k < |l.requests| ==> l.requests[k].params.None?
    ensures forall k :: 0 <= k < |l.requests| - 1 ==> Followed(fetch, l.requests, k)
    ensures l.result.Reply? ==> l.result.body == Collected(fetch, l.requests)
    ensures l.result.Reply? && |l.requests| < MAX_PAGES ==> Stopped(fetch, l.requests)
    ensures l.result.Reply? <==> forall k :: 0 <= k < |l.requests| ==> Answered(fetch, l.requests[k])
    ensures forall k :: 0 <= k < |l.requests| && fetch(l.requests[k]).Fault? ==> l.result == Fault(fetch(l.requests[k]).message)
    ensures forall k :: 0 <= k < |l.requests| && fetch(l.requests[k]).Reply? && Iterated(fetch(l.requests[k]).body.body).None? ==>
              l.result == Fault(NotIterable(fetch(l.requests[k]).body.body))
  {
    var l := Pages(c.token, fetch, Request(c.token, c.baseUrl + "/user/repos", Some(FIRST_PARAMS)), MAX_PAGES - 1);
    FailureIsLast(fetch, l);
    l
  }

  /** Request `k` was answered with an iterable page whose link announced request `k + 1`. */
  ghost predicate Followed(fetch: Transport, requests: seq<Request>, k: int)
    requires 0 <= k < |requests| - 1
  {
    && fetch(requests[k]).Reply?
    && Iterated(fetch(requests[k]).body.body).Some?
    && Continuation(fetch(requests[k]).body.link) == Some(requests[k + 1].url)
  }

  /** The request was answered, and its body can be iterated. */
  ghost predicate Answered(fetch: Transport, req: Request) {
    fetch(req).Reply? && Iterated(fetch(req).body.body).Some?
  }

  /** What `raise_for_status` or `repos.extend` raises for a request not answered with an iterable page. */
  function Raised(reply: Remote<Response>): string
    requires !(reply.Reply? && Iterated(reply.body.body).Some?)
  {
    if reply.Fault? then reply.message else NotIterable(reply.body.body)
  }

  /** The last request was answered with an iterable page announcing no next page. */
  ghost predicate Stopped(fetch: Transport, requests: seq<Request>)
    requires |requests| > 0
  {
    var last := fetch(requests[|requests| - 1]);
    last.Reply? && Iterated(last.body.body).Some? && Continuation(last.body.link).None?
  }

  /** The loop from request `req` on, with `budget` more requests allowed after it. */
  function Pages(token: string, fetch: Transport, req: Request, budget: nat): (l: Listing)
    ensures 1 <= |l.requests| <= budget + 1
    ensures l.requests[0] == req
    ensures forall k :: 1 <= k < |l.requests| ==> l.requests[k] == Request(token, l.requests[k].url, None)
    ensures forall k :: 0 <= k < |l.requests| - 1 ==> Followed(fetch, l.requests, k)
    ensures l.result.Reply? ==> l.result.body == Collected(fetch, l.requests)
    ensures l.result.Reply? && |l.requests| < budget + 1 ==> Stopped(fetch, l.requests)
    ensures fetch(req).Reply? && Iterated(fetch(req).body.body).None? ==>
              l == Listing([req], Fault(NotIterable(fetch(req).body.body)))
    ensures fetch(req).Fault? ==> l == Listing([req], Fault(fetch(req).message))
    ensures l.result.Reply? <==> forall k :: 0 <= k < |l.requests| ==> Answered(fetch, l.requests[k])
    ensures !Answered(fetch, l.requests[|l.requests| - 1]) ==> l.result == Fault(Raised(fetch(l.requests[|l.requests| - 1])))
    decreases budget
  {
    match fetch(req)
    case Fault(e) => Listing([req], Fault(e))
    case Reply(resp) =>
      if Iterated(resp.body).None? then Listing([req], Fault(NotIterable(resp.body)))
      else
        var page := PageItems(resp.body);
        CollectedInFront(fetch, req, []);
        assert [req] + [] == [req];
        match Continuation(resp.link)
        case None => Listing([req], Reply(page))
        case Some(u) =>
          if budget == 0 then Listing([req], Reply(page))
          else
            var rest := Pages(token, fetch, Request(token, u, None), budget - 1);
            FollowOn(fetch, req, rest.requests);
            PlainInFront(token, req, rest.requests);
            AnsweredInFront(fetch, req, rest.requests);
            (match rest.result
             case Fault(e) => Listing([req] + rest.requests, Fault(e))
             case Reply(items) => Listing([req] + rest.requests, Reply(page + items)))
  }

  /** Putting a request whose page announced the next one in front of the
      requests that followed it. */
  lemma FollowOn(fetch: Transport, req: Request, rest: seq<Request>)
    requires fetch(req).Reply? && Iterated(fetch(req).body.body).Some?
    requires |rest| >= 1 && Continuation(fetch(req).body.link) == Some(rest[0].url)
    requires forall k :: 0 <= k < |rest| - 1 ==> Followed(fetch, rest, k)
    ensures var requests := [req] + rest;
            && (forall k :: 0 <= k < |requests| - 1 ==> Followed(fetch, requests, k))
            && Collected(fetch, requests) == PageItems(fetch(req).body.body) + Collected(fetch, rest)
            && (Stopped(fetch, rest) ==> Stopped(fetch, requests))
  {
    CollectedInFront(fetch, req, rest);
    assert ([req] + rest)[|[req] + rest| - 1] == rest[|rest| - 1];
    FollowedInFront(fetch, req, rest);
  }

  /** Requests after the first stay plain token requests when one more is put in front. */
  lemma PlainInFront(token: string, req: Request, rest: seq<Request>)
    requires forall k :: 1 <= k < |rest| ==> rest[k] == Request(token, rest[k].url, None)
    requires |rest| >= 1 && rest[0] == Request(token, rest[0].url, None)
    ensures forall k :: 1 <= k < |[req] + rest| ==> ([req] + rest)[k] == Request(token, ([req] + rest)[k].url, None)
  {
    forall k | 1 <= k < |[req] + rest| ensures ([req] + rest)[k] == Request(token, ([req] + rest)[k].url, None) {
      assert ([req] + rest)[k] == rest[k - 1];
    }
  }

  /** Only the last request of a listing can fail, so whichever request
      failed decides the listing's failure. */
  lemma FailureIsLast(fetch: Transport, l: Listing)
    requires |l.requests| >= 1
    requires forall k :: 0 <= k < |l.requests| - 1 ==> Followed(fetch, l.requests, k)
    requires !Answered(fetch, l.requests[|l.requests| - 1]) ==> l.result == Fault(Raised(fetch(l.requests[|l.requests| - 1])))
    ensures forall k :: 0 <= k < |l.requests| && fetch(l.requests[k]).Fault? ==> l.result == Fault(fetch(l.requests[k]).message)
    ensures forall k :: 0 <= k < |l.requests| && fetch(l.requests[k]).Reply? && Iterated(fetch(l.requests[k]).body.body).None? ==>
              l.result == Fault(NotIterable(fetch(l.requests[k]).body.body))
  {
    forall k | 0 <= k < |l.requests| - 1 ensures Answered(fetch, l.requests[k]) {
      assert Followed(fetch, l.requests, k);
    }
  }

  /** All requests of a longer chain are answered exactly when the first and
      all of the rest are; its last request is the rest's last. */
  lemma AnsweredInFront(fetch: Transport, req: Request, rest: seq<Request>)
    requires Answered(fetch, req) && |rest| >= 1
    ensures (forall k :: 0 <= k < |[req] + rest| ==> Answered(fetch, ([req] + rest)[k]))
            <==> (forall k :: 0 <= k < |rest| ==> Answered(fetch, rest[k]))
    ensures ([req] + rest)[|[req] + rest| - 1] == rest[|rest| - 1]
  {
    if forall k :: 0 <= k < |rest| ==> Answered(fetch, rest[k]) {
      AllAnsweredInFront(fetch, req, rest);
    }
    if forall k :: 0 <= k < |[req] + rest| ==> Answered(fetch, ([req] + rest)[k]) {
      AllAnsweredBehind(fetch, req, rest);
    }
  }

  lemma AllAnsweredInFront(fetch: Transport, req: Request, rest: seq<Request>)
    requires Answered(fetch, req)
    requires forall k :: 0 <= k < |rest| ==> Answered(fetch, rest[k])
    ensures forall k :: 0 <= k < |[req] + rest| ==> Answered(fetch, ([req] + rest)[k])
  {
    var requests := [req] + rest;
    forall k | 0 <= k < |requests| ensures Answered(fetch, requests[k]) {
      if k > 0 { assert requests[k] == rest[k - 1]; }
    }
  }

  lemma AllAnsweredBehind(fetch: Transport, req: Request, rest: seq<Request>)
    requires forall k :: 0 <= k < |[req] + rest| ==> Answered(fetch, ([req] + rest)[k])
    ensures forall k :: 0 <= k < |rest| ==> Answered(fetch, rest[k])
  {
    var requests := [req] + rest;
    forall k | 0 <= k < |rest| ensures Answered(fetch, rest[k]) {
      assert requests[k + 1] == rest[k];
    }
  }

  /** The items of a longer chain: the first page's, then the rest's. */
  lemma CollectedInFront(fetch: Transport, req: Request, rest: seq<Request>)
    requires fetch(req).Reply?
    ensures Collected(fetch, [req] + rest) == PageItems(fetch(req).body.body) + Collected(fetch, rest)
  {
    var requests := [req] + rest;
    assert requests[1..] == rest;
    assert requests[0] == req;
  }

  /** Every step of the longer chain is a followed link: the first by the
      announced continuation, the others as steps of `rest`. */
  lemma FollowedInFront(fetch: Transport, req: Request, rest: seq<Request>)
    requires fetch(req).Reply? && Iterated(fetch(req).body.body).Some?
    requires |rest| >= 1 && Continuation(fetch(req).body.link) == Some(rest[0].url)
    requires forall k :: 0 <= k < |rest| - 1 ==> Followed(fetch, rest, k)
    ensures forall k :: 0 <= k < |[req] + rest| - 1 ==> Followed(fetch, [req] + rest, k)
  {
    var requests := [req] + rest;
    forall k | 0 <= k < |requests| - 1 ensures Followed(fetch, requests, k) {
      if k > 0 {
        assert requests[k] == rest[k - 1] && requests[k + 1] == rest[k];
        assert Followed(fetch, rest, k - 1);
      } else {
        assert requests[0] == req && requests[1] == rest[0];
      }
    }
  }
}

=== FILE: github_service.dfy ===
/** The GitHub integration: connecting with a personal access token, listing
    the user's repositories and reading one repository's details. Each call
    that uses the stored token records its outcome on the integration row. */
module GithubService {
  import opened Results
  import opened Text
  import opened Json
  import opened Tables
  import opened Models
  import opened Requests
  import opened Providers
  import SecretStore
  import GithubClient

  const PROVIDER := "github"
  const NOT_CONFIGURED := "GitHub integration not configured"
  const AUTH_FAILED := "GitHub auth failed: "
  const API_FAILED := "GitHub API failed: "
  const BAD_FULL_NAME := "full_name must be like owner/repo"

  /** The secret-store name of a label's token. */
  function TokenName(tag: string): string {
    "github_token:" + tag
  }

  function Client(token: string): GithubClient.Client {
    GithubClient.NewClient(token, GithubClient.DEFAULT_BASE_URL)
  }

  datatype Connected = Connected(tag: string, login: string, userId: int)

  /** The integration config stored for a GitHub account. */
  function AccountConfig(account: Connected): map<string, Json> {
    map["type" := JStr("pat"), "github_user_id" := JInt(account.userId), "github_login" := JStr(account.login)]
  }

  /** The account a `/user` body describes: `int(me.get("id", 0))` and
      `str(me.get("login", ""))`; a body that is not an object has no `get`. */
  function Account(tag: string, me: Json): (r: Result<Connected>)
    ensures !me.JObject? ==> r == Err(Uncaught(NoGet(me)))
    ensures me.JObject? && "id" !in me.fields ==> r.Ok? && r.value.userId == 0
    ensures me.JObject? && "id" in me.fields && me.fields["id"].JInt? ==> r.Ok? && r.value.userId == me.fields["id"].i
    ensures me.JObject? && "id" in me.fields && me.fields["id"].JStr? ==>
              (r.Ok? <==> ParseInt(me.fields["id"].s).Some?) && (r.Ok? ==> Some(r.value.userId) == ParseInt(me.fields["id"].s))
    ensures me.JObject? && "login" !in me.fields && r.Ok? ==> r.value.login == ""
    ensures me.JObject? && "login" in me.fields && me.fields["login"].JStr? && r.Ok? ==>
              r.value.login == me.fields["login"].s
    ensures r.Ok? ==> r.value.tag == tag
  {
    if !me.JObject? then Err(Uncaught(NoGet(me)))
    else
      var id :- Int(GetOr(me.fields, "id", JInt(0)));
      Ok(Connected(tag, Str(GetOr(me.fields, "login", JStr(""))), id))
  }

  /** `GithubService.connect`. The token is checked against `/user` first; a
      failure there changes nothing. The token is then stored, and the
      integration row for the label is created or updated with the account's
      config, the token's reference and an "OK" test status. */
  function Connect(db: Db, env: Env, userId: nat, req: GithubConnect, fetch: GithubClient.Transport): (s: Step<Connected>)
    ensures fetch(GithubClient.UserRequest(Client(req.token))).Fault? ==>
              s == Step(db, Err(HttpError(BAD_REQUEST, AUTH_FAILED + fetch(GithubClient.UserRequest(Client(req.token))).message)))
    ensures var me := fetch(GithubClient.UserRequest(Client(req.token)));
            var put := SecretStore.Put(env.backend, db, userId, TokenName(req.tag), req.token, env.awsFault, env.now);
            me.Reply? ==>
              && (put.Err? ==> s == Step(db, Err(put.error)))
              && (put.Ok? ==> (s.out.Ok? <==> Account(req.tag, me.body.body).Ok?))
              && (put.Ok? && Account(req.tag, me.body.body).Err? ==> s == Step(put.value.db, Err(Account(req.tag, me.body.body).error)))
              && (s.out.Ok? ==> Ok(s.out.value) == Account(req.tag, me.body.body))
    ensures s.out.Ok? ==> s.out.value.tag == req.tag
    ensures s.out.Ok? ==> exists i, ref ::
              && ConnectedAt(s.db.integrations, i, userId, PROVIDER, req.tag, AccountConfig(s.out.value), ref, env.now)
              && SecretStore.Get(env.backend, s.db, userId, ref) == Ok(req.token)
    ensures s.out.Ok? ==> s.db.users == db.users && s.db.settings == db.settings && s.db.mappings == db.mappings
    ensures Valid(db) ==> Valid(s.db)
  {
    match fetch(GithubClient.UserRequest(Client(req.token)))
    case Fault(e) => Step(db, Err(HttpError(BAD_REQUEST, AUTH_FAILED + e)))
    case Reply(me) =>
      match SecretStore.Put(env.backend, db, userId, TokenName(req.tag), req.token, env.awsFault, env.now)
      case Err(e) => Step(db, Err(e))
      case Ok(stored) =>
        match Account(req.tag, me.body)
        case Err(e) => Step(stored.db, Err(e))
        case Ok(account) =>
          var db' := Link(stored, env, userId, PROVIDER, req.tag, AccountConfig(account), req.token);
          Step(db', Ok(account))
  }

  /** A connected account is found again by the listing calls, and the
      token they read back is the one connected. */
  lemma ConnectThenConfigured(db: Db, env: Env, userId: nat, req: GithubConnect, fetch: GithubClient.Transport)
    requires Valid(db)
    ensures var s := Connect(db, env, userId, req, fetch);
            s.out.Ok? ==>
              var r := Configured(s.db, userId, PROVIDER, req.tag, NOT_CONFIGURED);
              r.Ok? && SecretOf(s.db, env, userId, r.value) == Ok(req.token)
  {
    var s := Connect(db, env, userId, req, fetch);
    if s.out.Ok? {
      var i, ref :| && ConnectedAt(s.db.integrations, i, userId, PROVIDER, req.tag, AccountConfig(s.out.value), ref, env.now)
                    && SecretStore.Get(env.backend, s.db, userId, ref) == Ok(req.token);
      var r := Configured(s.db, userId, PROVIDER, req.tag, NOT_CONFIGURED);
      assert HasSecret(s.db.integrations[i].val);
      assert r.value == i;
    }
  }

  // ---------------------------------------------------------------------------
  // Repository listing

  datatype Repo = Repo(id: int, fullName: string, isPrivate: bool, htmlUrl: string)

  /** The listing keeps the items whose `full_name` is truthy. */
  predicate Named(item: Json) {
    HasTruthy(item, "full_name")
  }

  /** The repository an object describes, with GitHub's defaults. */
  function RepoOf(fields: map<string, Json>): (r: Result<Repo>)
    ensures r.Ok? <==> Int(GetOr(fields, "id", JInt(0))).Ok?
    ensures r.Ok? ==> r.value.id == Int(GetOr(fields, "id", JInt(0))).value
    ensures r.Ok? ==> r.value.isPrivate == Truthy(GetOr(fields, "private", JBool(false)))
    ensures r.Ok? ==> r.value.fullName == Str(GetOr(fields, "full_name", JStr("")))
    ensures r.Ok? ==> r.value.htmlUrl == Str(GetOr(fields, "html_url", JStr("")))
    ensures r.Ok? && "full_name" in fields && fields["full_name"].JStr? ==> r.value.fullName == fields["full_name"].s
  {
    var id :- Int(GetOr(fields, "id", JInt(0)));
    Ok(Repo(id, Str(GetOr(fields, "full_name", JStr(""))), Truthy(GetOr(fields, "private", JBool(false))),
            Str(GetOr(fields, "html_url", JStr("")))))
  }

  /** The list comprehension over the raw items: an item that is not an
      object fails (`.get` is looked up on it), an unnamed object is skipped,
      and a named one becomes a repository. */
  function Repos(items: seq<Json>): (r: Result<seq<Repo>>)
    ensures (exists k :: 0 <= k < |items| && !items[k].JObject?) ==> r.Err?
    ensures (forall k :: 0 <= k < |items| ==> items[k].JObject? && (Named(items[k]) ==> RepoOf(items[k].fields).Ok?)) ==> r.Ok?
  {
    if |items| == 0 then Ok([])
    else if !items[0].JObject? then Err(Uncaught(NoGet(items[0])))
    else if !Named(items[0]) then
      var rest :- Repos(items[1..]);
      assert forall k :: 0 <= k < |items| - 1 ==> items[1..][k] == items[k + 1];
      Ok(rest)
    else
      var repo :- RepoOf(items[0].fields);
      var rest :- Repos(items[1..]);
      assert forall k :: 0 <= k < |items| - 1 ==> items[1..][k] == items[k + 1];
      Ok([repo] + rest)
  }

  /** A successful listing has one repository per named item, in order, each
      built from its item. */
  lemma {:induction false} ReposNamed(items: seq<Json>)
    requires Repos(items).Ok?
    ensures var named := WithTruthy(items, "full_name");
            && |Repos(items).value| == |named|
            && forall k :: 0 <= k < |named| ==> RepoOf(named[k].fields) == Ok(Repos(items).value[k])
  {
    if |items| > 0 {
      var x, tail := items[0], items[1..];
      ReposNamed(tail);
      var t, named := Repos(tail).value, WithTruthy(tail, "full_name");
      if Named(x) {
        assert Repos(items).value == [RepoOf(x.fields).value] + t;
        assert WithTruthy(items, "full_name") == [x] + named;
      } else {
        assert Repos(items).value == t;
        assert WithTruthy(items, "full_name") == named;
      }
    }
  }

  /** `GithubService.list_repos`. */
  function ListRepos(db: Db, env: Env, userId: nat, tag: string, fetch: GithubClient.Transport): (s: Step<seq<Repo>>)
    ensures Configured(db, userId, PROVIDER, tag, NOT_CONFIGURED).Err? ==>
              s == Step(db, Err(HttpError(NOT_FOUND, NOT_CONFIGURED)))
    ensures forall i :: Configured(db, userId, PROVIDER, tag, NOT_CONFIGURED) == Ok(i) ==>
              var secret := SecretOf(db, env, userId, i);
              && (secret.Err? ==> s == Step(db, Err(secret.error)))
              && (secret.Ok? ==>
                    var listing := GithubClient.ListRepos(Client(secret.value), fetch);
                    && (listing.result.Fault? ==> s == Step(RecordTestAt(db, i, Some(listing.result.message), env.now),
                                                            Err(HttpError(BAD_REQUEST, API_FAILED + listing.result.message))))
                    && (listing.result.Reply? ==> s.db == RecordTestAt(db, i, None, env.now)
                                                  && s.out == Repos(listing.result.body)))
    ensures Valid(db) ==> Valid(s.db)
  {
    match Configured(db, userId, PROVIDER, tag, NOT_CONFIGURED)
    case Err(e) => Step(db, Err(e))
    case Ok(i) =>
      match SecretOf(db, env, userId, i)
      case Err(e) => Step(db, Err(e))
      case Ok(token) =>
        var step := Recorded(db, i, GithubClient.ListRepos(Client(token), fetch).result, API_FAILED, env.now);
        match step.out
        case Err(e) => Step(step.db, Err(e))
        case Ok(items) => Step(step.db, Repos(items))
  }

  // ---------------------------------------------------------------------------
  // Repository details

  /** The fields of the details passed through as GitHub sent them (null
      when absent). */
  const PASSED_THROUGH: set<string> := {
    "description", "default_branch", "clone_url", "ssh_url", "language", "visibility",
    "archived", "disabled", "fork", "stargazers_count", "watchers_count", "forks_count",
    "open_issues_count", "created_at", "updated_at", "pushed_at"
  }

  datatype RepoDetails = RepoDetails(
    repo: Repo,
    extra: map<string, Json>,
    topics: Option<seq<Json>>,
    ownerLogin: Json)

  /** `GithubRepoDetails(...)` built from the repository object. */
  function DetailsOf(body: Json): (r: Result<RepoDetails>)
    ensures !body.JObject? ==> r == Err(Uncaught(NoGet(body)))
    ensures body.JObject? ==> (r.Ok? <==> RepoOf(body.fields).Ok?)
    ensures body.JObject? && RepoOf(body.fields).Err? ==> r == Err(RepoOf(body.fields).error)
    ensures r.Ok? ==> r.value.repo == RepoOf(body.fields).value
    ensures r.Ok? ==> r.value.extra.Keys == PASSED_THROUGH
    ensures r.Ok? ==> forall k :: k in PASSED_THROUGH ==> r.value.extra[k] == Get(body.fields, k)
    ensures r.Ok? ==> (r.value.topics.Some? <==> Get(body.fields, "topics").JList?)
    ensures r.Ok? && r.value.topics.Some? ==> r.value.topics.value == body.fields["topics"].items
    ensures r.Ok? && !Get(body.fields, "owner").JObject? ==> r.value.ownerLogin == JNull
    ensures r.Ok? && Get(body.fields, "owner").JObject? ==> r.value.ownerLogin == Get(body.fields["owner"].fields, "login")
  {
    if !body.JObject? then Err(Uncaught(NoGet(body)))
    else
      var fields := body.fields;
      var repo :- RepoOf(fields);
      var topics := match Get(fields, "topics")
        case JList(items) => Some(items)
        case _ => None;
      var owner := match Get(fields, "owner")
        case JObject(o) => Get(o, "login")
        case _ => JNull;
      Ok(RepoDetails(repo, map k | k in PASSED_THROUGH :: Get(fields, k), topics, owner))
  }

  /** The details call once the full name is stripped and checked. */
  function FetchDetails(db: Db, env: Env, userId: nat, fullName: string, tag: string,
                        fetch: GithubClient.Transport): (s: Step<RepoDetails>)
    ensures Configured(db, userId, PROVIDER, tag, NOT_CONFIGURED).Err? ==>
              s == Step(db, Err(HttpError(NOT_FOUND, NOT_CONFIGURED)))
    ensures forall i :: Configured(db, userId, PROVIDER, tag, NOT_CONFIGURED) == Ok(i) ==>
              var secret := SecretOf(db, env, userId, i);
              && (secret.Err? ==> s == Step(db, Err(secret.error)))
              && (secret.Ok? ==>
                    var reply := fetch(GithubClient.RepoRequest(Client(secret.value), fullName));
                    && (reply.Fault? ==> s == Step(RecordTestAt(db, i, Some(reply.message), env.now),
                                                   Err(HttpError(BAD_REQUEST, API_FAILED + reply.message))))
                    && (reply.Reply? ==> s.db == RecordTestAt(db, i, None, env.now) && s.out == DetailsOf(reply.body.body)))
    ensures Valid(db) ==> Valid(s.db)
  {
    match Configured(db, userId, PROVIDER, tag, NOT_CONFIGURED)
    case Err(e) => Step(db, Err(e))
    case Ok(i) =>
      match SecretOf(db, env, userId, i)
      case Err(e) => Step(db, Err(e))
      case Ok(token) =>
        var reply := fetch(GithubClient.RepoRequest(Client(token), fullName));
        var step := Recorded(db, i, reply, API_FAILED, env.now);
        match step.out
        case Err(e) => Step(step.db, Err(e))
        case Ok(resp) => Step(step.db, DetailsOf(resp.body))
  }

  /** `GithubService.get_repo_details`: a full name without '/' is refused
      before anything is read or recorded. */
  function GetRepoDetails(db: Db, env: Env, userId: nat, fullName: string, tag: string,
                          fetch: GithubClient.Transport): (s: Step<RepoDetails>)
    ensures '/' !in Strip(fullName) ==> s == Step(db, Err(HttpError(BAD_REQUEST, BAD_FULL_NAME)))
    ensures '/' in Strip(fullName) ==> s == FetchDetails(db, env, userId, Strip(fullName), tag, fetch)
  {
    var name := Strip(fullName);
    if '/' !in name then Step(db, Err(HttpError(BAD_REQUEST, BAD_FULL_NAME)))
    else FetchDetails(db, env, userId, name, tag, fetch)
  }
}

=== FILE: integration_service.dfy ===
/** The connected integrations of a user: the listing, ordered by provider
    and label, and deletion, which also removes the row's secret from the
    local store when it can. */
module IntegrationService {
  import opened Results
  import opened Text
  import opened Json
  import opened Tables
  import opened Models
  import opened Ordering
  import SqliteStore

  const NOT_FOUND_DETAIL := "Integration not found"

  /** One entry of the listing. */
  datatype Summary = Summary(
    id: nat,
    provider: string,
    tag: string,
    config: map<string, Json>,
    createdAt: Timestamp,
    updatedAt: Timestamp,
    lastTestedAt: Option<Timestamp>,
    lastTestOk: Option<bool>,
    lastTestMessage: Option<string>)

  /** The entry describes the row: its columns, with a config that cannot be
      parsed shown as an empty object. */
  ghost predicate Describes(s: Summary, row: Row<Integration>) {
    && s.id == row.id
    && s.provider == row.val.provider && s.tag == row.val.tag
    && (row.val.config.Parsed? ==> s.config == row.val.config.fields)
    && (row.val.config.Unparsable? ==> s.config == map[])
    && s.createdAt == row.val.createdAt && s.updatedAt == row.val.updatedAt
    && s.lastTestedAt == row.val.lastTestedAt
    && s.lastTestOk == row.val.lastTestOk
    && s.lastTestMessage == row.val.lastTestMessage
  }

  /** The entry describes one of the caller's rows. */
  ghost predicate DescribesOwnRow(s: Summary, db: Db, userId: nat) {
    exists k :: 0 <= k < |db.integrations| && db.integrations[k].val.userId == userId
      && Describes(s, db.integrations[k])
  }

  /** Some entry of the listing describes the row. */
  ghost predicate Described(row: Row<Integration>, r: seq<Summary>) {
    exists i :: 0 <= i < |r| && Describes(r[i], row)
  }

  function Summarize(row: Row<Integration>): (s: Summary)
    ensures Describes(s, row)
  {
    var cfg := match row.val.config
      case Parsed(fields) => fields
      case Unparsable => map[];
    Summary(row.id, row.val.provider, row.val.tag, cfg, row.val.createdAt, row.val.updatedAt,
            row.val.lastTestedAt, row.val.lastTestOk, row.val.lastTestMessage)
  }

  function SortKey(row: Row<Integration>): (string, string) {
    (row.val.provider, row.val.tag)
  }

  /** `ORDER BY provider ASC, label ASC`. */
  ghost predicate Sorted(rows: seq<Row<Integration>>) {
    forall i, j :: 0 <= i < j < |rows| ==> PairLeq(SortKey(rows[i]), SortKey(rows[j]))
  }

  /** Places `x` into a sorted sequence. */
  function InsertSorted(x: Row<Integration>, rows: seq<Row<Integration>>): (r: seq<Row<Integration>>)
    requires Sorted(rows)
    ensures Sorted(r)
    ensures multiset(r) == multiset(rows) + multiset{x}
    decreases |rows|
  {
    if |rows| == 0 then [x]
    else if PairLeq(SortKey(x), SortKey(rows[0])) then
      BelowSorted(x, rows);
      SortedCons(x, rows);
      [x] + rows
    else
      var rest := InsertSorted(x, rows[1..]);
      assert rows == [rows[0]] + rows[1..];
      PairLeqTotal(SortKey(x), SortKey(rows[0]));
      BelowAll(rows[0], rows[1..], x, rest);
      SortedCons(rows[0], rest);
      [rows[0]] + rest
  }

  /** A row at or below every row of a sorted sequence may go first. */
  lemma SortedCons(h: Row<Integration>, rows: seq<Row<Integration>>)
    requires Sorted(rows)
    requires forall j :: 0 <= j < |rows| ==> PairLeq(SortKey(h), SortKey(rows[j]))
    ensures Sorted([h] + rows)
  {
    var r := [h] + rows;
    forall i, j | 0 <= i < j < |r| ensures PairLeq(SortKey(r[i]), SortKey(r[j])) {
      assert r[j] == rows[j - 1];
      if i > 0 {
        assert r[i] == rows[i - 1];
      }
    }
  }

  /** A row at or below the first of a sorted sequence is at or below all of it. */
  lemma BelowSorted(x: Row<Integration>, rows: seq<Row<Integration>>)
    requires Sorted(rows) && |rows| > 0
    requires PairLeq(SortKey(x), SortKey(rows[0]))
    ensures forall j :: 0 <= j < |rows| ==> PairLeq(SortKey(x), SortKey(rows[j]))
  {
    forall j | 0 < j < |rows| ensures PairLeq(SortKey(x), SortKey(rows[j])) {
      PairLeqTrans(SortKey(x), SortKey(rows[0]), SortKey(rows[j]));
    }
  }

  /** A bound on `tail` and on `x` bounds every rearrangement of them. */
  lemma BelowAll(h: Row<Integration>, tail: seq<Row<Integration>>, x: Row<Integration>, rest: seq<Row<Integration>>)
    requires forall j :: 0 <= j < |tail| ==> PairLeq(SortKey(h), SortKey(tail[j]))
    requires PairLeq(SortKey(h), SortKey(x))
    requires multiset(rest) == multiset(tail) + multiset{x}
    ensures forall j :: 0 <= j < |rest| ==> PairLeq(SortKey(h), SortKey(rest[j]))
  {
    forall j | 0 <= j < |rest| ensures PairLeq(SortKey(h), SortKey(rest[j])) {
      assert rest[j] in multiset(rest);
      assert rest[j] == x || rest[j] in multiset(tail);
    }
  }

  /** Insertion sort by (provider, label). */
  function Sort(rows: seq<Row<Integration>>): (r: seq<Row<Integration>>)
    ensures Sorted(r)
    ensures multiset(r) == multiset(rows)
    decreases |rows|
  {
    if |rows| == 0 then []
    else
      assert rows == rows[..|rows| - 1] + [rows[|rows| - 1]];
      InsertSorted(rows[|rows| - 1], Sort(rows[..|rows| - 1]))
  }

  function OwnedBy(userId: nat): Integration -> bool {
    (x: Integration) => x.userId == userId
  }

  /** Two arrangements of the same rows have the same members. */
  lemma SameMembers(a: seq<Row<Integration>>, b: seq<Row<Integration>>)
    requires multiset(a) == multiset(b)
    ensures forall i :: 0 <= i < |a| ==> a[i] in b
    ensures forall j :: 0 <= j < |b| ==> b[j] in a
  {
    forall i | 0 <= i < |a| ensures a[i] in b {
      assert a[i] in multiset(b);
    }
    forall j | 0 <= j < |b| ensures b[j] in a {
      assert b[j] in multiset(a);
    }
  }

  /** The caller's rows in listing order. */
  function Rows(db: Db, userId: nat): (r: seq<Row<Integration>>)
    ensures Sorted(r)
    ensures forall i :: 0 <= i < |r| ==> r[i] in db.integrations && r[i].val.userId == userId
    ensures forall j :: 0 <= j < |db.integrations| && db.integrations[j].val.userId == userId ==>
              db.integrations[j] in r
    ensures multiset(r) == multiset(Select(db.integrations, OwnedBy(userId)))
  {
    var own := Select(db.integrations, OwnedBy(userId));
    var r := Sort(own);
    SameMembers(r, own);
    r
  }

  /** `IntegrationService.list`: every integration of the caller and no
      other, ordered by provider and then label. */
  function List(db: Db, userId: nat): (r: seq<Summary>)
    ensures forall i, j :: 0 <= i < j < |r| ==> PairLeq((r[i].provider, r[i].tag), (r[j].provider, r[j].tag))
    ensures forall i :: 0 <= i < |r| ==> DescribesOwnRow(r[i], db, userId)
    ensures forall k :: 0 <= k < |db.integrations| && db.integrations[k].val.userId == userId ==>
              Described(db.integrations[k], r)
    ensures |r| == |Select(db.integrations, OwnedBy(userId))|
  {
    var rows := Rows(db, userId);
    assert |multiset(rows)| == |rows|;
    var r := Summaries(rows);
    SummariesSorted(rows, r);
    SummariesCover(db, userId, rows, r);
    r
  }

  /** One entry per row, in order. */
  function Summaries(rows: seq<Row<Integration>>): (r: seq<Summary>)
    ensures |r| == |rows|
    ensures forall i :: 0 <= i < |r| ==> Describes(r[i], rows[i])
  {
    seq(|rows|, i requires 0 <= i < |rows| => Summarize(rows[i]))
  }

  /** Entries describing sorted rows are in (provider, label) order. */
  lemma SummariesSorted(rows: seq<Row<Integration>>, r: seq<Summary>)
    requires Sorted(rows) && |r| == |rows|
    requires forall i :: 0 <= i < |r| ==> Describes(r[i], rows[i])
    ensures forall i, j :: 0 <= i < j < |r| ==> PairLeq((r[i].provider, r[i].tag), (r[j].provider, r[j].tag))
  {
    forall i, j | 0 <= i < j < |r| ensures PairLeq((r[i].provider, r[i].tag), (r[j].provider, r[j].tag)) {
      assert Describes(r[i], rows[i]) && Describes(r[j], rows[j]);
      assert SortKey(rows[i]) == (r[i].provider, r[i].tag);
      assert SortKey(rows[j]) == (r[j].provider, r[j].tag);
    }
  }

  /** Entries describing exactly the caller's rows describe each of them and
      nothing else. */
  lemma SummariesCover(db: Db, userId: nat, rows: seq<Row<Integration>>, r: seq<Summary>)
    requires |r| == |rows|
    requires forall i :: 0 <= i < |r| ==> Describes(r[i], rows[i])
    requires forall i :: 0 <= i < |rows| ==> rows[i] in db.integrations && rows[i].val.userId == userId
    requires forall j :: 0 <= j < |db.integrations| && db.integrations[j].val.userId == userId ==>
               db.integrations[j] in rows
    ensures forall i :: 0 <= i < |r| ==> DescribesOwnRow(r[i], db, userId)
    ensures forall k :: 0 <= k < |db.integrations| && db.integrations[k].val.userId == userId ==>
              Described(db.integrations[k], r)
  {
    forall i | 0 <= i < |r| ensures DescribesOwnRow(r[i], db, userId) {
      assert Describes(r[i], rows[i]);
      var k :| 0 <= k < |db.integrations| && db.integrations[k] == rows[i];
      assert db.integrations[k].val.userId == userId;
      assert Describes(r[i], db.integrations[k]);
    }
    forall k | 0 <= k < |db.integrations| && db.integrations[k].val.userId == userId
      ensures Described(db.integrations[k], r)
    {
      var i :| 0 <= i < |rows| && rows[i] == db.integrations[k];
      assert Describes(r[i], db.integrations[k]);
    }
  }

  /** `(provider or "").strip().lower()` and `(label or "default").strip()`. */
  function DeleteKey(provider: string, tag: string): (k: (string, string))
    ensures k.0 == Lower(Strip(provider))
    ensures tag == "" ==> k.1 == "default"
    ensures tag != "" ==> k.1 == Strip(tag)
  {
    (Lower(Strip(provider)), Strip(if tag == "" then DEFAULT_LABEL else tag))
  }

  /** The local secret a reference names: "sqlite:" then an integer id. */
  function SqliteSecretId(secretRef: Option<string>): (r: Option<int>)
    ensures r.Some? ==> secretRef.Some? && StartsWith(secretRef.value, SqliteStore.REF_PREFIX)
                        && ParseInt(secretRef.value[|SqliteStore.REF_PREFIX|..]) == r
    ensures secretRef.Some? && StartsWith(secretRef.value, SqliteStore.REF_PREFIX) ==>
              r == ParseInt(secretRef.value[|SqliteStore.REF_PREFIX|..])
  {
    match secretRef
    case None => None
    case Some(ref) =>
      if ref == "" || !StartsWith(ref, SqliteStore.REF_PREFIX) then None
      else
        assert ref[6] == ':';
        AfterPrefix(SqliteStore.REF_PREFIX, ref[|SqliteStore.REF_PREFIX|..], ':');
        assert ref == SqliteStore.REF_PREFIX + ref[|SqliteStore.REF_PREFIX|..];
        ParseInt(AfterFirst(ref, ':'))
  }

  /** Deletes the caller's secret with primary key `sid`; a missing secret,
      or one owned by someone else, leaves the table as it is. */
  function RemoveOwnSecret(secrets: Table<Secret>, userId: nat, sid: int): (r: Table<Secret>)
    ensures r == secrets || exists k :: (0 <= k < |secrets| && r == Remove(secrets, k)
              && secrets[k].val.userId == userId && secrets[k].id == sid)
    ensures forall k :: (0 <= k < |secrets| && secrets[k].val.userId == userId && secrets[k].id == sid)
              ==> r == Remove(secrets, k)
    ensures Unique(secrets, SecretKey) ==> Unique(r, SecretKey)
  {
    match FindId(secrets, sid)
    case None => secrets
    case Some(k) =>
      assert forall j :: 0 <= j < |secrets| && secrets[j].id == sid ==> j == k;
      if secrets[k].val.userId == userId then
        RemoveUnique(secrets, k, SecretKey);
        Remove(secrets, k)
      else secrets
  }

  /** The best-effort cleanup: only a reference of the form "sqlite:<id>"
      names a secret to delete; anything else deletes nothing. */
  function Cleanup(secrets: Table<Secret>, userId: nat, secretRef: Option<string>): (r: Table<Secret>)
    ensures SqliteSecretId(secretRef).None? ==> r == secrets
    ensures SqliteSecretId(secretRef).Some? ==> r == RemoveOwnSecret(secrets, userId, SqliteSecretId(secretRef).value)
  {
    match SqliteSecretId(secretRef)
    case None => secrets
    case Some(sid) => RemoveOwnSecret(secrets, userId, sid)
  }

  /** A reference written by the local store names its row, so deleting the
      integration removes that secret when it is the caller's. */
  lemma CleanupOwnSecret(secrets: Table<Secret>, userId: nat, k: nat)
    requires k < |secrets| && secrets[k].val.userId == userId
    ensures Cleanup(secrets, userId, Some(SqliteStore.Ref(secrets[k].id))) == Remove(secrets, k)
  {
    SqliteStore.RefId(secrets[k].id);
  }

  function SameKey(userId: nat, key: (string, string)): Integration -> bool {
    (x: Integration) => IntegrationKey(x) == (userId, key.0, key.1)
  }

  /** Deleting the row with an already normalised key. */
  function Drop(db: Db, userId: nat, key: (string, string)): (s: Step<()>)
    ensures !HasKey(db.integrations, IntegrationKey, (userId, key.0, key.1)) <==> s.out.Err?
    ensures s.out.Err? ==> s == Step(db, Err(HttpError(NOT_FOUND, NOT_FOUND_DETAIL)))
    ensures s.out.Ok? ==> exists i :: (0 <= i < |db.integrations|
              && IntegrationKey(db.integrations[i].val) == (userId, key.0, key.1)
              && s.db == db.(integrations := Remove(db.integrations, i),
                             secrets := Cleanup(db.secrets, userId, db.integrations[i].val.secretRef)))
    ensures Valid(db) ==> Valid(s.db)
    ensures Valid(db) ==> !HasKey(s.db.integrations, IntegrationKey, (userId, key.0, key.1))
  {
    match Find(db.integrations, SameKey(userId, key))
    case None => Step(db, Err(HttpError(NOT_FOUND, NOT_FOUND_DETAIL)))
    case Some(i) =>
      var t := db.integrations;
      RemoveUnique(t, i, IntegrationKey);
      var db' := db.(integrations := Remove(t, i), secrets := Cleanup(db.secrets, userId, t[i].val.secretRef));
      Step(db', Ok(()))
  }

  /** `IntegrationService.delete`. */
  function Delete(db: Db, userId: nat, provider: string, tag: string): (s: Step<()>)
    ensures s == Drop(db, userId, DeleteKey(provider, tag))
  {
    Drop(db, userId, DeleteKey(provider, tag))
  }

  /** Deleting twice: the second call finds nothing and changes nothing. */
  lemma DeleteTwice(db: Db, userId: nat, provider: string, tag: string)
    requires Valid(db)
    ensures var first := Delete(db, userId, provider, tag);
            Delete(first.db, userId, provider, tag) == Step(first.db, Err(HttpError(NOT_FOUND, NOT_FOUND_DETAIL)))
  {
  }

  /** After a deletion the listing no longer shows the row. */
  lemma DeleteThenList(db: Db, userId: nat, provider: string, tag: string)
    requires Valid(db)
    ensures var s := Delete(db, userId, provider, tag);
            var key := DeleteKey(provider, tag);
            forall e :: e in List(s.db, userId) ==> (e.provider, e.tag) != key
  {
    var s := Delete(db, userId, provider, tag);
    ListWithout(s.db, userId, DeleteKey(provider, tag));
  }

  /** A listing shows no entry under a key the caller has no row for. */
  lemma ListWithout(db: Db, userId: nat, key: (string, string))
    requires !HasKey(db.integrations, IntegrationKey, (userId, key.0, key.1))
    ensures forall e :: e in List(db, userId) ==> (e.provider, e.tag) != key
  {
    var r := List(db, userId);
    forall e | e in r ensures (e.provider, e.tag) != key {
      var i :| 0 <= i < |r| && r[i] == e;
      assert DescribesOwnRow(r[i], db, userId);
      var k :| 0 <= k < |db.integrations| && db.integrations[k].val.userId == userId
                && Describes(r[i], db.integrations[k]);
      assert IntegrationKey(db.integrations[k].val) != (userId, key.0, key.1);
    }
  }

  /** A deletion leaves every other row of the caller in the listing. */
  lemma DeleteKeepsOthers(db: Db, userId: nat, provider: string, tag: string)
    ensures var s := Delete(db, userId, provider, tag);
            var key := DeleteKey(provider, tag);
            forall k :: 0 <= k < |db.integrations| && db.integrations[k].val.userId == userId
                        && (db.integrations[k].val.provider, db.integrations[k].val.tag) != key
                        ==> Described(db.integrations[k], List(s.db, userId))
  {
    var s := Delete(db, userId, provider, tag);
    var key := DeleteKey(provider, tag);
    if s.out.Ok? {
      var i :| 0 <= i < |db.integrations|
              && IntegrationKey(db.integrations[i].val) == (userId, key.0, key.1)
              && s.db.integrations == Remove(db.integrations, i);
      forall k | 0 <= k < |db.integrations| && db.integrations[k].val.userId == userId
                 && (db.integrations[k].val.provider, db.integrations[k].val.tag) != key
        ensures Described(db.integrations[k], List(s.db, userId))
      {
        StillListed(db, s.db, userId, i, k);
      }
    }
  }

  /** A row that survives the removal of another is still listed. */
  lemma StillListed(db: Db, db': Db, userId: nat, i: nat, k: nat)
    requires i < |db.integrations| && k < |db.integrations| && k != i
    requires db'.integrations == Remove(db.integrations, i)
    requires db.integrations[k].val.userId == userId
    ensures Described(db.integrations[k], List(db', userId))
  {
    var j := if k < i then k else k - 1;
    assert db'.integrations[j] == db.integrations[k];
  }
}

=== FILE: json.dfy ===
/** Decoded JSON values as the services see them after `r.json()` or
    `json.loads`, with the Python conversions the services apply to them. */
module Json {
  import opened Results
  import opened Text
  import Ordering

  datatype Json =
    | JNull
    | JBool(b: bool)
    | JInt(i: int)
    | JStr(s: string)
    | JList(items: seq<Json>)
    | JObject(fields: map<string, Json>)

  /** Python's `bool(v)`. */
  predicate Truthy(v: Json) {
    match v
    case JNull => false
    case JBool(b) => b
    case JInt(i) => i != 0
    case JStr(s) => s != ""
    case JList(items) => items != []
    case JObject(fields) => fields != map[]
  }

  /** `obj.get(key)`: a missing key and a JSON null both read as None. */
  function Get(obj: map<string, Json>, key: string): Json {
    if key in obj then obj[key] else JNull
  }

  /** `obj.get(key, default)`. */
  function GetOr(obj: map<string, Json>, key: string, default: Json): Json {
    if key in obj then obj[key] else default
  }

  /** `a or b`: the first operand when it is truthy, else the second. */
  function Or(a: Json, b: Json): (r: Json)
    ensures Truthy(r) <==> Truthy(a) || Truthy(b)
    ensures Truthy(a) ==> r == a
  {
    if Truthy(a) then a else b
  }

  /** Python's `type(v).__name__`. */
  function TypeName(v: Json): string {
    match v
    case JNull => "NoneType"
    case JBool(_) => "bool"
    case JInt(_) => "int"
    case JStr(_) => "str"
    case JList(_) => "list"
    case JObject(_) => "dict"
  }

  /** The `AttributeError` text of `v.get(...)` on a value that is not an object. */
  function NoGet(v: Json): string {
    "'" + TypeName(v) + "' object has no attribute 'get'"
  }

  /** The `TypeError` text of iterating over a value that is not iterable. */
  function NotIterable(v: Json): string {
    "'" + TypeName(v) + "' object is not iterable"
  }

  /** A text's characters, each as a one-character text. */
  function Chars(s: string): (r: seq<Json>)
    ensures |r| == |s| && forall k :: 0 <= k < |s| ==> r[k] == JStr([s[k]])
  {
    seq(|s|, k requires 0 <= k < |s| => JStr([s[k]]))
  }

  /** An object's keys, each once, as texts in text order. */
  function KeyTexts(fields: map<string, Json>): (r: seq<Json>)
    ensures |r| == |fields|
    ensures forall k :: 0 <= k < |r| ==> r[k].JStr? && r[k].s in fields
    ensures forall key :: key in fields ==> JStr(key) in r
  {
    var keys := Ordering.InOrder(fields.Keys);
    assert |fields.Keys| == |fields|;
    var r := seq(|keys|, k requires 0 <= k < |keys| => JStr(keys[k]));
    forall key | key in fields ensures JStr(key) in r {
      assert key in keys;
      var k :| 0 <= k < |keys| && keys[k] == key;
      assert r[k] == JStr(key);
    }
    r
  }

  /** What `for x in v` visits, and so what `list.extend(v)` adds: a list's
      items, a text's characters as one-character texts, and an object's keys.
      A decoded object does not keep its document's key order, so the keys
      come in text order. Null, booleans and numbers are not iterable. */
  function Iterated(v: Json): (r: Option<seq<Json>>)
    ensures r.None? <==> v.JNull? || v.JBool? || v.JInt?
    ensures v.JList? ==> r == Some(v.items)
    ensures v.JStr? ==> r == Some(Chars(v.s))
    ensures v.JObject? ==> r == Some(KeyTexts(v.fields))
    ensures r.Some? ==> (r.value == [] <==> !Truthy(v))
  {
    match v
    case JList(items) => Some(items)
    case JStr(s) => Some(Chars(s))
    case JObject(fields) => Some(KeyTexts(fields))
    case _ => None
  }

  /** Iterating an object or a text visits only texts. */
  lemma IteratedTexts(v: Json)
    requires v.JObject? || v.JStr?
    ensures Iterated(v).Some? && forall k :: 0 <= k < |Iterated(v).value| ==> Iterated(v).value[k].JStr?
  {
  }

  /** `v.get(key)` is truthy on an object. */
  predicate HasTruthy(v: Json, key: string) {
    v.JObject? && Truthy(Get(v.fields, key))
  }

  /** `[x for x in items if x.get(key)]`, over objects: the items whose `key`
      is truthy, in order. */
  function WithTruthy(items: seq<Json>, key: string): (r: seq<Json>)
    ensures |r| <= |items|
    ensures forall k :: 0 <= k < |r| ==> HasTruthy(r[k], key) && r[k] in items
    ensures forall k :: 0 <= k < |items| && HasTruthy(items[k], key) ==> items[k] in r
  {
    if |items| == 0 then []
    else if HasTruthy(items[0], key) then [items[0]] + WithTruthy(items[1..], key)
    else WithTruthy(items[1..], key)
  }

  /** Filtering a concatenation filters each part. */
  lemma {:induction false} WithTruthyAppend(a: seq<Json>, b: seq<Json>, key: string)
    ensures WithTruthy(a + b, key) == WithTruthy(a, key) + WithTruthy(b, key)
  {
    if |a| == 0 {
      assert a + b == b;
    } else {
      assert (a + b)[1..] == a[1..] + b;
      WithTruthyAppend(a[1..], b, key);
    }
  }

  /** One item is kept exactly when its `key` is truthy; with the append
      lemma this pins the filter down on every list. */
  lemma WithTruthySingle(x: Json, key: string)
    ensures WithTruthy([x], key) == if HasTruthy(x, key) then [x] else []
  {
  }

  /** Python's `str(v)` for scalars. Lists and objects are not rendered. */
  function Str(v: Json): string {
    match v
    case JNull => "None"
    case JBool(b) => if b then "True" else "False"
    case JInt(i) => IntToString(i)
    case JStr(s) => s
    case _ => ""
  }

  /** Python's `int(v)`: raises for text that is not a decimal integer and
      for values that are not numbers, booleans or text. */
  function Int(v: Json): (r: Result<int>)
    ensures v.JInt? ==> r == Ok(v.i)
    ensures v.JBool? ==> r == Ok(if v.b then 1 else 0)
    ensures v.JStr? ==> (r.Ok? <==> ParseInt(v.s).Some?)
    ensures v.JStr? && r.Ok? ==> Some(r.value) == ParseInt(v.s)
    ensures v.JNull? || v.JList? || v.JObject? ==> r.Err?
  {
    match v
    case JInt(i) => Ok(i)
    case JBool(b) => Ok(if b then 1 else 0)
    case JStr(s) =>
      (match ParseInt(s)
       case Some(n) => Ok(n)
       case None => Err(Uncaught("invalid literal for int() with base 10")))
    case _ => Err(Uncaught("int() argument must be a string or a number"))
  }

  /** `str(int(v))` of a JSON integer is the integer's decimal text, and
      reading that text back gives the integer. */
  lemma IntOfStr(i: int)
    ensures Int(JStr(Str(JInt(i)))) == Ok(i)
  {
    ParseIntToString(i);
  }
}

=== FILE: mapping_service.dfy ===
/** The repository-to-table mappings: creation with normalisation and the
    unique (user, repo, table, label) constraint, and the per-user listing. */
module MappingService {
  import opened Results
  import opened Text
  import opened Tables
  import opened Models
  import opened Requests

  const BAD_REPO := "github_repo_full_name must be like owner/repo"
  const DUPLICATE := "Mapping already exists"

  /** The row `create` would store: repo, table and label stripped, a blank
      label replaced by "default". */
  function Normalize(userId: nat, t: MappingTarget, now: Timestamp): (m: Mapping)
    ensures m.userId == userId && m.createdAt == now
    ensures m.repo == Strip(t.repo) && m.table == Strip(t.table)
    ensures IsBlank(t.tag) ==> m.tag == "default"
    ensures !IsBlank(t.tag) ==> m.tag == Strip(t.tag)
  {
    var tag := Strip(t.tag);
    StripEmptyIffBlank(t.tag);
    Mapping(userId, Strip(t.repo), Strip(t.table), if tag == "" then Models.DEFAULT_LABEL else tag, now)
  }

  /** The stored label is never empty and already stripped. */
  lemma NormalizedLabel(userId: nat, t: MappingTarget, now: Timestamp)
    ensures var m := Normalize(userId, t, now); m.tag != "" && Strip(m.tag) == m.tag
  {
    var m := Normalize(userId, t, now);
    if IsBlank(t.tag) {
      assert m.tag == "default";
      StripUnpadded("default");
    } else {
      StripEmptyIffBlank(t.tag);
      StripIdempotent(t.tag);
    }
  }

  function SameKey(row: Mapping): Mapping -> bool {
    (m: Mapping) => MappingKey(m) == MappingKey(row)
  }

  /** Adding a row under the unique constraint: a conflict, and no change,
      when a row with the same key exists. */
  function Add(db: Db, row: Mapping): (s: Step<Row<Mapping>>)
    ensures HasKey(db.mappings, MappingKey, MappingKey(row)) <==> s.out.Err?
    ensures s.out.Err? ==> s == Step(db, Err(HttpError(CONFLICT, DUPLICATE)))
    ensures s.out.Ok? ==>
              && s.out.value == Row(NextId(db.mappings), row)
              && s.db == db.(mappings := db.mappings + [s.out.value])
    ensures Valid(db) ==> Valid(s.db)
  {
    match Find(db.mappings, SameKey(row))
    case Some(_) => Step(db, Err(HttpError(CONFLICT, DUPLICATE)))
    case None =>
      assert !HasKey(db.mappings, MappingKey, MappingKey(row));
      InsertUnique(db.mappings, row, MappingKey);
      var t := Insert(db.mappings, row);
      Step(db.(mappings := t), Ok(t[|db.mappings|]))
  }

  /** `MappingService.create`, answering with the stored row as intended
      (`CreateAsWritten` below is the code as it stands). Only the repo, table
      and label of the request are kept; its direction and field mapping are
      not stored. */
  function Create(db: Db, userId: nat, req: CreateMapping, now: Timestamp): (s: Step<Row<Mapping>>)
    ensures '/' !in req.target.repo ==> s == Step(db, Err(HttpError(BAD_REQUEST, BAD_REPO)))
    ensures '/' in req.target.repo ==> s == Add(db, Normalize(userId, req.target, now))
  {
    if '/' !in req.target.repo then Step(db, Err(HttpError(BAD_REQUEST, BAD_REPO)))
    else Add(db, Normalize(userId, req.target, now))
  }

  /** The direction and field mapping of the request make no difference. */
  lemma CreateIgnoresDirection(db: Db, userId: nat, t: MappingTarget, d: Direction,
                               fm1: Option<map<string, string>>, fm2: Option<map<string, string>>, now: Timestamp)
    ensures Create(db, userId, CreateMapping(t, fm1), now) == Create(db, userId, CreateMapping(t.(direction := d), fm2), now)
  {
  }

  /** Creating the same mapping twice: the second attempt is a conflict and
      changes nothing. */
  lemma CreateTwice(db: Db, userId: nat, req: CreateMapping, now1: Timestamp, now2: Timestamp)
    ensures var first := Create(db, userId, req, now1);
            first.out.Ok? ==> Create(first.db, userId, req, now2) == Step(first.db, Err(HttpError(CONFLICT, DUPLICATE)))
  {
    var first := Create(db, userId, req, now1);
    if first.out.Ok? {
      var t := first.db.mappings;
      assert MappingKey(t[|t| - 1].val) == MappingKey(Normalize(userId, req.target, now2));
    }
  }

  function OwnedBy(userId: nat): Mapping -> bool {
    (m: Mapping) => m.userId == userId
  }

  /** `MappingService.list` as intended: the caller's rows, newest id first
      (`ListAsWritten` below is the code as it stands). */
  function List(db: Db, userId: nat): (r: seq<Row<Mapping>>)
    ensures Descending(r)
    ensures forall i :: 0 <= i < |r| ==> r[i] in db.mappings && r[i].val.userId == userId
    ensures forall i :: 0 <= i < |db.mappings| && db.mappings[i].val.userId == userId ==> db.mappings[i] in r
  {
    var mine := Select(db.mappings, OwnedBy(userId));
    ReverseDescending(mine);
    Reverse(mine)
  }

  // ---------------------------------------------------------------------------
  // The responses as written

  /** What building a `MappingResponse` without its required `direction` and
      `field_mapping` fields raises. */
  const RESPONSE_INVALID := "2 validation errors for MappingResponse"

  /** `create` as written: the row is committed first, then the response is
      built without the two required fields, so every successful insert ends
      in a server error. The refusals are as in `Create`. */
  function CreateAsWritten(db: Db, userId: nat, req: CreateMapping, now: Timestamp): (s: Step<Row<Mapping>>)
    ensures s.db == Create(db, userId, req, now).db
    ensures s.out.Err?
    ensures Create(db, userId, req, now).out.Err? ==> s.out == Create(db, userId, req, now).out
    ensures Create(db, userId, req, now).out.Ok? ==> s.out == Err(Uncaught(RESPONSE_INVALID))
  {
    var s := Create(db, userId, req, now);
    if s.out.Err? then s else Step(s.db, Err(Uncaught(RESPONSE_INVALID)))
  }

  /** `list` as written: one response per row, each missing the same two
      fields, so the listing fails as soon as there is a row to show. */
  function ListAsWritten(db: Db, userId: nat): (r: Result<seq<Row<Mapping>>>)
    ensures r.Ok? <==> forall i :: 0 <= i < |db.mappings| ==> db.mappings[i].val.userId != userId
    ensures r.Ok? ==> r.value == []
  {
    var rows := List(db, userId);
    if rows == [] then Ok([])
    else
      assert rows[0] in db.mappings && rows[0].val.userId == userId;
      Err(Uncaught(RESPONSE_INVALID))
  }

  /** Once any mapping has been saved for a user, the listing as written
      fails for that user. */
  lemma ListAsWrittenAfterCreate(db: Db, userId: nat, req: CreateMapping, now: Timestamp)
    ensures var s := Create(db, userId, req, now);
            s.out.Ok? ==> ListAsWritten(s.db, userId) == Err(Uncaught(RESPONSE_INVALID))
  {
    var s := Create(db, userId, req, now);
    if s.out.Ok? {
      var t := s.db.mappings;
      assert t[|t| - 1].val.userId == userId;
    }
  }

  /** The discrepancy on a concrete input: a first mapping on an empty store
      is saved, yet the caller gets a server error, and the listing that
      should show it fails too. */
  lemma CreateAsWrittenFails()
    ensures var req := CreateMapping(MappingTarget("octo/hello", "incident", "default", Bidirectional), None);
            var s := CreateAsWritten(EMPTY_DB, 1, req, 0);
            && |s.db.mappings| == 1
            && s.out == Err(Uncaught(RESPONSE_INVALID))
            && ListAsWritten(s.db, 1) == Err(Uncaught(RESPONSE_INVALID))
  {
    var req := CreateMapping(MappingTarget("octo/hello", "incident", "default", Bidirectional), None);
    assert "octo/hello"[4] == '/';
    var s := Create(EMPTY_DB, 1, req, 0);
    assert s.out.Ok?;
    ListAsWrittenAfterCreate(EMPTY_DB, 1, req, 0);
  }

  /** A created mapping heads its owner's listing. */
  lemma CreateThenList(db: Db, userId: nat, req: CreateMapping, now: Timestamp)
    ensures var s := Create(db, userId, req, now);
            s.out.Ok? ==> |List(s.db, userId)| > 0 && List(s.db, userId)[0] == s.out.value
  {
    var s := Create(db, userId, req, now);
    if s.out.Ok? {
      var t := s.db.mappings;
      var r := List(s.db, userId);
      assert t[|t| - 1] == s.out.value;
      assert s.out.value in r;
    }
  }
}

=== FILE: models.dfy ===
/** The database schema: one datatype per table, the unique constraints as a
    store invariant, the column defaults, and the row updates the provider
    services share. */
module Models {
  import opened Results
  import opened Text
  import opened Json
  import opened Tables
  import opened Crypto

  /** Timestamps are opaque: only their equality and flow matter here. */
  type Timestamp = int

  datatype User = User(email: string, passwordHash: Digest, createdAt: Timestamp)

  /** The `config_json` column, as `loads` reads it back. */
  datatype ConfigJson = Parsed(fields: map<string, Json>) | Unparsable

  datatype Integration = Integration(
    userId: nat,
    provider: string,
    tag: string,
    config: ConfigJson,
    secretRef: Option<string>,
    lastTestedAt: Option<Timestamp>,
    lastTestOk: Option<bool>,
    lastTestMessage: Option<string>,
    createdAt: Timestamp,
    updatedAt: Timestamp)

  datatype Secret = Secret(userId: nat, name: string, ciphertext: Ciphertext, createdAt: Timestamp, updatedAt: Timestamp)

  datatype UserSetting = UserSetting(userId: nat, theme: string, notifications: bool, createdAt: Timestamp, updatedAt: Timestamp)

  datatype Mapping = Mapping(userId: nat, repo: string, table: string, tag: string, createdAt: Timestamp)

  /** A secret in the cloud secret manager: its `SecretString`, already
      parsed, or None when the secret has no string payload. */
  datatype AwsSecret = AwsSecret(secretString: Option<map<string, Json>>)

  /** Everything the services read and write: the five tables, and the cloud
      secret manager's secrets by name. */
  datatype Db = Db(
    users: Table<User>,
    integrations: Table<Integration>,
    secrets: Table<Secret>,
    settings: Table<UserSetting>,
    mappings: Table<Mapping>,
    aws: map<string, AwsSecret>)

  const EMPTY_DB := Db([], [], [], [], [], map[])

  /** The outcome of one service call: the state it leaves and its result. */
  datatype Step<T> = Step(db: Db, out: Result<T>)

  // Unique constraints

  function UserKey(u: User): string { u.email }
  function IntegrationKey(x: Integration): (nat, string, string) { (x.userId, x.provider, x.tag) }
  function SecretKey(s: Secret): (nat, string) { (s.userId, s.name) }
  function SettingKey(s: UserSetting): nat { s.userId }
  function MappingKey(m: Mapping): (nat, string, string, string) { (m.userId, m.repo, m.table, m.tag) }

  /** The store invariant: every unique constraint of the schema holds. */
  ghost predicate Valid(db: Db) {
    && Unique(db.users, UserKey)
    && Unique(db.integrations, IntegrationKey)
    && Unique(db.secrets, SecretKey)
    && Unique(db.settings, SettingKey)
    && Unique(db.mappings, MappingKey)
  }

  lemma EmptyValid()
    ensures Valid(EMPTY_DB)
  {
  }

  // Column defaults

  const DEFAULT_LABEL := "default"
  const DEFAULT_CONFIG := Parsed(map[])
  const DEFAULT_THEME := "dark"
  const DEFAULT_NOTIFICATIONS := true

  /** `Integration(user_id=..., provider=...)` with every other column left
      to its default. */
  function NewIntegration(userId: nat, provider: string, now: Timestamp): (r: Integration)
    ensures r.userId == userId && r.provider == provider
    ensures r.tag == "default" && r.config == Parsed(map[])
    ensures r.secretRef.None? && r.lastTestedAt.None? && r.lastTestOk.None? && r.lastTestMessage.None?
    ensures r.createdAt == now && r.updatedAt == now
  {
    Integration(userId, provider, DEFAULT_LABEL, DEFAULT_CONFIG, None, None, None, None, now, now)
  }

  /** `UserSetting(user_id=...)` with the default theme and notifications. */
  function NewSetting(userId: nat, now: Timestamp): (r: UserSetting)
    ensures r.userId == userId && r.theme == "dark" && r.notifications
    ensures r.createdAt == now && r.updatedAt == now
  {
    UserSetting(userId, DEFAULT_THEME, DEFAULT_NOTIFICATIONS, now, now)
  }

  // Connection test status, shared by the two provider services

  const MESSAGE_LIMIT := 500

  /** Records the outcome of a call made with the row's credentials: "OK" on
      success, the first 500 characters of the error text on failure. */
  function RecordTest(row: Integration, failure: Option<string>, now: Timestamp): (r: Integration)
    ensures r.lastTestedAt == Some(now) && r.updatedAt == now
    ensures r.lastTestOk == Some(failure.None?)
    ensures failure.None? ==> r.lastTestMessage == Some("OK")
    ensures failure.Some? ==> r.lastTestMessage == Some(Take(failure.value, 500))
    ensures failure.Some? ==> |r.lastTestMessage.value| <= 500
    ensures IntegrationKey(r) == IntegrationKey(row)
    ensures r.config == row.config && r.secretRef == row.secretRef && r.createdAt == row.createdAt
  {
    var message := match failure
      case None => "OK"
      case Some(e) => Take(e, MESSAGE_LIMIT);
    row.(lastTestedAt := Some(now), lastTestOk := Some(failure.None?), lastTestMessage := Some(message), updatedAt := now)
  }

  /** Rewrites the test status of integration row `i`; every other row, and
      every other table, stays as it is. */
  function RecordTestAt(db: Db, i: nat, failure: Option<string>, now: Timestamp): (r: Db)
    requires i < |db.integrations|
    ensures r.integrations == Update(db.integrations, i, RecordTest(db.integrations[i].val, failure, now))
    ensures r == db.(integrations := r.integrations)
    ensures Valid(db) ==> Valid(r)
  {
    var row := RecordTest(db.integrations[i].val, failure, now);
    UpdateUnique(db.integrations, i, row, IntegrationKey);
    db.(integrations := Update(db.integrations, i, row))
  }

  /** The connect upsert of both provider services: the row for
      (user, provider, label) gets the new config and secret reference and an
      "OK" test status, or is created with them. */
  function Connect(db: Db, userId: nat, provider: string, tag: string, config: map<string, Json>,
                   secretRef: string, now: Timestamp): (r: Db)
    ensures r == db.(integrations := r.integrations)
    ensures Valid(db) ==> Valid(r)
    ensures exists i :: 0 <= i < |r.integrations| && ConnectedAt(r.integrations, i, userId, provider, tag, config, secretRef, now)
    ensures HasKey(db.integrations, IntegrationKey, (userId, provider, tag)) ==> |r.integrations| == |db.integrations|
    ensures !HasKey(db.integrations, IntegrationKey, (userId, provider, tag)) ==>
              |r.integrations| == |db.integrations| + 1 && r.integrations[..|db.integrations|] == db.integrations
    ensures forall j :: 0 <= j < |db.integrations| && IntegrationKey(db.integrations[j].val) != (userId, provider, tag)
                        ==> j < |r.integrations| && r.integrations[j] == db.integrations[j]
  {
    var t := db.integrations;
    match Find(t, (x: Integration) => IntegrationKey(x) == (userId, provider, tag))
    case Some(i) =>
      var row := t[i].val.(config := Parsed(config), secretRef := Some(secretRef), updatedAt := now);
      var row' := RecordTest(row, None, now);
      UpdateUnique(t, i, row', IntegrationKey);
      var t' := Update(t, i, row');
      assert ConnectedAt(t', i, userId, provider, tag, config, secretRef, now);
      db.(integrations := t')
    case None =>
      var row := NewIntegration(userId, provider, now).(tag := tag, config := Parsed(config), secretRef := Some(secretRef));
      var row' := RecordTest(row, None, now);
      InsertUnique(t, row', IntegrationKey);
      var t' := Insert(t, row');
      assert ConnectedAt(t', |t|, userId, provider, tag, config, secretRef, now);
      db.(integrations := t')
  }

  ghost predicate ConnectedAt(t: Table<Integration>, i: int, userId: nat, provider: string, tag: string,
                              config: map<string, Json>, secretRef: string, now: Timestamp) {
    && 0 <= i < |t|
    && IntegrationKey(t[i].val) == (userId, provider, tag)
    && t[i].val.config == Parsed(config)
    && t[i].val.secretRef == Some(secretRef)
    && t[i].val.lastTestOk == Some(true)
    && t[i].val.lastTestMessage == Some("OK")
    && t[i].val.lastTestedAt == Some(now)
  }
}

=== FILE: ordering.dfy ===
/** The ascending text order SQLite applies to `ORDER BY` on text columns
    (binary collation: code point by code point, a proper prefix first), and
    the order on (provider, label) pairs. */
module Ordering {

  /** `a <= b` in code-point lexicographic order. */
  predicate TextLeq(a: string, b: string)
    decreases |a|
  {
    if |a| == 0 then true
    else if |b| == 0 then false
    else if a[0] != b[0] then a[0] < b[0]
    else TextLeq(a[1..], b[1..])
  }

  lemma {:induction false} TextLeqRefl(a: string)
    ensures TextLeq(a, a)
    decreases |a|
  {
    if |a| > 0 {
      TextLeqRefl(a[1..]);
    }
  }

  lemma {:induction false} TextLeqTotal(a: string, b: string)
    ensures TextLeq(a, b) || TextLeq(b, a)
    decreases |a|
  {
    if |a| > 0 && |b| > 0 && a[0] == b[0] {
      TextLeqTotal(a[1..], b[1..]);
    }
  }

  lemma {:induction false} TextLeqAntisym(a: string, b: string)
    requires TextLeq(a, b) && TextLeq(b, a)
    ensures a == b
    decreases |a|
  {
    if |a| > 0 {
      TextLeqAntisym(a[1..], b[1..]);
      assert a == [a[0]] + a[1..] && b == [b[0]] + b[1..];
    }
  }

  lemma {:induction false} TextLeqTrans(a: string, b: string, c: string)
    requires TextLeq(a, b) && TextLeq(b, c)
    ensures TextLeq(a, c)
    decreases |a|
  {
    if |a| > 0 && |b| > 0 && |c| > 0 && a[0] == b[0] && b[0] == c[0] {
      TextLeqTrans(a[1..], b[1..], c[1..]);
    }
  }

  /** Text order is antisymmetric, stated for all pairs. */
  lemma TextLeqAntisymAll()
    ensures forall a, b :: TextLeq(a, b) && TextLeq(b, a) ==> a == b
  {
    forall a, b | TextLeq(a, b) && TextLeq(b, a) ensures a == b {
      TextLeqAntisym(a, b);
    }
  }

  /** Every non-empty finite set of texts has a least element. */
  lemma {:induction false} LeastExists(s: set<string>)
    requires s != {}
    ensures exists m :: m in s && forall y :: y in s ==> TextLeq(m, y)
    decreases |s|
  {
    var x :| x in s;
    TextLeqRefl(x);
    if s == {x} {
      assert forall y :: y in s ==> y == x;
    } else {
      var rest := s - {x};
      LeastExists(rest);
      var m :| m in rest && forall y :: y in rest ==> TextLeq(m, y);
      TextLeqTotal(x, m);
      if TextLeq(x, m) {
        forall y | y in s ensures TextLeq(x, y) {
          if y != x {
            TextLeqTrans(x, m, y);
          }
        }
      } else {
        assert forall y :: y in s ==> y == x || y in rest;
      }
    }
  }

  /** The least text of a non-empty set. */
  function Least(s: set<string>): (m: string)
    requires s != {}
    ensures m in s && forall y :: y in s ==> TextLeq(m, y)
  {
    LeastExists(s);
    TextLeqAntisymAll();
    var m :| m in s && forall y :: y in s ==> TextLeq(m, y);
    m
  }

  /** Strictly ascending in text order, so each text at most once. */
  predicate Ascending(r: seq<string>) {
    forall i, j :: 0 <= i < j < |r| ==> TextLeq(r[i], r[j]) && r[i] != r[j]
  }

  /** A set of texts listed in ascending order, each once. */
  function InOrder(s: set<string>): (r: seq<string>)
    ensures |r| == |s|
    ensures forall x :: x in s <==> x in r
    ensures Ascending(r)
    decreases |s|
  {
    if s == {} then []
    else
      var m := Least(s);
      var rest := InOrder(s - {m});
      assert forall k :: 0 <= k < |rest| ==> rest[k] in rest;
      LeastInFront(s, m, rest);
      [m] + rest
  }

  /** The least text in front of the ascending listing of the others lists
      the whole set in ascending order. */
  lemma LeastInFront(s: set<string>, m: string, rest: seq<string>)
    requires m in s && forall y :: y in s ==> TextLeq(m, y)
    requires |rest| == |s - {m}| && (forall x :: x in s - {m} <==> x in rest) && Ascending(rest)
    ensures |[m] + rest| == |s|
    ensures forall x :: x in s <==> x in [m] + rest
    ensures Ascending([m] + rest)
  {
    SameMembersInFront(s, m, rest);
    AscendingInFront(m, rest);
  }

  lemma SameMembersInFront(s: set<string>, m: string, rest: seq<string>)
    requires m in s && forall x :: x in s - {m} <==> x in rest
    ensures forall x :: x in s <==> x in [m] + rest
  {
    forall x ensures x in s <==> x in [m] + rest {
      assert x in [m] + rest <==> x == m || x in rest;
    }
  }

  lemma AscendingInFront(m: string, rest: seq<string>)
    requires forall k :: 0 <= k < |rest| ==> TextLeq(m, rest[k]) && rest[k] != m
    requires Ascending(rest)
    ensures Ascending([m] + rest)
  {
    var r := [m] + rest;
    forall i, j | 0 <= i < j < |r| ensures TextLeq(r[i], r[j]) && r[i] != r[j] {
      assert r[j] == rest[j - 1];
      if i > 0 {
        assert r[i] == rest[i - 1];
      }
    }
  }

  /** `ORDER BY first ASC, second ASC`. */
  predicate PairLeq(x: (string, string), y: (string, string)) {
    if x.0 == y.0 then TextLeq(x.1, y.1) else TextLeq(x.0, y.0)
  }

  lemma PairLeqTotal(x: (string, string), y: (string, string))
    ensures PairLeq(x, y) || PairLeq(y, x)
  {
    TextLeqTotal(x.0, y.0);
    TextLeqTotal(x.1, y.1);
  }

  lemma PairLeqAntisym(x: (string, string), y: (string, string))
    requires PairLeq(x, y) && PairLeq(y, x)
    ensures x == y
  {
    if x.0 == y.0 {
      TextLeqAntisym(x.1, y.1);
    } else {
      TextLeqAntisym(x.0, y.0);
    }
  }

  lemma PairLeqTrans(x: (string, string), y: (string, string), z: (string, string))
    requires PairLeq(x, y) && PairLeq(y, z)
    ensures PairLeq(x, z)
  {
    if x.0 == y.0 && y.0 == z.0 {
      TextLeqTrans(x.1, y.1, z.1);
    } else if x.0 == y.0 {
    } else if y.0 == z.0 {
    } else {
      TextLeqTrans(x.0, y.0, z.0);
      if x.0 == z.0 {
        TextLeqAntisym(x.0, y.0);
      }
    }
  }
}

=== FILE: providers.dfy ===
/** What the two provider services share: the environment a call runs in,
    and the lookup of the caller's configured integration row. */
module Providers {
  import opened Results
  import opened Tables
  import opened Models
  import opened Json
  import opened SecretStore

  /** The configured secret store, a failure the cloud secret manager would
      report on a write (if any), and the clock reading of the call. */
  datatype Env = Env(backend: Backend, awsFault: Option<string>, now: Timestamp)

  function SameKey(userId: nat, provider: string, tag: string): Integration -> bool {
    (x: Integration) => IntegrationKey(x) == (userId, provider, tag)
  }

  /** The row holds a usable secret reference (`row.secret_ref` is truthy). */
  predicate HasSecret(x: Integration) {
    x.secretRef.Some? && x.secretRef.value != ""
  }

  /** The upsert that ends a connect, after the secret has been stored: the
      row for (provider, label) now carries `config` and a reference that
      reads back the secret; the other tables keep their contents. */
  function Link(stored: Stored, env: Env, userId: nat, provider: string, tag: string,
                config: map<string, Json>, secret: string): (db: Db)
    requires SecretStore.Get(env.backend, stored.db, userId, stored.ref) == Ok(secret)
    ensures exists i, ref ::
              && ConnectedAt(db.integrations, i, userId, provider, tag, config, ref, env.now)
              && SecretStore.Get(env.backend, db, userId, ref) == Ok(secret)
    ensures db.users == stored.db.users && db.settings == stored.db.settings && db.mappings == stored.db.mappings
    ensures Valid(stored.db) ==> Valid(db)
  {
    var db := Models.Connect(stored.db, userId, provider, tag, config, stored.ref, env.now);
    assert SecretStore.Get(env.backend, db, userId, stored.ref) == Ok(secret) by {
      assert db.secrets == stored.db.secrets && db.aws == stored.db.aws;
    }
    db
  }

  /** The position of the caller's row for (provider, label), which must
      exist and hold a secret reference; `detail` is the 404 message
      otherwise. */
  function Configured(db: Db, userId: nat, provider: string, tag: string, detail: string): (r: Result<nat>)
    ensures r.Err? ==> r == Err(HttpError(NOT_FOUND, detail))
    ensures r.Ok? ==> r.value < |db.integrations|
                      && IntegrationKey(db.integrations[r.value].val) == (userId, provider, tag)
                      && HasSecret(db.integrations[r.value].val)
    ensures Unique(db.integrations, IntegrationKey) ==>
              (r.Ok? <==> exists i :: 0 <= i < |db.integrations|
                             && IntegrationKey(db.integrations[i].val) == (userId, provider, tag)
                             && HasSecret(db.integrations[i].val))
  {
    match Find(db.integrations, SameKey(userId, provider, tag))
    case None => Err(HttpError(NOT_FOUND, detail))
    case Some(i) => if HasSecret(db.integrations[i].val) then Ok(i) else Err(HttpError(NOT_FOUND, detail))
  }

  /** Under the unique constraint, a row with the key and a secret is the
      one found. */
  lemma ConfiguredAt(db: Db, userId: nat, provider: string, tag: string, detail: string, i: int)
    requires Unique(db.integrations, IntegrationKey)
    requires 0 <= i < |db.integrations| && IntegrationKey(db.integrations[i].val) == (userId, provider, tag)
    requires HasSecret(db.integrations[i].val)
    ensures Configured(db, userId, provider, tag, detail) == Ok(i)
  {
  }

  /** The secret behind the row's reference, read from the configured store. */
  function SecretOf(db: Db, env: Env, userId: nat, i: nat): Result<string>
    requires i < |db.integrations| && HasSecret(db.integrations[i].val)
  {
    SecretStore.Get(env.backend, db, userId, db.integrations[i].val.secretRef.value)
  }

  /** The end of a call made with the row's credentials: the outcome is
      recorded on row `i` either way; a failure becomes a 400 whose detail is
      `failPrefix` followed by the error text. */
  function Recorded<T>(db: Db, i: nat, outcome: Remote<T>, failPrefix: string, now: Timestamp): (s: Step<T>)
    requires i < |db.integrations|
    ensures s.db == RecordTestAt(db, i, if outcome.Fault? then Some(outcome.message) else None, now)
    ensures outcome.Fault? ==> s.out == Err(HttpError(BAD_REQUEST, failPrefix + outcome.message))
    ensures outcome.Reply? ==> s.out == Ok(outcome.body)
    ensures Valid(db) ==> Valid(s.db)
  {
    match outcome
    case Fault(e) => Step(RecordTestAt(db, i, Some(e), now), Err(HttpError(BAD_REQUEST, failPrefix + e)))
    case Reply(v) => Step(RecordTestAt(db, i, None, now), Ok(v))
  }
}

=== FILE: requests.dfy ===
/** The request bodies the API accepts, with the field constraints their
    schema declares: required fields, length bounds, defaults, the mapping
    direction literal. A body is a decoded JSON object; `Parse...` is the
    schema's validation, failing with status 422 and the offending field. */
module Requests {
  import opened Results
  import opened Json

  const UNPROCESSABLE := 422

  function Invalid(field: string): Error {
    HttpError(UNPROCESSABLE, field)
  }

  predicate InLength(s: string, lo: nat, hi: nat) {
    lo <= |s| <= hi
  }

  // ---------------------------------------------------------------------------
  // Field validation

  /** The body carries the field as text within the bounds. */
  predicate TextField(body: map<string, Json>, field: string, lo: nat, hi: nat) {
    field in body && body[field].JStr? && InLength(body[field].s, lo, hi)
  }

  /** A required text field with length bounds. */
  function Text(body: map<string, Json>, field: string, lo: nat, hi: nat): (r: Result<string>)
    ensures r.Ok? <==> field in body && body[field].JStr? && InLength(body[field].s, lo, hi)
    ensures r.Ok? ==> r.value == body[field].s
    ensures r.Err? ==> r.error == Invalid(field)
  {
    if field in body && body[field].JStr? && InLength(body[field].s, lo, hi) then Ok(body[field].s)
    else Err(Invalid(field))
  }

  /** A text field with a default used when the field is absent. A JSON null
      is not absent: it fails, as the field is not optional. */
  function TextOr(body: map<string, Json>, field: string, default: string, hi: nat): (r: Result<string>)
    ensures field !in body ==> r == Ok(default)
    ensures field in body ==> (r.Ok? <==> body[field].JStr? && |body[field].s| <= hi)
    ensures field in body && r.Ok? ==> r.value == body[field].s
    ensures r.Err? ==> r.error == Invalid(field)
  {
    if field !in body then Ok(default) else Text(body, field, 0, hi)
  }

  /** An optional text field, at most `hi` characters when `hi` is given:
      absent or null reads as None. */
  function OptionalText(body: map<string, Json>, field: string, hi: Option<nat>): (r: Result<Option<string>>)
    ensures Get(body, field) == JNull ==> r == Ok(None)
    ensures Get(body, field) != JNull ==>
              (r.Ok? <==> body[field].JStr? && (hi.None? || |body[field].s| <= hi.value))
    ensures r.Ok? && r.value.Some? ==> field in body && body[field] == JStr(r.value.value)
  {
    match Get(body, field)
    case JNull => Ok(None)
    case JStr(s) => if hi.None? || |s| <= hi.value then Ok(Some(s)) else Err(Invalid(field))
    case _ => Err(Invalid(field))
  }

  /** An optional boolean field: absent or null reads as None. */
  function OptionalBool(body: map<string, Json>, field: string): (r: Result<Option<bool>>)
    ensures Get(body, field) == JNull ==> r == Ok(None)
    ensures Get(body, field) != JNull ==> (r.Ok? <==> body[field].JBool?)
    ensures r.Ok? && r.value.Some? ==> field in body && body[field] == JBool(r.value.value)
  {
    match Get(body, field)
    case JNull => Ok(None)
    case JBool(b) => Ok(Some(b))
    case _ => Err(Invalid(field))
  }

  /** A field of type `Dict[str, str]`. */
  function TextMap(v: Json, field: string): (r: Result<map<string, string>>)
    ensures r.Ok? <==> v.JObject? && forall k :: k in v.fields ==> v.fields[k].JStr?
    ensures r.Ok? ==> r.value.Keys == v.fields.Keys && forall k :: k in r.value ==> v.fields[k] == JStr(r.value[k])
  {
    if v.JObject? && forall k :: k in v.fields ==> v.fields[k].JStr? then
      Ok(map k | k in v.fields :: v.fields[k].s)
    else Err(Invalid(field))
  }

  function TextMapJson(m: map<string, string>): Json {
    JObject(map k | k in m :: JStr(m[k]))
  }

  lemma TextMapRoundTrip(m: map<string, string>, field: string)
    ensures TextMap(TextMapJson(m), field) == Ok(m)
  {
    var j := TextMapJson(m);
    assert forall k :: k in j.fields ==> j.fields[k] == JStr(m[k]);
    assert j.JObject? && forall k :: k in j.fields ==> j.fields[k].JStr?;
    var r := TextMap(j, field);
    assert r.Ok?;
    assert r.value.Keys == m.Keys;
    assert forall k :: k in m ==> r.value[k] == m[k];
    assert r.value == m;
  }

  // ---------------------------------------------------------------------------
  // Mapping direction

  datatype Direction = GithubToServiceNow | ServiceNowToGithub | Bidirectional

  const DEFAULT_DIRECTION := Bidirectional

  function DirectionName(d: Direction): string {
    match d
    case GithubToServiceNow => "github_to_servicenow"
    case ServiceNowToGithub => "servicenow_to_github"
    case Bidirectional => "bidirectional"
  }

  /** The `Literal[...]` check: exactly the three names are accepted. */
  function ParseDirection(s: string): (r: Option<Direction>)
    ensures r.Some? <==> s == "github_to_servicenow" || s == "servicenow_to_github" || s == "bidirectional"
    ensures r.Some? ==> DirectionName(r.value) == s
  {
    if s == "github_to_servicenow" then Some(GithubToServiceNow)
    else if s == "servicenow_to_github" then Some(ServiceNowToGithub)
    else if s == "bidirectional" then Some(Bidirectional)
    else None
  }

  lemma ParseDirectionName(d: Direction)
    ensures ParseDirection(DirectionName(d)) == Some(d)
  {
  }

  /** The `direction` field, "bidirectional" when absent. */
  function DirectionField(body: map<string, Json>): (r: Result<Direction>)
    ensures "direction" !in body ==> r == Ok(Bidirectional)
    ensures "direction" in body ==>
              (r.Ok? <==> body["direction"].JStr? && ParseDirection(body["direction"].s).Some?)
    ensures "direction" in body && r.Ok? ==> body["direction"] == JStr(DirectionName(r.value))
  {
    if "direction" !in body then Ok(DEFAULT_DIRECTION)
    else match body["direction"]
      case JStr(s) =>
        (match ParseDirection(s)
         case Some(d) => Ok(d)
         case None => Err(Invalid("direction")))
      case _ => Err(Invalid("direction"))
  }

  // ---------------------------------------------------------------------------
  // Auth

  /** Registration and login bodies share a shape; they differ in the
      password bounds. */
  datatype Credentials = Credentials(email: string, password: string)

  const EMAIL_MAX := 320

  predicate ValidRegister(req: Credentials) {
    InLength(req.password, 8, 256)
  }

  predicate ValidLogin(req: Credentials) {
    InLength(req.password, 1, 256)
  }

  function CredentialsJson(req: Credentials): map<string, Json> {
    map["email" := JStr(req.email), "password" := JStr(req.password)]
  }

  /** `RegisterRequest`: a password of 8 to 256 characters. */
  function ParseRegister(body: map<string, Json>): (r: Result<Credentials>)
    ensures r.Ok? ==> ValidRegister(r.value) && body == body + CredentialsJson(r.value)
  {
    var email :- Text(body, "email", 0, EMAIL_MAX);
    var password :- Text(body, "password", 8, 256);
    Ok(Credentials(email, password))
  }

  /** `LoginRequest`: a password of 1 to 256 characters. */
  function ParseLogin(body: map<string, Json>): (r: Result<Credentials>)
    ensures r.Ok? ==> ValidLogin(r.value) && body == body + CredentialsJson(r.value)
  {
    var email :- Text(body, "email", 0, EMAIL_MAX);
    var password :- Text(body, "password", 1, 256);
    Ok(Credentials(email, password))
  }

  lemma RegisterRoundTrip(req: Credentials)
    requires |req.email| <= EMAIL_MAX
    ensures ParseRegister(CredentialsJson(req)) == Ok(req) <==> ValidRegister(req)
    ensures ParseLogin(CredentialsJson(req)) == Ok(req) <==> ValidLogin(req)
  {
  }

  /** Every registrable password is also long enough to log in with. */
  lemma RegisterImpliesLogin(body: map<string, Json>)
    ensures ParseRegister(body).Ok? ==> ParseLogin(body) == ParseRegister(body)
  {
  }

  datatype ChangePassword = ChangePassword(currentPassword: string, newPassword: string)

  predicate ValidChangePassword(req: ChangePassword) {
    InLength(req.currentPassword, 1, 256) && InLength(req.newPassword, 8, 256)
  }

  function ChangePasswordJson(req: ChangePassword): map<string, Json> {
    map["current_password" := JStr(req.currentPassword), "new_password" := JStr(req.newPassword)]
  }

  /** `ChangePasswordRequest`: current 1 to 256 characters, new 8 to 256. */
  function ParseChangePassword(body: map<string, Json>): (r: Result<ChangePassword>)
    ensures r.Ok? ==> ValidChangePassword(r.value) && body == body + ChangePasswordJson(r.value)
  {
    var current :- Text(body, "current_password", 1, 256);
    var newPassword :- Text(body, "new_password", 8, 256);
    Ok(ChangePassword(current, newPassword))
  }

  lemma ChangePasswordRoundTrip(req: ChangePassword)
    ensures ParseChangePassword(ChangePasswordJson(req)) == Ok(req) <==> ValidChangePassword(req)
  {
  }

  /** `UpdateMeRequest`: an optional email. */
  function ParseUpdateMe(body: map<string, Json>): (r: Result<Option<string>>)
    ensures Get(body, "email") == JNull ==> r == Ok(None)
    ensures r.Ok? && r.value.Some? ==> body["email"] == JStr(r.value.value)
  {
    OptionalText(body, "email", Some(EMAIL_MAX))
  }

  // ---------------------------------------------------------------------------
  // Provider connections

  const DEFAULT_LABEL := "default"
  const LABEL_MAX := 100

  /** The optional label is valid: absent, or text of at most 100 characters. */
  predicate LabelField(body: map<string, Json>) {
    "label" in body ==> body["label"].JStr? && |body["label"].s| <= LABEL_MAX
  }

  /** The parsed label is the body's, when the body has one. */
  predicate LabelFrom(body: map<string, Json>, tag: string) {
    "label" in body ==> body["label"] == JStr(tag)
  }

  datatype GithubConnect = GithubConnect(token: string, tag: string)

  predicate ValidGithubConnect(req: GithubConnect) {
    InLength(req.token, 10, 4096) && |req.tag| <= LABEL_MAX
  }

  function GithubConnectJson(req: GithubConnect): map<string, Json> {
    map["token" := JStr(req.token), "label" := JStr(req.tag)]
  }

  /** `GithubConnectRequest`: a token of 10 to 4096 characters; the label at
      most 100 characters, "default" when absent. */
  function ParseGithubConnect(body: map<string, Json>): (r: Result<GithubConnect>)
    ensures r.Ok? <==> TextField(body, "token", 10, 4096) && LabelField(body)
    ensures r.Ok? ==> body["token"] == JStr(r.value.token) && LabelFrom(body, r.value.tag)
    ensures r.Ok? ==> ValidGithubConnect(r.value)
    ensures r.Ok? && "label" !in body ==> r.value.tag == "default"
  {
    var token :- Text(body, "token", 10, 4096);
    var tag :- TextOr(body, "label", DEFAULT_LABEL, LABEL_MAX);
    Ok(GithubConnect(token, tag))
  }

  lemma GithubConnectRoundTrip(req: GithubConnect)
    ensures ParseGithubConnect(GithubConnectJson(req)) == Ok(req) <==> ValidGithubConnect(req)
  {
  }

  datatype ServiceNowConnect = ServiceNowConnect(instanceUrl: string, username: string, password: string, tag: string)

  predicate ValidServiceNowConnect(req: ServiceNowConnect) {
    InLength(req.username, 1, 256) && InLength(req.password, 1, 4096) && |req.tag| <= LABEL_MAX
  }

  function ServiceNowConnectJson(req: ServiceNowConnect): map<string, Json> {
    map["instance_url" := JStr(req.instanceUrl), "username" := JStr(req.username),
        "password" := JStr(req.password), "label" := JStr(req.tag)]
  }

  const URL_MAX := 2083

  /** `ServiceNowConnectRequest`: username 1 to 256 characters, password 1 to
      4096, label at most 100 and "default" when absent. */
  function ParseServiceNowConnect(body: map<string, Json>): (r: Result<ServiceNowConnect>)
    ensures r.Ok? <==> && TextField(body, "instance_url", 1, URL_MAX) && TextField(body, "username", 1, 256)
                       && TextField(body, "password", 1, 4096) && LabelField(body)
    ensures r.Ok? ==> && body["instance_url"] == JStr(r.value.instanceUrl) && body["username"] == JStr(r.value.username)
                      && body["password"] == JStr(r.value.password) && LabelFrom(body, r.value.tag)
    ensures r.Ok? ==> ValidServiceNowConnect(r.value)
    ensures r.Ok? && "label" !in body ==> r.value.tag == "default"
  {
    var url :- Text(body, "instance_url", 1, URL_MAX);
    var username :- Text(body, "username", 1, 256);
    var password :- Text(body, "password", 1, 4096);
    var tag :- TextOr(body, "label", DEFAULT_LABEL, LABEL_MAX);
    Ok(ServiceNowConnect(url, username, password, tag))
  }

  lemma ServiceNowConnectRoundTrip(req: ServiceNowConnect)
    requires InLength(req.instanceUrl, 1, URL_MAX)
    ensures ParseServiceNowConnect(ServiceNowConnectJson(req)) == Ok(req) <==> ValidServiceNowConnect(req)
  {
  }

  datatype RecordUpsert = RecordUpsert(table: string, data: map<string, Json>, sysId: Option<string>, tag: string)

  predicate ValidRecordUpsert(req: RecordUpsert) {
    && InLength(req.table, 1, 200)
    && |req.data| >= 1
    && (req.sysId.Some? ==> |req.sysId.value| <= 100)
    && |req.tag| <= LABEL_MAX
  }

  function RecordUpsertJson(req: RecordUpsert): map<string, Json> {
    map["table" := JStr(req.table), "data" := JObject(req.data),
        "sys_id" := (match req.sysId case Some(s) => JStr(s) case None => JNull),
        "label" := JStr(req.tag)]
  }

  /** `ServiceNowRecordUpsertRequest`: table 1 to 200 characters, at least one
      data item, an optional sys_id of at most 100 characters. */
  function ParseRecordUpsert(body: map<string, Json>): (r: Result<RecordUpsert>)
    ensures r.Ok? <==> && TextField(body, "table", 1, 200)
                       && "data" in body && body["data"].JObject? && |body["data"].fields| >= 1
                       && (Get(body, "sys_id") != JNull ==> body["sys_id"].JStr? && |body["sys_id"].s| <= 100)
                       && LabelField(body)
    ensures r.Ok? ==> && body["table"] == JStr(r.value.table) && body["data"] == JObject(r.value.data)
                      && LabelFrom(body, r.value.tag)
    ensures r.Ok? && r.value.sysId.Some? ==> "sys_id" in body && body["sys_id"] == JStr(r.value.sysId.value)
    ensures r.Ok? ==> ValidRecordUpsert(r.value)
    ensures r.Ok? && Get(body, "sys_id") == JNull ==> r.value.sysId.None?
    ensures r.Ok? && "label" !in body ==> r.value.tag == "default"
  {
    var table :- Text(body, "table", 1, 200);
    var data :- if "data" in body && body["data"].JObject? && |body["data"].fields| >= 1
                then Ok(body["data"].fields) else Err(Invalid("data"));
    var sysId :- OptionalText(body, "sys_id", Some(100));
    var tag :- TextOr(body, "label", DEFAULT_LABEL, LABEL_MAX);
    Ok(RecordUpsert(table, data, sysId, tag))
  }

  lemma RecordUpsertRoundTrip(req: RecordUpsert)
    ensures ParseRecordUpsert(RecordUpsertJson(req)) == Ok(req) <==> ValidRecordUpsert(req)
  {
  }

  // ---------------------------------------------------------------------------
  // Mappings

  /** The fields the three mapping bodies share. */
  datatype MappingTarget = MappingTarget(repo: string, table: string, tag: string, direction: Direction)

  predicate ValidTarget(t: MappingTarget) {
    InLength(t.repo, 3, 300) && InLength(t.table, 1, 200) && |t.tag| <= LABEL_MAX
  }

  function TargetJson(t: MappingTarget): map<string, Json> {
    map["github_repo_full_name" := JStr(t.repo), "servicenow_table" := JStr(t.table),
        "label" := JStr(t.tag), "direction" := JStr(DirectionName(t.direction))]
  }

  /** The target's values are the body's fields, where the body has them. */
  predicate TargetFrom(body: map<string, Json>, t: MappingTarget) {
    && "github_repo_full_name" in body && body["github_repo_full_name"] == JStr(t.repo)
    && "servicenow_table" in body && body["servicenow_table"] == JStr(t.table)
    && LabelFrom(body, t.tag)
    && ("direction" in body ==> body["direction"] == JStr(DirectionName(t.direction)))
  }

  /** The body's field mapping, when given, is the parsed map. */
  predicate FieldMappingFrom(body: map<string, Json>, m: map<string, string>) {
    && "field_mapping" in body && body["field_mapping"].JObject?
    && body["field_mapping"].fields.Keys == m.Keys
    && forall k :: k in m ==> body["field_mapping"].fields[k] == JStr(m[k])
  }

  /** Repo name 3 to 300 characters, table 1 to 200, label at most 100 and
      "default" when absent, direction one of the three names and
      "bidirectional" when absent. */
  function ParseTarget(body: map<string, Json>): (r: Result<MappingTarget>)
    ensures r.Ok? <==> && TextField(body, "github_repo_full_name", 3, 300) && TextField(body, "servicenow_table", 1, 200)
                       && LabelField(body)
                       && ("direction" in body ==> body["direction"].JStr? && ParseDirection(body["direction"].s).Some?)
    ensures r.Ok? ==> TargetFrom(body, r.value)
    ensures r.Ok? ==> ValidTarget(r.value)
    ensures r.Ok? && "label" !in body ==> r.value.tag == "default"
    ensures r.Ok? && "direction" !in body ==> r.value.direction == Bidirectional
  {
    var repo :- Text(body, "github_repo_full_name", 3, 300);
    var table :- Text(body, "servicenow_table", 1, 200);
    var tag :- TextOr(body, "label", DEFAULT_LABEL, LABEL_MAX);
    var direction :- DirectionField(body);
    Ok(MappingTarget(repo, table, tag, direction))
  }

  lemma TargetRoundTrip(t: MappingTarget)
    ensures ParseTarget(TargetJson(t)) == Ok(t) <==> ValidTarget(t)
  {
    ParseDirectionName(t.direction);
  }

  /** `CreateMappingRequest`: the field mapping is absent unless given. */
  datatype CreateMapping = CreateMapping(target: MappingTarget, fieldMapping: Option<map<string, string>>)

  function ParseCreateMapping(body: map<string, Json>): (r: Result<CreateMapping>)
    ensures r.Ok? ==> ValidTarget(r.value.target) && TargetFrom(body, r.value.target)
    ensures r.Ok? ==> (r.value.fieldMapping.None? <==> Get(body, "field_mapping") == JNull)
    ensures r.Ok? && r.value.fieldMapping.Some? ==> FieldMappingFrom(body, r.value.fieldMapping.value)
  {
    var target :- ParseTarget(body);
    var fieldMapping :- if Get(body, "field_mapping") == JNull then Ok(None)
                        else var m :- TextMap(body["field_mapping"], "field_mapping"); Ok(Some(m));
    Ok(CreateMapping(target, fieldMapping))
  }

  /** `MappingValidationRequest`: the field mapping is empty unless given. */
  datatype ValidateMapping = ValidateMapping(target: MappingTarget, fieldMapping: map<string, string>)

  function ParseValidateMapping(body: map<string, Json>): (r: Result<ValidateMapping>)
    ensures r.Ok? ==> ValidTarget(r.value.target) && TargetFrom(body, r.value.target)
    ensures r.Ok? && "field_mapping" !in body ==> r.value.fieldMapping == map[]
    ensures r.Ok? && "field_mapping" in body ==> FieldMappingFrom(body, r.value.fieldMapping)
    ensures Get(body, "field_mapping") == JNull && "field_mapping" in body ==> r.Err?
  {
    var target :- ParseTarget(body);
    var fieldMapping :- if "field_mapping" !in body then Ok(map[])
                        else TextMap(body["field_mapping"], "field_mapping");
    Ok(ValidateMapping(target, fieldMapping))
  }

  /** The same body, read by the two schemas, agrees on the target; only the
      absent field mapping differs (None against an empty map). */
  lemma CreateAndValidateAgree(body: map<string, Json>)
    ensures ParseValidateMapping(body).Ok? ==> ParseCreateMapping(body).Ok?
    ensures ParseValidateMapping(body).Ok? ==>
              ParseCreateMapping(body).value.target == ParseValidateMapping(body).value.target
    ensures ParseValidateMapping(body).Ok? && "field_mapping" !in body ==>
              ParseCreateMapping(body).value.fieldMapping == None
  {
  }

  /** `AutoMappingRequest`: the shared fields only. */
  function ParseAutoMapping(body: map<string, Json>): (r: Result<MappingTarget>)
    ensures r.Ok? ==> ValidTarget(r.value) && TargetFrom(body, r.value)
    ensures r.Ok? && "label" !in body ==> r.value.tag == "default"
    ensures r.Ok? && "direction" !in body ==> r.value.direction == Bidirectional
  {
    ParseTarget(body)
  }

  // ---------------------------------------------------------------------------
  // Settings

  datatype SettingsUpdate = SettingsUpdate(theme: Option<string>, notifications: Option<bool>)

  /** `UpdateUserSettingsRequest`: both fields optional; absent and null
      both mean "leave as is". */
  function ParseSettingsUpdate(body: map<string, Json>): (r: Result<SettingsUpdate>)
    ensures Get(body, "theme") == JNull && Get(body, "notifications") == JNull ==> r == Ok(SettingsUpdate(None, None))
    ensures r.Ok? && r.value.theme.Some? ==> "theme" in body && body["theme"] == JStr(r.value.theme.value)
    ensures r.Ok? && r.value.notifications.Some? ==> "notifications" in body && body["notifications"] == JBool(r.value.notifications.value)
  {
    var theme :- OptionalText(body, "theme", None);
    var notifications :- OptionalBool(body, "notifications");
    Ok(SettingsUpdate(theme, notifications))
  }
}

=== FILE: results.dfy ===
/** Optional values, operation results and the errors a request can end with. */
module Results {

  datatype Option<T> = None | Some(value: T) {
    function GetOr(default: T): T {
      if Some? then value else default
    }
  }

  const BAD_REQUEST := 400
  const UNAUTHORIZED := 401
  const NOT_FOUND := 404
  const CONFLICT := 409
  const SERVER_ERROR := 500

  /** `HttpError` is a raised `HTTPException(status_code, detail)`; `Uncaught`
      is any other exception (a `ValueError`, a failed conversion, a cloud
      service error), which the web framework turns into a server error. */
  datatype Error =
    | HttpError(status: int, detail: string)
    | Uncaught(message: string)

  datatype Result<T> = Ok(value: T) | Err(error: Error) {
    predicate IsFailure() {
      Err?
    }

    function PropagateFailure<U>(): Result<U>
      requires Err?
    {
      Err(error)
    }

    function Extract(): T
      requires Ok?
    {
      value
    }
  }

  /** The outcome of a call into a remote system: the reply, or the text of
      the exception the call raised. */
  datatype Remote<T> = Reply(body: T) | Fault(message: string)
}

=== FILE: secret_store.dfy ===
/** The secret store interface and the configuration-driven choice between
    its two implementations. */
module SecretStore {
  import opened Results
  import opened Models
  import SqliteStore
  import AwsStore

  /** The configured implementation: the local encrypted table, or the cloud
      secret manager under a name prefix. */
  datatype Backend = SqliteBackend | AwsBackend(prefix: string)

  /** `get_secret_store`: the cloud store exactly when `secret_store` is "aws". */
  function Choose(secretStore: string, awsPrefix: string): (b: Backend)
    ensures b.AwsBackend? <==> secretStore == "aws"
    ensures b.AwsBackend? ==> b.prefix == awsPrefix
  {
    if secretStore == "aws" then AwsBackend(awsPrefix) else SqliteBackend
  }

  datatype Stored = Stored(db: Db, ref: string)

  /** `store.put(user_id, name, value)`. `awsFault` is a failure the cloud
      secret manager reports; the local store ignores it. Only the chosen
      store's part of the state changes. */
  function Put(backend: Backend, db: Db, userId: nat, name: string, value: string,
               awsFault: Option<string>, now: Timestamp): (r: Result<Stored>)
    ensures backend.SqliteBackend? ==> r.Ok? && r.value.db == db.(secrets := r.value.db.secrets)
    ensures backend.AwsBackend? ==> (r.Ok? <==> awsFault.None?)
    ensures r.Ok? && backend.AwsBackend? ==> r.value.db == db.(aws := r.value.db.aws)
    ensures r.Ok? ==> Get(backend, r.value.db, userId, r.value.ref) == Ok(value)
    ensures r.Ok? && Valid(db) ==> Valid(r.value.db)
  {
    match backend
    case SqliteBackend =>
      var s := SqliteStore.Put(db.secrets, userId, name, value, now);
      SqliteStore.GetPut(db.secrets, userId, name, value, now);
      Ok(Stored(db.(secrets := s.secrets), s.ref))
    case AwsBackend(prefix) =>
      match AwsStore.Put(db.aws, prefix, userId, name, value, awsFault)
      case Err(e) => Err(e)
      case Ok(s) =>
        AwsStore.GetPut(db.aws, prefix, userId, name, value, userId);
        Ok(Stored(db.(aws := s.aws), s.ref))
  }

  /** `store.get(user_id, ref)`. */
  function Get(backend: Backend, db: Db, userId: nat, ref: string): (r: Result<string>)
    ensures backend.SqliteBackend? ==> r == SqliteStore.Get(db.secrets, userId, ref)
    ensures backend.AwsBackend? ==> r == AwsStore.Get(db.aws, userId, ref)
  {
    match backend
    case SqliteBackend => SqliteStore.Get(db.secrets, userId, ref)
    case AwsBackend(_) => AwsStore.Get(db.aws, userId, ref)
  }
}

=== FILE: servicenow_client.dfy ===
/** The ServiceNow Table API client: URL joining, the table listing query
    and the extraction of the `result` array. The HTTP exchange is a
    `Transport` parameter. */
module ServiceNowClient {
  import opened Results
  import opened Text
  import opened Json

  predicate IsSlash(c: char) {
    c == '/'
  }

  datatype Client = Client(instanceUrl: string, username: string, password: string)

  /** `ServiceNowClient(instance_url, username, password)`: the instance URL
      loses its trailing slashes. */
  function NewClient(instanceUrl: string, username: string, password: string): (c: Client)
    ensures c.username == username && c.password == password
    ensures c.instanceUrl == [] || c.instanceUrl[|c.instanceUrl| - 1] != '/'
    ensures StartsWith(instanceUrl, c.instanceUrl)
    ensures forall i :: |c.instanceUrl| <= i < |instanceUrl| ==> instanceUrl[i] == '/'
  {
    Client(TrimEnd(instanceUrl, IsSlash), username, password)
  }

  predicate IsAbsolute(path: string) {
    StartsWith(path, "http://") || StartsWith(path, "https://")
  }

  /** `_url`: absolute URLs pass through; anything else is joined to the
      instance URL with exactly one slash between them. */
  function Url(c: Client, path: string): (u: string)
    ensures IsAbsolute(path) ==> u == path
    ensures !IsAbsolute(path) ==>
              exists k :: 0 <= k <= |path| && u == c.instanceUrl + "/" + path[k..]
                          && (forall i :: 0 <= i < k ==> path[i] == '/')
                          && (k == |path| || path[k] != '/')
  {
    if IsAbsolute(path) then path
    else
      var rest := TrimStart(path, IsSlash);
      assert rest == path[|path| - |rest|..];
      c.instanceUrl + "/" + rest
  }

  /** Leading slashes on a relative path make no difference. */
  lemma UrlLeadingSlashes(c: Client, path: string)
    requires !IsAbsolute(path) && !IsAbsolute("/" + path)
    ensures Url(c, "/" + path) == Url(c, path)
  {
    assert ("/" + path)[1..] == path;
  }

  /** A slash followed by a path that starts with neither a slash nor a
      scheme is relative, and `_url` strips just that slash. */
  lemma SlashedRelative(p: string, t: string)
    requires p != [] && p[0] != '/'
    ensures !IsAbsolute("/" + p + t)
    ensures TrimStart("/" + p + t, IsSlash) == p + t
  {
    var path := "/" + p + t;
    assert path == "/" + (p + t);
    assert path[0] == '/' && path[1..] == p + t;
    assert |path| >= 7 ==> path[..7][0] == '/';
    assert |path| >= 8 ==> path[..8][0] == '/';
    assert (p + t)[0] == p[0];
  }

  lemma RelativeTablePath(table: string)
    ensures !IsAbsolute(TABLE_API + table)
    ensures TrimStart(TABLE_API + table, IsSlash) == TABLE_PATH + table
  {
    SlashedRelative(TABLE_PATH, table);
  }

  /** One GET request with basic authentication and query parameters. */
  datatype Request = Request(username: string, password: string, url: string, params: map<string, string>)

  /** A Fault is a connection error or a non-2xx status. */
  type Transport = Request -> Remote<Json>

  const TABLE_PATH := "api/now/table/"
  const TABLE_API := "/" + TABLE_PATH

  /** The Table API URL of `table`, through `_url`. */
  function TableUrl(c: Client, table: string): (u: string)
    ensures u == c.instanceUrl + "/api/now/table/" + table
  {
    var path := TABLE_API + table;
    RelativeTablePath(table);
    Url(c, path)
  }

  /** `validate`: one row of `sys_user`, to check the credentials. */
  function ValidateRequest(c: Client): (r: Request)
    ensures r.username == c.username && r.password == c.password
    ensures r.url == c.instanceUrl + "/api/now/table/" + "sys_user"
    ensures r.params == map["sysparm_limit" := "1"]
  {
    Request(c.username, c.password, TableUrl(c, "sys_user"), map["sysparm_limit" := "1"])
  }

  const MIN_LIMIT := 1
  const MAX_LIMIT := 500
  const DEFAULT_TABLE_LIMIT := 50

  /** `max(1, min(limit, 500))`. */
  function ClampLimit(limit: int): (n: int)
    ensures MIN_LIMIT <= n <= MAX_LIMIT
    ensures MIN_LIMIT <= limit <= MAX_LIMIT ==> n == limit
    ensures limit < MIN_LIMIT ==> n == MIN_LIMIT
    ensures limit > MAX_LIMIT ==> n == MAX_LIMIT
  {
    if limit < MIN_LIMIT then MIN_LIMIT else if limit > MAX_LIMIT then MAX_LIMIT else limit
  }

  lemma ClampLimitIdempotent(limit: int)
    ensures ClampLimit(ClampLimit(limit)) == ClampLimit(limit)
  {
  }

  /** `f"nameLIKE{query}^ORlabelLIKE{query}"`: tables whose name or label contain the query. */
  function TableQuery(query: string): string {
    "nameLIKE" + query + "^ORlabelLIKE" + query
  }

  /** The query parameters of `list_tables`. */
  function TableParams(limit: int, query: Option<string>): (p: map<string, string>)
    ensures "sysparm_fields" in p && p["sysparm_fields"] == "name,label"
    ensures "sysparm_limit" in p && p["sysparm_limit"] == IntToString(ClampLimit(limit))
    ensures "sysparm_query" in p <==> query.Some? && query.value != ""
    ensures "sysparm_query" in p ==> p["sysparm_query"] == TableQuery(query.value)
    ensures p.Keys <= {"sysparm_fields", "sysparm_limit", "sysparm_query"}
  {
    var base := map["sysparm_fields" := "name,label", "sysparm_limit" := IntToString(ClampLimit(limit))];
    match query
    case Some(q) => if q != "" then base["sysparm_query" := TableQuery(q)] else base
    case None => base
  }

  /** The limit parameter reads back as the clamped limit. */
  lemma TableLimitParam(limit: int, query: Option<string>)
    ensures ParseInt(TableParams(limit, query)["sysparm_limit"]) == Some(ClampLimit(limit))
  {
    ParseIntToString(ClampLimit(limit));
  }

  /** `list_tables`'s request against `sys_db_object`. */
  function TablesRequest(c: Client, limit: int, query: Option<string>): (r: Request)
    ensures r.username == c.username && r.password == c.password
    ensures r.url == c.instanceUrl + "/api/now/table/" + "sys_db_object"
    ensures r.params == TableParams(limit, query)
  {
    Request(c.username, c.password, TableUrl(c, "sys_db_object"), TableParams(limit, query))
  }

  /** `(r.json() or {}).get("result", []) or []`: a falsy body or a falsy
      result is the empty list, and any other result is returned as it is,
      list or not. A truthy body that is not an object has no `get`. */
  function ExtractResult(body: Json): (r: Remote<Json>)
    ensures !Truthy(body) ==> r == Reply(JList([]))
    ensures body.JObject? && !Truthy(Get(body.fields, "result")) ==> r == Reply(JList([]))
    ensures body.JObject? && Truthy(Get(body.fields, "result")) ==> r == Reply(body.fields["result"])
    ensures Truthy(body) && !body.JObject? ==> r == Fault(NoGet(body))
    ensures r.Reply? ==> Truthy(r.body) || r.body == JList([])
  {
    if !Truthy(body) then Reply(JList([]))
    else match body
      case JObject(fields) => Reply(Or(GetOr(fields, "result", JList([])), JList([])))
      case _ => Fault(NoGet(body))
  }

  /** A reply carrying rows under `result` yields exactly those rows, and an
      empty body yields none. */
  lemma ExtractRows(rows: seq<Json>)
    ensures ExtractResult(JObject(map["result" := JList(rows)])) == Reply(JList(rows))
    ensures ExtractResult(JNull) == Reply(JList([])) && ExtractResult(JObject(map[])) == Reply(JList([]))
  {
  }

  /** `list_tables`: the rows of the table listing, or the failure. */
  function ListTables(c: Client, fetch: Transport, limit: int, query: Option<string>): (r: Remote<Json>)
    ensures fetch(TablesRequest(c, limit, query)).Fault? ==> r == Fault(fetch(TablesRequest(c, limit, query)).message)
    ensures fetch(TablesRequest(c, limit, query)).Reply? ==> r == ExtractResult(fetch(TablesRequest(c, limit, query)).body)
  {
    match fetch(TablesRequest(c, limit, query))
    case Fault(e) => Fault(e)
    case Reply(body) => ExtractResult(body)
  }
}

=== FILE: servicenow_service.dfy ===
/** The ServiceNow integration: connecting with basic-auth credentials,
    listing tables, listing a table's fields and creating or updating a
    record. Each call that uses the stored credentials records its outcome
    on the integration row. */
module ServiceNowService {
  import opened Results
  import opened Text
  import opened Json
  import opened Tables
  import opened Models
  import opened Requests
  import opened Providers
  import SecretStore
  import ServiceNowClient

  const PROVIDER := "servicenow"
  const NOT_CONFIGURED := "ServiceNow integration not configured"
  const INCOMPLETE := "ServiceNow integration config incomplete"
  const AUTH_FAILED := "ServiceNow auth failed: "
  const API_FAILED := "ServiceNow API failed: "
  const TABLE_REQUIRED := "table is required"
  const DATA_REQUIRED := "data is required"
  const BAD_CONFIG := "Expecting value"

  /** The remote operations the service uses. `fetch` is the HTTP exchange of
      the client's own requests; the other three are the client's
      `list_fields`, `update_record` and `create_record`, whose requests are
      not part of this model. */
  datatype Api = Api(
    fetch: ServiceNowClient.Transport,
    listFields: (ServiceNowClient.Client, string) -> Remote<seq<Json>>,
    updateRecord: (ServiceNowClient.Client, string, string, map<string, Json>) -> Remote<Json>,
    createRecord: (ServiceNowClient.Client, string, map<string, Json>) -> Remote<Json>)

  function PasswordName(tag: string): string {
    "servicenow_password:" + tag
  }

  /** The integration config stored for an instance. */
  function InstanceConfig(instanceUrl: string, username: string): map<string, Json> {
    map["instance_url" := JStr(instanceUrl), "username" := JStr(username)]
  }

  datatype Connected = Connected(tag: string, instanceUrl: string, user: string)

  /** `ServiceNowService.connect`. The credentials are checked with one
      `sys_user` read first; a failure there changes nothing. The password is
      then stored, and the integration row for the label is created or
      updated with the instance, the user name, the password's reference and
      an "OK" test status. */
  function Connect(db: Db, env: Env, userId: nat, req: ServiceNowConnect, api: Api): (s: Step<Connected>)
    ensures var probe := api.fetch(ServiceNowClient.ValidateRequest(ServiceNowClient.NewClient(req.instanceUrl, req.username, req.password)));
            probe.Fault? ==> s == Step(db, Err(HttpError(BAD_REQUEST, AUTH_FAILED + probe.message)))
    ensures var probe := api.fetch(ServiceNowClient.ValidateRequest(ServiceNowClient.NewClient(req.instanceUrl, req.username, req.password)));
            var put := SecretStore.Put(env.backend, db, userId, PasswordName(req.tag), req.password, env.awsFault, env.now);
            probe.Reply? ==> (s.out.Ok? <==> put.Ok?) && (put.Err? ==> s == Step(db, Err(put.error)))
    ensures s.out.Ok? ==> s.out.value == Connected(req.tag, req.instanceUrl, req.username)
    ensures s.out.Ok? ==> exists i, ref ::
              && ConnectedAt(s.db.integrations, i, userId, PROVIDER, req.tag, InstanceConfig(req.instanceUrl, req.username), ref, env.now)
              && SecretStore.Get(env.backend, s.db, userId, ref) == Ok(req.password)
    ensures s.out.Err? ==> s.db == db
    ensures s.db.users == db.users && s.db.settings == db.settings && s.db.mappings == db.mappings
    ensures Valid(db) ==> Valid(s.db)
  {
    var client := ServiceNowClient.NewClient(req.instanceUrl, req.username, req.password);
    match api.fetch(ServiceNowClient.ValidateRequest(client))
    case Fault(e) => Step(db, Err(HttpError(BAD_REQUEST, AUTH_FAILED + e)))
    case Reply(_) => Save(db, env, userId, req)
  }

  /** The part of `connect` after the credentials passed: store the
      password, then upsert the row. */
  function Save(db: Db, env: Env, userId: nat, req: ServiceNowConnect): (s: Step<Connected>)
    ensures var put := SecretStore.Put(env.backend, db, userId, PasswordName(req.tag), req.password, env.awsFault, env.now);
            && (s.out.Ok? <==> put.Ok?)
            && (put.Err? ==> s == Step(db, Err(put.error)))
    ensures s.out.Ok? ==> s.out.value == Connected(req.tag, req.instanceUrl, req.username)
    ensures s.out.Ok? ==> exists i, ref ::
              && ConnectedAt(s.db.integrations, i, userId, PROVIDER, req.tag, InstanceConfig(req.instanceUrl, req.username), ref, env.now)
              && SecretStore.Get(env.backend, s.db, userId, ref) == Ok(req.password)
    ensures s.out.Err? ==> s.db == db
    ensures s.db.users == db.users && s.db.settings == db.settings && s.db.mappings == db.mappings
    ensures Valid(db) ==> Valid(s.db)
  {
    match SecretStore.Put(env.backend, db, userId, PasswordName(req.tag), req.password, env.awsFault, env.now)
    case Err(e) => Step(db, Err(e))
    case Ok(stored) =>
      var db' := Link(stored, env, userId, PROVIDER, req.tag, InstanceConfig(req.instanceUrl, req.username), req.password);
      Step(db', Ok(Connected(req.tag, req.instanceUrl, req.username)))
  }

  /** The `config_json` of a row as `loads` returns it; text that is not JSON
      raises. */
  function LoadConfig(config: ConfigJson): (r: Result<map<string, Json>>)
    ensures config.Parsed? <==> r.Ok?
    ensures r.Ok? ==> r.value == config.fields
  {
    match config
    case Parsed(fields) => Ok(fields)
    case Unparsable => Err(Uncaught(BAD_CONFIG))
  }

  /** `_get_client`: the caller's configured row for the label, and a client
      for the instance and user in its config with the stored password. A
      config that does not parse raises the parser's error; one that lacks a
      truthy instance URL or user name is a server error; a failed secret
      read propagates. */
  function GetClient(db: Db, env: Env, userId: nat, tag: string): (r: Result<(nat, ServiceNowClient.Client)>)
    ensures Configured(db, userId, PROVIDER, tag, NOT_CONFIGURED).Err? ==> r == Err(HttpError(NOT_FOUND, NOT_CONFIGURED))
    ensures forall i :: Configured(db, userId, PROVIDER, tag, NOT_CONFIGURED) == Ok(i) && db.integrations[i].val.config.Parsed? ==>
              var cfg := db.integrations[i].val.config.fields;
              && (!Truthy(Get(cfg, "instance_url")) || !Truthy(Get(cfg, "username")) ==>
                    r == Err(HttpError(SERVER_ERROR, INCOMPLETE)))
              && (Truthy(Get(cfg, "instance_url")) && Truthy(Get(cfg, "username")) ==>
                    var secret := SecretOf(db, env, userId, i);
                    && (secret.Err? ==> r == Err(secret.error))
                    && (secret.Ok? ==> r == Ok((i, ServiceNowClient.NewClient(Str(cfg["instance_url"]), Str(cfg["username"]), secret.value)))))
    ensures forall i :: Configured(db, userId, PROVIDER, tag, NOT_CONFIGURED) == Ok(i) && db.integrations[i].val.config.Unparsable? ==>
              r == Err(Uncaught(BAD_CONFIG))
    ensures r.Ok? ==> r.value.0 < |db.integrations| && IntegrationKey(db.integrations[r.value.0].val) == (userId, PROVIDER, tag)
  {
    var i :- Configured(db, userId, PROVIDER, tag, NOT_CONFIGURED);
    var cfg :- LoadConfig(db.integrations[i].val.config);
    var instanceUrl := Get(cfg, "instance_url");
    var username := Get(cfg, "username");
    if !Truthy(instanceUrl) || !Truthy(username) then Err(HttpError(SERVER_ERROR, INCOMPLETE))
    else
      var password :- SecretOf(db, env, userId, i);
      Ok((i, ServiceNowClient.NewClient(Str(instanceUrl), Str(username), password)))
  }

  /** After a connect, the other calls reach the same instance as the same
      user with the same password. */
  lemma ConnectThenGetClient(db: Db, env: Env, userId: nat, req: ServiceNowConnect, api: Api)
    requires Valid(db) && req.instanceUrl != "" && req.username != ""
    ensures var s := Connect(db, env, userId, req, api);
            s.out.Ok? ==>
              var r := GetClient(s.db, env, userId, req.tag);
              r.Ok? && r.value.1 == ServiceNowClient.NewClient(req.instanceUrl, req.username, req.password)
  {
    var s := Connect(db, env, userId, req, api);
    if s.out.Ok? {
      var cfg := InstanceConfig(req.instanceUrl, req.username);
      var i, ref :| && ConnectedAt(s.db.integrations, i, userId, PROVIDER, req.tag, cfg, ref, env.now)
                    && SecretStore.Get(env.backend, s.db, userId, ref) == Ok(req.password);
      ConnectedClient(s.db, env, userId, req.tag, i, ref, req.instanceUrl, req.username, req.password);
    }
  }

  /** A connected row yields a client for its instance and user with the
      password its reference reads back. */
  lemma ConnectedClient(db: Db, env: Env, userId: nat, tag: string, i: int, ref: string,
                        instanceUrl: string, username: string, password: string)
    requires Valid(db) && instanceUrl != "" && username != ""
    requires ConnectedAt(db.integrations, i, userId, PROVIDER, tag, InstanceConfig(instanceUrl, username), ref, env.now)
    requires SecretStore.Get(env.backend, db, userId, ref) == Ok(password)
    ensures GetClient(db, env, userId, tag) == Ok((i, ServiceNowClient.NewClient(instanceUrl, username, password)))
  {
    ConfiguredAt(db, userId, PROVIDER, tag, NOT_CONFIGURED, i);
    GetClientAt(db, env, userId, tag, i, instanceUrl, username, password);
  }

  /** A configured row whose config names an instance and a user yields a
      client for them with the stored password. */
  lemma GetClientAt(db: Db, env: Env, userId: nat, tag: string, i: nat, instanceUrl: string, username: string, password: string)
    requires Configured(db, userId, PROVIDER, tag, NOT_CONFIGURED) == Ok(i)
    requires db.integrations[i].val.config == Parsed(InstanceConfig(instanceUrl, username))
    requires instanceUrl != "" && username != ""
    requires SecretOf(db, env, userId, i) == Ok(password)
    ensures GetClient(db, env, userId, tag) == Ok((i, ServiceNowClient.NewClient(instanceUrl, username, password)))
  {
    var cfg := InstanceConfig(instanceUrl, username);
    assert Get(cfg, "instance_url") == JStr(instanceUrl) && Get(cfg, "username") == JStr(username);
  }

  // ---------------------------------------------------------------------------
  // Listings

  /** `for r in rows: ... r.get(...)` over a listing: every row must be an
      object, and each contributes what `each` makes of its fields, in order.
      The first row that is not an object has no `get`. */
  function Collect<T>(rows: seq<Json>, each: map<string, Json> -> seq<T>): (r: Result<seq<T>>)
    ensures r.Ok? <==> forall k :: 0 <= k < |rows| ==> rows[k].JObject?
  {
    if |rows| == 0 then Ok([])
    else if !rows[0].JObject? then Err(Uncaught(NoGet(rows[0])))
    else
      var rest :- Collect(rows[1..], each);
      assert forall k :: 0 <= k < |rows| - 1 ==> rows[1..][k] == rows[k + 1];
      Ok(each(rows[0].fields) + rest)
  }

  /** A row in front of a listing adds its own part in front, or fails first. */
  lemma CollectCons<T>(x: Json, rest: seq<Json>, each: map<string, Json> -> seq<T>)
    ensures Collect([x] + rest, each) ==
              if !x.JObject? then Err(Uncaught(NoGet(x)))
              else if Collect(rest, each).Err? then Collect(rest, each)
              else Ok(each(x.fields) + Collect(rest, each).value)
  {
    var xs := [x] + rest;
    assert xs[0] == x && xs[1..] == rest;
  }

  /** Collecting over a concatenation collects over each part, and the first
      failing row decides the error. */
  lemma {:induction false} CollectAppend<T>(a: seq<Json>, b: seq<Json>, each: map<string, Json> -> seq<T>)
    ensures Collect(a + b, each) ==
              if Collect(a, each).Err? then Collect(a, each)
              else if Collect(b, each).Err? then Collect(b, each)
              else Ok(Collect(a, each).value + Collect(b, each).value)
  {
    if |a| == 0 {
      assert a + b == b;
      if Collect(b, each).Ok? {
        assert [] + Collect(b, each).value == Collect(b, each).value;
      }
    } else {
      var x, tail := a[0], a[1..];
      assert a == [x] + tail;
      assert a + b == [x] + (tail + b);
      CollectCons(x, tail, each);
      CollectCons(x, tail + b, each);
      CollectAppend(tail, b, each);
      if x.JObject? && Collect(tail, each).Ok? && Collect(b, each).Ok? {
        var h, u, v := each(x.fields), Collect(tail, each).value, Collect(b, each).value;
        assert h + (u + v) == (h + u) + v;
      }
    }
  }

  /** One row: an object contributes its part, anything else has no `get`. */
  lemma CollectSingle<T>(x: Json, each: map<string, Json> -> seq<T>)
    ensures Collect([x], each) == if x.JObject? then Ok(each(x.fields)) else Err(Uncaught(NoGet(x)))
  {
    CollectCons(x, [], each);
    assert [x] + [] == [x];
    if x.JObject? {
      assert each(x.fields) + [] == each(x.fields);
    }
  }

  // ---------------------------------------------------------------------------
  // Tables

  datatype Table = Table(name: string, tag: Json)

  predicate Named(row: Json) {
    HasTruthy(row, "name")
  }

  /** The tables of one row, when it is an object. */
  function TablesOfRow(x: map<string, Json>): seq<Table> {
    if Truthy(Get(x, "name")) then [Table(Str(x["name"]), Get(x, "label"))] else []
  }

  /** The tables of the listing: each object with a truthy `name`, as its
      name's text and its label; a row that is not an object fails. */
  function TablesOf(rows: seq<Json>): (r: Result<seq<Table>>)
    ensures r.Ok? <==> forall k :: 0 <= k < |rows| ==> rows[k].JObject?
  {
    Collect(rows, TablesOfRow)
  }

  /** A successful listing has one table per named row, in order, each
      carrying its row's name as text and its label. */
  lemma {:induction false} TablesOfNamed(rows: seq<Json>)
    requires TablesOf(rows).Ok?
    ensures var named := WithTruthy(rows, "name");
            && |TablesOf(rows).value| == |named|
            && forall k :: 0 <= k < |named| ==>
                 TablesOf(rows).value[k] == Table(Str(named[k].fields["name"]), Get(named[k].fields, "label"))
  {
    if |rows| > 0 {
      var x, tail := rows[0], rows[1..];
      TablesOfNamed(tail);
      var t, named := TablesOf(tail).value, WithTruthy(tail, "name");
      assert TablesOf(rows).value == TablesOfRow(x.fields) + t;
      if Named(x) {
        assert WithTruthy(rows, "name") == [x] + named;
      } else {
        assert TablesOfRow(x.fields) + t == t;
        assert WithTruthy(rows, "name") == named;
      }
    }
  }

  /** Listing tables is a fold over the rows: the listing of a
      concatenation is the listing of each part, and the first failing row
      decides the error. */
  lemma TablesOfAppend(a: seq<Json>, b: seq<Json>)
    ensures TablesOf(a + b) ==
              if TablesOf(a).Err? then TablesOf(a)
              else if TablesOf(b).Err? then TablesOf(b)
              else Ok(TablesOf(a).value + TablesOf(b).value)
  {
    CollectAppend(a, b, TablesOfRow);
  }

  /** One row: an object with a truthy name is one table, an object without
      one is skipped, and anything else has no `get`. */
  lemma TablesOfSingle(x: Json)
    ensures TablesOf([x]) ==
              if !x.JObject? then Err(Uncaught(NoGet(x)))
              else if Truthy(Get(x.fields, "name")) then Ok([Table(Str(x.fields["name"]), Get(x.fields, "label"))])
              else Ok([])
  {
    CollectSingle(x, TablesOfRow);
  }

  /** `for r in rows` over whatever the client returned. A list is listed row
      by row. An object's keys and a text's characters are visited as `str`
      values, so a non-empty one fails on the first with no `get`, and an
      empty one has nothing to visit. Null, numbers and booleans cannot be
      iterated. */
  function TablesOfResult(v: Json): (r: Result<seq<Table>>)
    ensures v.JList? ==> r == TablesOf(v.items)
    ensures (v.JObject? || v.JStr?) && !Truthy(v) ==> r == Ok([])
    ensures (v.JObject? || v.JStr?) && Truthy(v) ==> r == Err(Uncaught(NoGet(JStr(""))))
    ensures v.JNull? || v.JInt? || v.JBool? ==> r == Err(Uncaught(NotIterable(v)))
    ensures !v.JList? && Truthy(v) ==> r.Err?
  {
    match Iterated(v)
    case None => Err(Uncaught(NotIterable(v)))
    case Some(items) =>
      if !v.JList? && items != [] then
        IteratedTexts(v);
        FirstTextFails(items);
        TablesOf(items)
      else TablesOf(items)
  }

  /** Listing rows that start with a text fails on that text: a `str` has
      no `get`. */
  lemma FirstTextFails(items: seq<Json>)
    requires items != [] && items[0].JStr?
    ensures TablesOf(items) == Err(Uncaught(NoGet(JStr(""))))
  {
    var x, rest := items[0], items[1..];
    assert TypeName(x) == TypeName(JStr(""));
    assert items == [x] + rest;
    CollectCons(x, rest, TablesOfRow);
  }


  datatype TableList = TableList(tables: seq<Table>, returned: nat)

  /** `ServiceNowService.list_tables`. */
  function ListTables(db: Db, env: Env, userId: nat, limit: int, query: Option<string>, tag: string, api: Api): (s: Step<TableList>)
    ensures GetClient(db, env, userId, tag).Err? ==> s == Step(db, Err(GetClient(db, env, userId, tag).error))
    ensures GetClient(db, env, userId, tag).Ok? ==>
              var (i, client) := GetClient(db, env, userId, tag).value;
              var rows := ServiceNowClient.ListTables(client, api.fetch, limit, query);
              && s.db == RecordTestAt(db, i, if rows.Fault? then Some(rows.message) else None, env.now)
              && (rows.Fault? ==> s.out == Err(HttpError(BAD_REQUEST, API_FAILED + rows.message)))
              && (rows.Reply? ==> (s.out.Ok? <==> TablesOfResult(rows.body).Ok?))
              && (rows.Reply? && s.out.Err? ==> s.out == Err(TablesOfResult(rows.body).error))
              && (s.out.Ok? ==> s.out.value.tables == TablesOfResult(rows.body).value)
    ensures s.out.Ok? ==> s.out.value.returned == |s.out.value.tables|
    ensures Valid(db) ==> Valid(s.db)
  {
    match GetClient(db, env, userId, tag)
    case Err(e) => Step(db, Err(e))
    case Ok((i, client)) =>
      var step := Recorded(db, i, ServiceNowClient.ListTables(client, api.fetch, limit, query), API_FAILED, env.now);
      match step.out
      case Err(e) => Step(step.db, Err(e))
      case Ok(rows) =>
        match TablesOfResult(rows)
        case Err(e) => Step(step.db, Err(e))
        case Ok(tables) => Step(step.db, Ok(TableList(tables, |tables|)))
  }

  // ---------------------------------------------------------------------------
  // Fields

  datatype Field = Field(name: string, tag: Json, mandatory: bool, kind: Json, reference: Json, maxLength: Option<int>)

  /** Non-empty decimal digits parse as the number they spell. */
  lemma DigitsParse(s: string)
    requires IsDigits(s)
    ensures ParseInt(s) == Some(DigitsValue(s))
  {
    StripUnpadded(s);
  }

  /** `int(v) if str(v or "").isdigit() else None`: a length only when the
      value's text is all digits, and then the value as `int` reads it. */
  function MaxLength(v: Json): (r: Option<int>)
    ensures r.Some? <==> IsDigits(Str(Or(v, JStr(""))))
    ensures r.Some? ==> Int(v) == Ok(r.value) && r.value >= 0
  {
    match v
    case JInt(i) =>
      if i > 0 then Some(i)
      else
        assert Str(Or(v, JStr(""))) == "" || Str(Or(v, JStr("")))[0] == '-';
        None
    case JStr(s) =>
      if IsDigits(s) then
        DigitsParse(s);
        Some(DigitsValue(s))
      else None
    case JBool(b) =>
      assert Str(Or(v, JStr(""))) == "" || Str(Or(v, JStr("")))[0] == 'T';
      None
    case _ => None
  }

  /** The field a dictionary row describes, or None when its element name is
      blank. */
  function FieldOf(row: map<string, Json>): (r: Option<Field>)
    ensures r.None? <==> Strip(Str(GetOr(row, "element", JStr("")))) == ""
    ensures r.Some? ==> r.value.name == Strip(Str(GetOr(row, "element", JStr(""))))
    ensures r.Some? ==> r.value.tag == Or(Get(row, "column_label"), Get(row, "label"))
    ensures r.Some? ==> r.value.mandatory == Truthy(Get(row, "mandatory"))
    ensures r.Some? ==> r.value.kind == Get(row, "internal_type") && r.value.reference == Get(row, "reference")
    ensures r.Some? ==> r.value.maxLength == MaxLength(Get(row, "max_length"))
  {
    var name := Strip(Str(GetOr(row, "element", JStr(""))));
    if name == "" then None
    else Some(Field(name, Or(Get(row, "column_label"), Get(row, "label")), Truthy(Get(row, "mandatory")),
                    Get(row, "internal_type"), Get(row, "reference"), MaxLength(Get(row, "max_length"))))
  }

  /** The fields of one row, when it is an object. */
  function FieldsOfRow(x: map<string, Json>): seq<Field> {
    if FieldOf(x).Some? then [FieldOf(x).value] else []
  }

  /** The fields of the listing, in row order, skipping blank element names;
      a row that is not an object fails. */
  function Fields(rows: seq<Json>): (r: Result<seq<Field>>)
    ensures r.Ok? <==> forall k :: 0 <= k < |rows| ==> rows[k].JObject?
  {
    Collect(rows, FieldsOfRow)
  }

  /** A successful listing has at most one field per row, none with a blank
      name, and every row with a non-blank element gives its field. */
  lemma {:induction false} FieldsContents(rows: seq<Json>)
    requires Fields(rows).Ok?
    ensures |Fields(rows).value| <= |rows|
    ensures forall k :: 0 <= k < |Fields(rows).value| ==> Fields(rows).value[k].name != ""
    ensures forall k :: 0 <= k < |rows| && FieldOf(rows[k].fields).Some? ==> FieldOf(rows[k].fields).value in Fields(rows).value
  {
    if |rows| > 0 {
      FieldsContents(rows[1..]);
      assert forall k :: 0 <= k < |rows| - 1 ==> rows[1..][k] == rows[k + 1];
    }
  }

  /** Collecting fields is a fold over the rows: the fields of a
      concatenation are those of each part, and the first failing row decides
      the error. */
  lemma FieldsAppend(a: seq<Json>, b: seq<Json>)
    ensures Fields(a + b) ==
              if Fields(a).Err? then Fields(a)
              else if Fields(b).Err? then Fields(b)
              else Ok(Fields(a).value + Fields(b).value)
  {
    CollectAppend(a, b, FieldsOfRow);
  }

  /** One row: an object gives its field unless the element name is blank,
      and anything else has no `get`. */
  lemma FieldsSingle(x: Json)
    ensures Fields([x]) ==
              if !x.JObject? then Err(Uncaught(NoGet(x)))
              else if FieldOf(x.fields).Some? then Ok([FieldOf(x.fields).value])
              else Ok([])
  {
    CollectSingle(x, FieldsOfRow);
  }

  datatype FieldList = FieldList(table: string, fields: seq<Field>, returned: nat)

  /** The fields call once the table name is stripped and checked. */
  function FetchFields(db: Db, env: Env, userId: nat, table: string, tag: string, api: Api): (s: Step<FieldList>)
    ensures GetClient(db, env, userId, tag).Err? ==> s == Step(db, Err(GetClient(db, env, userId, tag).error))
    ensures GetClient(db, env, userId, tag).Ok? ==>
              var (i, client) := GetClient(db, env, userId, tag).value;
              var rows := api.listFields(client, table);
              && s.db == RecordTestAt(db, i, if rows.Fault? then Some(rows.message) else None, env.now)
              && (rows.Fault? ==> s.out == Err(HttpError(BAD_REQUEST, API_FAILED + rows.message)))
              && (rows.Reply? ==> (s.out.Ok? <==> Fields(rows.body).Ok?))
              && (s.out.Ok? ==> s.out.value.fields == Fields(rows.body).value)
    ensures s.out.Ok? ==> s.out.value.table == table && s.out.value.returned == |s.out.value.fields|
    ensures Valid(db) ==> Valid(s.db)
  {
    match GetClient(db, env, userId, tag)
    case Err(e) => Step(db, Err(e))
    case Ok((i, client)) =>
      var step := Recorded(db, i, api.listFields(client, table), API_FAILED, env.now);
      match step.out
      case Err(e) => Step(step.db, Err(e))
      case Ok(rows) =>
        match Fields(rows)
        case Err(e) => Step(step.db, Err(e))
        case Ok(fields) => Step(step.db, Ok(FieldList(table, fields, |fields|)))
  }

  /** `ServiceNowService.list_fields`: a blank table name is refused before
      anything is read or recorded. */
  function ListFields(db: Db, env: Env, userId: nat, table: string, tag: string, api: Api): (s: Step<FieldList>)
    ensures IsBlank(table) ==> s == Step(db, Err(HttpError(BAD_REQUEST, TABLE_REQUIRED)))
    ensures !IsBlank(table) ==> s == FetchFields(db, env, userId, Strip(table), tag, api)
  {
    var name := Strip(table);
    StripEmptyIffBlank(table);
    if name == "" then Step(db, Err(HttpError(BAD_REQUEST, TABLE_REQUIRED)))
    else FetchFields(db, env, userId, name, tag, api)
  }

  // ---------------------------------------------------------------------------
  // Records

  datatype Action = Created | Updated

  datatype RecordResult = RecordResult(table: string, sysId: string, action: Action, record: Json)

  /** A `sys_id` was given and is not empty: the record is updated. */
  predicate UpdatesRecord(req: RecordUpsert) {
    req.sysId.Some? && req.sysId.value != ""
  }

  function SysIdJson(sysId: Option<string>): Json {
    match sysId
    case Some(v) => JStr(v)
    case None => JNull
  }

  /** The response for the raw reply: `result` is the reply's "result" when
      the reply is an object; the id is the result's own `sys_id`, else the
      requested one, else "" — and "" whenever the result is not an object;
      the record is the first truthy of result, reply and {}. */
  function RecordOf(table: string, req: RecordUpsert, action: Action, raw: Json): (r: RecordResult)
    ensures r.table == table && r.action == action
    ensures var result := if raw.JObject? then Get(raw.fields, "result") else JNull;
            && (!result.JObject? ==> r.sysId == "")
            && (result.JObject? && "sys_id" in result.fields && result.fields["sys_id"].JStr? && result.fields["sys_id"].s != "" ==>
                  r.sysId == result.fields["sys_id"].s)
            && (result.JObject? && Truthy(Get(result.fields, "sys_id")) ==> r.sysId == Str(result.fields["sys_id"]))
            && (result.JObject? && !Truthy(Get(result.fields, "sys_id")) && UpdatesRecord(req) ==> r.sysId == req.sysId.value)
            && (result.JObject? && !Truthy(Get(result.fields, "sys_id")) && !UpdatesRecord(req) ==> r.sysId == "")
            && (Truthy(result) ==> r.record == result)
            && (!Truthy(result) && Truthy(raw) ==> r.record == raw)
            && (!Truthy(result) && !Truthy(raw) ==> r.record == JObject(map[]))
  {
    var result := if raw.JObject? then Get(raw.fields, "result") else JNull;
    var sysId := if result.JObject? then Str(Or(Get(result.fields, "sys_id"), Or(SysIdJson(req.sysId), JStr("")))) else "";
    RecordResult(table, sysId, action, Or(result, Or(raw, JObject(map[]))))
  }

  /** The create-or-update call once the table name and data are checked. */
  function Write(db: Db, env: Env, userId: nat, table: string, req: RecordUpsert, api: Api): (s: Step<RecordResult>)
    ensures GetClient(db, env, userId, req.tag).Err? ==> s == Step(db, Err(GetClient(db, env, userId, req.tag).error))
    ensures GetClient(db, env, userId, req.tag).Ok? ==>
              var (i, client) := GetClient(db, env, userId, req.tag).value;
              var raw := if UpdatesRecord(req) then api.updateRecord(client, table, req.sysId.value, req.data)
                         else api.createRecord(client, table, req.data);
              && s.db == RecordTestAt(db, i, if raw.Fault? then Some(raw.message) else None, env.now)
              && (raw.Fault? ==> s.out == Err(HttpError(BAD_REQUEST, API_FAILED + raw.message)))
              && (raw.Reply? ==> s.out.Ok? && s.out.value == RecordOf(table, req, s.out.value.action, raw.body))
    ensures s.out.Ok? ==> (s.out.value.action == Updated <==> UpdatesRecord(req))
    ensures Valid(db) ==> Valid(s.db)
  {
    match GetClient(db, env, userId, req.tag)
    case Err(e) => Step(db, Err(e))
    case Ok((i, client)) =>
      var action := if UpdatesRecord(req) then Updated else Created;
      var raw := if UpdatesRecord(req) then api.updateRecord(client, table, req.sysId.value, req.data)
                 else api.createRecord(client, table, req.data);
      var step := Recorded(db, i, raw, API_FAILED, env.now);
      match step.out
      case Err(e) => Step(step.db, Err(e))
      case Ok(body) => Step(step.db, Ok(RecordOf(table, req, action, body)))
  }

  /** `ServiceNowService.upsert_record`: a blank table name, then empty data,
      are refused before anything is read or recorded. */
  function UpsertRecord(db: Db, env: Env, userId: nat, req: RecordUpsert, api: Api): (s: Step<RecordResult>)
    ensures IsBlank(req.table) ==> s == Step(db, Err(HttpError(BAD_REQUEST, TABLE_REQUIRED)))
    ensures !IsBlank(req.table) && req.data == map[] ==> s == Step(db, Err(HttpError(BAD_REQUEST, DATA_REQUIRED)))
    ensures !IsBlank(req.table) && req.data != map[] ==> s == Write(db, env, userId, Strip(req.table), req, api)
  {
    var name := Strip(req.table);
    StripEmptyIffBlank(req.table);
    if name == "" then Step(db, Err(HttpError(BAD_REQUEST, TABLE_REQUIRED)))
    else if req.data == map[] then Step(db, Err(HttpError(BAD_REQUEST, DATA_REQUIRED)))
    else Write(db, env, userId, name, req, api)
  }
}

=== FILE: sqlite_store.dfy ===
/** The local secret store: secrets encrypted into the `secrets` table, one
    row per (user, name), referenced as "sqlite:<row id>". */
module SqliteStore {
  import opened Results
  import opened Text
  import opened Tables
  import opened Crypto
  import opened Models

  const REF_PREFIX := "sqlite:"

  /** `f"sqlite:{row.id}"`. */
  function Ref(id: nat): string {
    REF_PREFIX + NatToString(id)
  }

  datatype Stored = Stored(secrets: Table<Secret>, ref: string)

  function SameKey(userId: nat, name: string): Secret -> bool {
    (s: Secret) => s.userId == userId && s.name == name
  }

  /** Row `i` holds `value` for (user, name) and `ref` points at it. */
  ghost predicate HoldsAt(t: Table<Secret>, i: int, userId: nat, name: string, value: string, ref: string) {
    && 0 <= i < |t|
    && t[i].val.userId == userId && t[i].val.name == name
    && Decrypt(t[i].val.ciphertext) == value
    && ref == Ref(t[i].id)
  }

  /** `SQLiteSecretStore.put`: overwrite the (user, name) row, or add one. */
  function Put(t: Table<Secret>, userId: nat, name: string, value: string, now: Timestamp): (r: Stored)
    ensures exists i :: HoldsAt(r.secrets, i, userId, name, value, r.ref)
    ensures HasKey(t, SecretKey, (userId, name)) ==>
              |r.secrets| == |t| && exists i :: 0 <= i < |t| && SecretKey(t[i].val) == (userId, name) && r.ref == Ref(t[i].id)
    ensures !HasKey(t, SecretKey, (userId, name)) ==>
              |r.secrets| == |t| + 1 && r.secrets[..|t|] == t && r.ref == Ref(NextId(t))
    ensures forall j :: 0 <= j < |t| && SecretKey(t[j].val) != (userId, name) ==> j < |r.secrets| && r.secrets[j] == t[j]
    ensures Unique(t, SecretKey) ==> Unique(r.secrets, SecretKey)
  {
    var ciphertext := Encrypt(value);
    match Find(t, SameKey(userId, name))
    case Some(i) =>
      var row := t[i].val.(ciphertext := ciphertext, updatedAt := now);
      UpdateUnique(t, i, row, SecretKey);
      var t' := Update(t, i, row);
      assert HoldsAt(t', i, userId, name, value, Ref(t[i].id));
      Stored(t', Ref(t[i].id))
    case None =>
      var row := Secret(userId, name, ciphertext, now, now);
      InsertUnique(t, row, SecretKey);
      var t' := Insert(t, row);
      assert HoldsAt(t', |t|, userId, name, value, Ref(NextId(t)));
      Stored(t', Ref(NextId(t)))
  }

  /** `SQLiteSecretStore.get`: the decrypted secret whose id the reference
      names, provided it belongs to the requesting user. */
  function Get(t: Table<Secret>, userId: nat, ref: string): (r: Result<string>)
    ensures !StartsWith(ref, REF_PREFIX) ==> r == Err(Uncaught("Invalid sqlite secret ref"))
    ensures r.Ok? ==> exists i :: 0 <= i < |t| && t[i].val.userId == userId
                        && ParseInt(ref[|REF_PREFIX|..]) == Some(t[i].id) && r.value == Decrypt(t[i].val.ciphertext)
    ensures StartsWith(ref, REF_PREFIX) && ParseInt(ref[|REF_PREFIX|..]).None? ==>
              r == Err(Uncaught("invalid literal for int() with base 10"))
    ensures forall i :: (0 <= i < |t| && StartsWith(ref, REF_PREFIX) && ParseInt(ref[|REF_PREFIX|..]) == Some(t[i].id)
                         && t[i].val.userId == userId) ==> r == Ok(Decrypt(t[i].val.ciphertext))
    ensures StartsWith(ref, REF_PREFIX) && ParseInt(ref[|REF_PREFIX|..]).Some?
            && (forall i :: 0 <= i < |t| && Some(t[i].id) == ParseInt(ref[|REF_PREFIX|..]) ==> t[i].val.userId != userId) ==>
              r == Err(Uncaught("Secret not found"))
  {
    if !StartsWith(ref, REF_PREFIX) then Err(Uncaught("Invalid sqlite secret ref"))
    else
      assert ref[6] == ':';
      AfterPrefix(REF_PREFIX, ref[|REF_PREFIX|..], ':');
      assert ref == REF_PREFIX + ref[|REF_PREFIX|..];
      match ParseInt(AfterFirst(ref, ':'))
      case None => Err(Uncaught("invalid literal for int() with base 10"))
      case Some(sid) =>
        match FindId(t, sid)
        case Some(i) =>
          if t[i].val.userId == userId then Ok(Decrypt(t[i].val.ciphertext))
          else Err(Uncaught("Secret not found"))
        case None => Err(Uncaught("Secret not found"))
  }

  /** The reference of a row reads back as that row's id. */
  lemma RefId(id: nat)
    ensures StartsWith(Ref(id), REF_PREFIX)
    ensures ':' in Ref(id) && ParseInt(AfterFirst(Ref(id), ':')) == Some(id)
    ensures ParseInt(Ref(id)[|REF_PREFIX|..]) == Some(id)
  {
    var s := Ref(id);
    assert s[..|REF_PREFIX|] == REF_PREFIX;
    AfterPrefix(REF_PREFIX, NatToString(id), ':');
    assert s[|REF_PREFIX|..] == NatToString(id);
    ParseIntToString(id);
    assert IntToString(id) == NatToString(id);
  }

  /** Reading back what the same user stored returns the stored value. */
  lemma GetPut(t: Table<Secret>, userId: nat, name: string, value: string, now: Timestamp)
    ensures Get(Put(t, userId, name, value, now).secrets, userId, Put(t, userId, name, value, now).ref) == Ok(value)
  {
    var r := Put(t, userId, name, value, now);
    var i :| HoldsAt(r.secrets, i, userId, name, value, r.ref);
    RefId(r.secrets[i].id);
    FindIdAt(r.secrets, i);
  }

  /** A reference to another user's secret fails as if the secret did not exist. */
  lemma GetOtherUser(t: Table<Secret>, userId: nat, i: nat)
    requires i < |t| && t[i].val.userId != userId
    ensures Get(t, userId, Ref(t[i].id)) == Err(Uncaught("Secret not found"))
  {
    RefId(t[i].id);
    FindIdAt(t, i);
  }

  /** Storing under the same (user, name) again reuses the row: same reference,
      no new row. */
  lemma PutTwice(t: Table<Secret>, userId: nat, name: string, v1: string, v2: string, now1: Timestamp, now2: Timestamp)
    ensures var first := Put(t, userId, name, v1, now1);
            var second := Put(first.secrets, userId, name, v2, now2);
            second.ref == first.ref && |second.secrets| == |first.secrets|
  {
    var p := SameKey(userId, name);
    var first := Put(t, userId, name, v1, now1);
    var t1 := first.secrets;
    match Find(t, p)
    case Some(i) =>
      assert forall j :: 0 <= j < i ==> t1[j] == t[j];
      assert Find(t1, p) == Some(i);
    case None =>
      assert forall j :: 0 <= j < |t| ==> t1[j] == t[j];
      assert Find(t1, p) == Some(|t|);
  }
}

=== FILE: tables.dfy ===
/** A SQL table with an integer primary key, as the services use it: rows kept
    in ascending id order, each new row taking one more than the largest id
    (SQLite's rowid rule for an `Integer` primary key). */
module Tables {
  import opened Results

  datatype Row<T> = Row(id: nat, val: T)

  predicate Ascending<T>(rows: seq<Row<T>>) {
    forall i, j :: 0 <= i < j < |rows| ==> rows[i].id < rows[j].id
  }

  predicate Descending<T>(rows: seq<Row<T>>) {
    forall i, j :: 0 <= i < j < |rows| ==> rows[i].id > rows[j].id
  }

  type Table<T> = t: seq<Row<T>> | Ascending(t) witness []

  /** No two rows agree on `key`: a SQL unique constraint. */
  ghost predicate Unique<T, K>(t: seq<Row<T>>, key: T -> K) {
    forall i, j :: 0 <= i < |t| && 0 <= j < |t| && i != j ==> key(t[i].val) != key(t[j].val)
  }

  ghost predicate HasKey<T, K>(t: seq<Row<T>>, key: T -> K, k: K) {
    exists i :: 0 <= i < |t| && key(t[i].val) == k
  }

  /** The id the next inserted row receives. */
  function NextId<T>(t: Table<T>): (id: nat)
    ensures id >= 1
    ensures forall i :: 0 <= i < |t| ==> t[i].id < id
  {
    if |t| == 0 then 1 else t[|t| - 1].id + 1
  }

  /** The lookup by primary key finds the row that has it. */
  lemma FindIdAt<T>(t: Table<T>, i: nat)
    requires i < |t|
    ensures FindId(t, t[i].id) == Some(i)
  {
    assert forall j :: 0 <= j < |t| && j != i ==> t[j].id != t[i].id;
  }

  /** `db.add(row)`: the new row gets a fresh id and goes last. */
  function Insert<T>(t: Table<T>, v: T): (r: Table<T>)
    ensures |r| == |t| + 1 && r[..|t|] == t
    ensures r[|t|] == Row(NextId(t), v)
  {
    t + [Row(NextId(t), v)]
  }

  /** The first row satisfying `p`, as `query(...).filter(p).first()` finds it. */
  function Find<T>(t: Table<T>, p: T -> bool): (r: Option<nat>)
    ensures r.Some? ==> r.value < |t| && p(t[r.value].val)
    ensures r.Some? ==> forall j :: 0 <= j < r.value ==> !p(t[j].val)
    ensures r.None? ==> forall j :: 0 <= j < |t| ==> !p(t[j].val)
  {
    FindFrom(t, p, 0)
  }

  function FindFrom<T>(t: Table<T>, p: T -> bool, start: nat): (r: Option<nat>)
    requires start <= |t|
    requires forall j :: 0 <= j < start ==> !p(t[j].val)
    ensures r.Some? ==> r.value < |t| && p(t[r.value].val)
    ensures r.Some? ==> forall j :: 0 <= j < r.value ==> !p(t[j].val)
    ensures r.None? ==> forall j :: 0 <= j < |t| ==> !p(t[j].val)
    decreases |t| - start
  {
    if start == |t| then None
    else if p(t[start].val) then Some(start)
    else FindFrom(t, p, start + 1)
  }

  /** The position of the row with primary key `id`. */
  function FindId<T>(t: Table<T>, id: int): (r: Option<nat>)
    ensures r.Some? ==> r.value < |t| && t[r.value].id == id
    ensures r.None? ==> forall j :: 0 <= j < |t| ==> t[j].id != id
  {
    FindIdFrom(t, id, 0)
  }

  function FindIdFrom<T>(t: Table<T>, id: int, start: nat): (r: Option<nat>)
    requires start <= |t|
    requires forall j :: 0 <= j < start ==> t[j].id != id
    ensures r.Some? ==> r.value < |t| && t[r.value].id == id
    ensures r.None? ==> forall j :: 0 <= j < |t| ==> t[j].id != id
    decreases |t| - start
  {
    if start == |t| then None
    else if t[start].id == id then Some(start)
    else FindIdFrom(t, id, start + 1)
  }

  /** Writing new column values into row `i`; the id stays. */
  function Update<T>(t: Table<T>, i: nat, v: T): (r: Table<T>)
    requires i < |t|
    ensures |r| == |t| && r[i] == Row(t[i].id, v)
    ensures forall j :: 0 <= j < |t| && j != i ==> r[j] == t[j]
  {
    t[i := Row(t[i].id, v)]
  }

  /** `db.delete(row)` for the row at position `i`. */
  function Remove<T>(t: Table<T>, i: nat): (r: Table<T>)
    requires i < |t|
    ensures |r| == |t| - 1
    ensures forall j :: 0 <= j < i ==> r[j] == t[j]
    ensures forall j :: i <= j < |r| ==> r[j] == t[j + 1]
  {
    t[..i] + t[i + 1..]
  }

  /** The rows satisfying `p`, in table order. */
  function Select<T>(t: Table<T>, p: T -> bool): (r: Table<T>)
    ensures forall i :: 0 <= i < |r| ==> r[i] in t && p(r[i].val)
    ensures forall i :: 0 <= i < |t| && p(t[i].val) ==> t[i] in r
    ensures |r| <= |t|
    decreases |t|
  {
    if |t| == 0 then []
    else
      var init := t[..|t| - 1];
      var rest := Select(init, p);
      var last := t[|t| - 1];
      assert forall i :: 0 <= i < |t| - 1 ==> t[i] == init[i];
      if p(last.val) then rest + [last] else rest
  }

  /** The rows in reverse order. */
  function Reverse<T>(s: seq<Row<T>>): (r: seq<Row<T>>)
    ensures |r| == |s|
    ensures forall i :: 0 <= i < |s| ==> r[i] == s[|s| - 1 - i]
  {
    seq(|s|, i requires 0 <= i < |s| => s[|s| - 1 - i])
  }

  /** Reading a table newest id first gives strictly descending ids. */
  lemma ReverseDescending<T>(t: Table<T>)
    ensures Descending(Reverse(t))
    ensures forall i :: 0 <= i < |t| ==> t[i] in Reverse(t)
    ensures forall i :: 0 <= i < |t| ==> Reverse(t)[i] in t
  {
    var r := Reverse(t);
    forall i | 0 <= i < |t| ensures t[i] in r {
      assert r[|t| - 1 - i] == t[i];
    }
  }

  /** Inserting a row whose key is new keeps the key unique. */
  lemma InsertUnique<T, K>(t: Table<T>, v: T, key: T -> K)
    ensures Unique(t, key) && !HasKey(t, key, key(v)) ==> Unique(Insert(t, v), key)
  {
    if !Unique(t, key) || HasKey(t, key, key(v)) {
      return;
    }
    var r := Insert(t, v);
    forall i, j | 0 <= i < |r| && 0 <= j < |r| && i != j
      ensures key(r[i].val) != key(r[j].val)
    {
      if i < |t| && j < |t| {
        assert r[i] == t[i] && r[j] == t[j];
      } else if i < |t| {
        assert r[i] == t[i];
      } else {
        assert r[j] == t[j];
      }
    }
  }

  /** Rewriting a row without changing its key keeps the key unique. */
  lemma UpdateUnique<T, K>(t: Table<T>, i: nat, v: T, key: T -> K)
    requires i < |t|
    requires key(v) == key(t[i].val)
    ensures Unique(t, key) ==> Unique(Update(t, i, v), key)
  {
  }

  /** Removing a row keeps every key unique. */
  lemma RemoveUnique<T, K>(t: Table<T>, i: nat, key: T -> K)
    requires i < |t|
    ensures Unique(t, key) ==> Unique(Remove(t, i), key)
  {
    if !Unique(t, key) {
      return;
    }
    var r := Remove(t, i);
    forall a, b | 0 <= a < |r| && 0 <= b < |r| && a != b
      ensures key(r[a].val) != key(r[b].val)
    {
      var a' := if a < i then a else a + 1;
      var b' := if b < i then b else b + 1;
      assert r[a] == t[a'] && r[b] == t[b'];
    }
  }
}

=== FILE: text.dfy ===
/** Python string operations used across the services, on `string` (a sequence of
    Unicode scalar values, like a Python `str`). */
module Text {
  import opened Results

  /** Python's `str.isspace()` for one character. */
  predicate IsSpace(c: char) {
    || c == ' '
    || ('\t' <= c <= '\r')
    || ('\U{1C}' <= c <= '\U{1F}')
    || c == '\U{85}' || c == '\U{A0}' || c == '\U{1680}'
    || ('\U{2000}' <= c <= '\U{200A}')
    || c == '\U{2028}' || c == '\U{2029}' || c == '\U{202F}' || c == '\U{205F}' || c == '\U{3000}'
  }

  predicate IsDigit(c: char) {
    '0' <= c <= '9'
  }

  /** Python's `s.isdigit()`, restricted to ASCII digits: false for the empty string. */
  predicate IsDigits(s: string) {
    |s| > 0 && forall i :: 0 <= i < |s| ==> IsDigit(s[i])
  }

  predicate StartsWith(s: string, prefix: string) {
    |prefix| <= |s| && s[..|prefix|] == prefix
  }

  /** `sub` occurs in `s` starting at index `i`. */
  predicate OccursAt(s: string, sub: string, i: int) {
    0 <= i && i + |sub| <= |s| && s[i..i + |sub|] == sub
  }

  /** Python's `sub in s`. */
  predicate Contains(s: string, sub: string) {
    exists i | 0 <= i <= |s| - |sub| :: OccursAt(s, sub, i)
  }

  /** Python's `s[:n]`. */
  function Take(s: string, n: nat): (r: string)
    ensures |r| == if |s| <= n then |s| else n
    ensures r == s[..|r|]
  {
    if |s| <= n then s else s[..n]
  }

  /** `s.lstrip(chars)`, where `drop` says which characters are in `chars`. */
  function TrimStart(s: string, drop: char -> bool): (r: string)
    ensures |r| <= |s| && r == s[|s| - |r|..]
    ensures forall i :: 0 <= i < |s| - |r| ==> drop(s[i])
    ensures r == [] || !drop(r[0])
    decreases |s|
  {
    if |s| > 0 && drop(s[0]) then TrimStart(s[1..], drop) else s
  }

  /** `s.rstrip(chars)`, where `drop` says which characters are in `chars`. */
  function TrimEnd(s: string, drop: char -> bool): (r: string)
    ensures |r| <= |s| && r == s[..|r|]
    ensures forall i :: |r| <= i < |s| ==> drop(s[i])
    ensures r == [] || !drop(r[|r| - 1])
    decreases |s|
  {
    if |s| > 0 && drop(s[|s| - 1]) then TrimEnd(s[..|s| - 1], drop) else s
  }

  /** `s.strip(chars)`: the two one-sided trims in turn. */
  function Trim(s: string, drop: char -> bool): string {
    TrimEnd(TrimStart(s, drop), drop)
  }

  /** `s.lstrip()`. */
  function StripStart(s: string): string
    decreases |s|
  {
    if |s| > 0 && IsSpace(s[0]) then StripStart(s[1..]) else s
  }

  /** `s.rstrip()`. */
  function StripEnd(s: string): string
    decreases |s|
  {
    if |s| > 0 && IsSpace(s[|s| - 1]) then StripEnd(s[..|s| - 1]) else s
  }

  /** Python's `s.strip()`. Its properties are the lemmas below. */
  function Strip(s: string): string {
    StripEnd(StripStart(s))
  }

  /** What `lstrip` removes is whitespace, and what it keeps starts with a
      non-space. */
  lemma {:induction false} StripStartSpaces(s: string)
    ensures var r := StripStart(s);
            && |r| <= |s| && r == s[|s| - |r|..]
            && (forall i :: 0 <= i < |s| - |r| ==> IsSpace(s[i]))
            && (r == [] || !IsSpace(r[0]))
    decreases |s|
  {
    if |s| > 0 && IsSpace(s[0]) {
      StripStartSpaces(s[1..]);
    }
  }

  /** What `rstrip` removes is whitespace, and what it keeps ends with a
      non-space. */
  lemma {:induction false} StripEndSpaces(s: string)
    ensures var r := StripEnd(s);
            && |r| <= |s| && r == s[..|r|]
            && (forall i :: |r| <= i < |s| ==> IsSpace(s[i]))
            && (r == [] || !IsSpace(r[|r| - 1]))
    decreases |s|
  {
    if |s| > 0 && IsSpace(s[|s| - 1]) {
      StripEndSpaces(s[..|s| - 1]);
    }
  }

  /** `strip()` keeps the slice `s[k..k + |r|]` and cuts only whitespace
      around it. */
  lemma StripSlice(s: string) returns (k: nat)
    ensures var r := Strip(s);
            && k + |r| <= |s| && r == s[k..k + |r|]
            && (forall i :: 0 <= i < k ==> IsSpace(s[i]))
            && (forall i :: k + |r| <= i < |s| ==> IsSpace(s[i]))
  {
    StripStartSpaces(s);
    k := |s| - |StripStart(s)|;
    StripKeeps(s);
    StripTrailing(s);
  }

  /** The kept text is a slice of the input, starting where `lstrip` stopped. */
  lemma StripKeeps(s: string)
    ensures var t := StripStart(s);
            var r := Strip(s);
            && |t| <= |s| && |s| - |t| + |r| <= |s|
            && r == s[|s| - |t|..|s| - |t| + |r|]
  {
    var t := StripStart(s);
    var r := StripEnd(t);
    StripStartSpaces(s);
    StripEndSpaces(t);
    var k := |s| - |t|;
    assert t == s[k..];
    assert r == t[..|r|];
  }

  /** Everything after the kept text is whitespace. */
  lemma StripTrailing(s: string)
    ensures var t := StripStart(s);
            var r := Strip(s);
            && |t| <= |s|
            && forall i :: |s| - |t| + |r| <= i < |s| ==> IsSpace(s[i])
  {
    var t := StripStart(s);
    var r := StripEnd(t);
    StripStartSpaces(s);
    StripEndSpaces(t);
    var k := |s| - |t|;
    forall i | k + |r| <= i < |s| ensures IsSpace(s[i]) {
      assert s[i] == t[i - k];
    }
  }

  /** What `strip()` keeps begins and ends with a non-space. */
  lemma StripEnds(s: string)
    ensures var r := Strip(s);
            r == [] || (!IsSpace(r[0]) && !IsSpace(r[|r| - 1]))
  {
    var t := StripStart(s);
    var r := StripEnd(t);
    StripStartSpaces(s);
    StripEndSpaces(t);
    if r != [] {
      assert r[0] == t[0];
    }
  }

  /** Text with non-space characters at both ends is its own strip. */
  lemma StripUnpadded(s: string)
    requires |s| > 0 && !IsSpace(s[0]) && !IsSpace(s[|s| - 1])
    ensures Strip(s) == s
  {
    assert StripStart(s) == s;
    assert StripEnd(s) == s;
  }

  /** Stripping twice is stripping once. */
  lemma StripIdempotent(s: string)
    ensures Strip(Strip(s)) == Strip(s)
  {
    var r := Strip(s);
    StripEnds(s);
    if r != [] {
      StripUnpadded(r);
    }
  }

  /** Stripping adds no character. */
  lemma StripWithin(s: string, c: char)
    requires c !in s
    ensures c !in Strip(s)
  {
    var k := StripSlice(s);
  }

  /** A non-empty stripped string begins and ends with a non-space. */
  lemma StrippedEnds(s: string)
    requires s != "" && Strip(s) == s
    ensures !IsSpace(s[0]) && !IsSpace(s[|s| - 1])
  {
    StripEnds(s);
  }

  predicate IsBlank(s: string) {
    forall i :: 0 <= i < |s| ==> IsSpace(s[i])
  }

  /** Stripping yields the empty string exactly for all-whitespace input. */
  lemma StripEmptyIffBlank(s: string)
    ensures Strip(s) == [] <==> IsBlank(s)
  {
    var r := Strip(s);
    var k := StripSlice(s);
    StripEnds(s);
    if r != [] {
      assert s[k] == r[0];
    }
  }

  /** ASCII part of Python's `str.lower()`. */
  function LowerChar(c: char): char {
    if 'A' <= c <= 'Z' then (c as int + 32) as char else c
  }

  function Lower(s: string): (r: string)
    ensures |r| == |s|
    ensures forall i :: 0 <= i < |s| ==> r[i] == LowerChar(s[i])
  {
    seq(|s|, i requires 0 <= i < |s| => LowerChar(s[i]))
  }

  // ---------------------------------------------------------------------------
  // Splitting

  /** Index of the first occurrence of `c` in `s`. */
  function IndexOf(s: string, c: char): (r: nat)
    requires c in s
    ensures r < |s| && s[r] == c && c !in s[..r]
  {
    if s[0] == c then 0
    else
      var k := IndexOf(s[1..], c);
      assert s[1..][..k] == s[1..k + 1];
      k + 1
  }

  /** An occurrence with no earlier occurrence is the one `IndexOf` finds. */
  lemma IndexOfFirst(s: string, c: char, k: nat)
    requires k < |s| && s[k] == c && c !in s[..k]
    ensures IndexOf(s, c) == k
  {
    var r := IndexOf(s, c);
  }

  /** `sep.join(parts)`. */
  function Join(parts: seq<string>, sep: char): string
    requires |parts| >= 1
  {
    if |parts| == 1 then parts[0] else parts[0] + [sep] + Join(parts[1..], sep)
  }

  /** Python's `s.split(sep)` for a one-character separator. */
  function Split(s: string, sep: char): (parts: seq<string>)
    ensures |parts| >= 1
    ensures forall i :: 0 <= i < |parts| ==> sep !in parts[i]
    ensures Join(parts, sep) == s
    decreases |s|
  {
    if sep !in s then [s]
    else
      var k := IndexOf(s, sep);
      var rest := Split(s[k + 1..], sep);
      assert s == s[..k] + [sep] + s[k + 1..];
      [s[..k]] + rest
  }

  /** Splitting a joined sequence of separator-free parts gives the parts back. */
  lemma {:induction false} SplitJoin(parts: seq<string>, sep: char)
    requires |parts| >= 1
    requires forall i :: 0 <= i < |parts| ==> sep !in parts[i]
    ensures Split(Join(parts, sep), sep) == parts
    decreases |parts|
  {
    var s := Join(parts, sep);
    if |parts| == 1 {
    } else {
      var tail := Join(parts[1..], sep);
      assert s == parts[0] + [sep] + tail;
      assert s[|parts[0]|] == sep;
      assert s[..|parts[0]|] == parts[0];
      IndexOfFirst(s, sep, |parts[0]|);
      assert s[|parts[0]| + 1..] == tail;
      SplitJoin(parts[1..], sep);
    }
  }

  /** Python's `s.split(c, 1)[1]`: the text after the first `c`. */
  function AfterFirst(s: string, c: char): (r: string)
    requires c in s
    ensures |r| < |s| && r == s[|s| - |r|..]
    ensures s[|s| - |r| - 1] == c && c !in s[..|s| - |r| - 1]
  {
    s[IndexOf(s, c) + 1..]
  }

  /** When `prefix` ends with its only `c`, the text after the first `c` of
      `prefix + rest` is `rest`, whatever `rest` contains. */
  lemma AfterPrefix(prefix: string, rest: string, c: char)
    requires |prefix| > 0 && prefix[|prefix| - 1] == c && c !in prefix[..|prefix| - 1]
    ensures c in prefix + rest
    ensures AfterFirst(prefix + rest, c) == rest
  {
    var s := prefix + rest;
    assert s[..|prefix| - 1] == prefix[..|prefix| - 1];
    IndexOfFirst(s, c, |prefix| - 1);
    assert s[|prefix|..] == rest;
  }

  // ---------------------------------------------------------------------------
  // Decimal integers

  function DigitChar(d: nat): (c: char)
    requires d < 10
    ensures IsDigit(c)
  {
    ('0' as int + d) as char
  }

  function DigitValue(c: char): nat
    requires IsDigit(c)
  {
    c as int - '0' as int
  }

  /** Python's `str(n)` for a natural number. */
  function NatToString(n: nat): (r: string)
    ensures IsDigits(r)
    decreases n
  {
    if n < 10 then [DigitChar(n)] else NatToString(n / 10) + [DigitChar(n % 10)]
  }

  /** Python's `str(n)` for an integer. */
  function IntToString(n: int): string {
    if n < 0 then "-" + NatToString(-n) else NatToString(n)
  }

  /** The value of a string of ASCII digits. */
  function DigitsValue(s: string): nat
    requires forall i :: 0 <= i < |s| ==> IsDigit(s[i])
  {
    if |s| == 0 then 0 else DigitsValue(s[..|s| - 1]) * 10 + DigitValue(s[|s| - 1])
  }

  /** Python's `int(s)`: surrounding whitespace, an optional sign, ASCII digits. */
  function ParseInt(s: string): Option<int> {
    var t := Strip(s);
    var signed := |t| > 0 && (t[0] == '-' || t[0] == '+');
    var digits := if signed then t[1..] else t;
    if !IsDigits(digits) then None
    else
      var v: int := DigitsValue(digits);
      if signed && t[0] == '-' then Some(-v) else Some(v)
  }

  lemma {:induction false} DigitsValueOfNat(n: nat)
    ensures DigitsValue(NatToString(n)) == n
    decreases n
  {
    if n >= 10 {
      var p := NatToString(n / 10);
      var s := p + [DigitChar(n % 10)];
      assert s[..|s| - 1] == p;
      DigitsValueOfNat(n / 10);
    }
  }

  /** `int(str(n)) == n`. */
  lemma ParseIntToString(n: int)
    ensures ParseInt(IntToString(n)) == Some(n)
  {
    var d := NatToString(if n < 0 then -n else n);
    DigitsValueOfNat(if n < 0 then -n else n);
    if n < 0 {
      var s := "-" + d;
      assert s[|s| - 1] == d[|d| - 1];
      StripUnpadded(s);
      assert s[1..] == d;
    } else {
      StripUnpadded(d);
    }
  }
}

=== FILE: user_settings_service.dfy ===
/** Per-user display settings: a theme and a notifications switch, created
    with their defaults the first time they are read or written. */
module UserSettingsService {
  import opened Results
  import opened Text
  import opened Tables
  import opened Models
  import opened Requests

  const THEME_LIMIT := 30

  datatype Settings = Settings(theme: string, notifications: bool)

  /** The settings shown for a row: an empty theme shows as "dark". */
  function View(row: UserSetting): (v: Settings)
    ensures v.theme != ""
    ensures row.theme != "" ==> v.theme == row.theme
    ensures v.notifications == row.notifications
  {
    Settings(if row.theme == "" then DEFAULT_THEME else row.theme, row.notifications)
  }

  function OwnedBy(userId: nat): UserSetting -> bool {
    (s: UserSetting) => s.userId == userId
  }

  /** The caller's settings row, created with the defaults when missing.
      Returns the row's position. */
  function Ensure(db: Db, userId: nat, now: Timestamp): (r: (Db, nat))
    ensures r.1 < |r.0.settings| && r.0.settings[r.1].val.userId == userId
    ensures HasKey(db.settings, SettingKey, userId) ==> r.0 == db
    ensures !HasKey(db.settings, SettingKey, userId) ==>
              r.0 == db.(settings := Insert(db.settings, NewSetting(userId, now))) && r.1 == |db.settings|
    ensures Valid(db) ==> Valid(r.0)
  {
    match Find(db.settings, OwnedBy(userId))
    case Some(i) => (db, i)
    case None =>
      InsertUnique(db.settings, NewSetting(userId, now), SettingKey);
      (db.(settings := Insert(db.settings, NewSetting(userId, now))), |db.settings|)
  }

  /** `UserSettingsService.get`. */
  function Get(db: Db, userId: nat, now: Timestamp): (s: Step<Settings>)
    ensures s.out.Ok? && s.out.value.theme != ""
    ensures forall i :: 0 <= i < |db.settings| && db.settings[i].val.userId == userId ==>
              s.db == db && (Valid(db) ==> s.out.value == View(db.settings[i].val))
    ensures !HasKey(db.settings, SettingKey, userId) ==>
              s.out == Ok(Settings("dark", true)) && s.db.settings == db.settings + [Row(NextId(db.settings), NewSetting(userId, now))]
    ensures s.db == db.(settings := s.db.settings)
    ensures Valid(db) ==> Valid(s.db)
  {
    var (db', i) := Ensure(db, userId, now);
    Step(db', Ok(View(db'.settings[i].val)))
  }

  /** The stored theme for a requested one: an empty request means "dark",
      and at most 30 characters are kept. */
  function StoredTheme(requested: string): (t: string)
    ensures t != "" && |t| <= 30
    ensures requested != "" ==> StartsWith(requested, t) && (|requested| <= 30 ==> t == requested)
    ensures requested == "" ==> t == "dark"
    ensures |requested| > THEME_LIMIT ==> t == requested[..THEME_LIMIT]
  {
    Take(if requested == "" then DEFAULT_THEME else requested, THEME_LIMIT)
  }

  /** The row after an update: each given field replaces its column, absent
      ones keep theirs; the row's update time moves only when a value
      changes. */
  function Apply(row: UserSetting, req: SettingsUpdate, now: Timestamp): (r: UserSetting)
    ensures r.userId == row.userId && r.createdAt == row.createdAt
    ensures req.theme.None? ==> r.theme == row.theme
    ensures req.theme.Some? ==> r.theme == StoredTheme(req.theme.value)
    ensures req.notifications.None? ==> r.notifications == row.notifications
    ensures req.notifications.Some? ==> r.notifications == req.notifications.value
    ensures r.updatedAt == (if (r.theme, r.notifications) == (row.theme, row.notifications) then row.updatedAt else now)
  {
    var theme := if req.theme.Some? then StoredTheme(req.theme.value) else row.theme;
    var notifications := if req.notifications.Some? then req.notifications.value else row.notifications;
    var changed := (theme, notifications) != (row.theme, row.notifications);
    row.(theme := theme, notifications := notifications, updatedAt := if changed then now else row.updatedAt)
  }

  /** `UserSettingsService.update`. */
  function Update(db: Db, userId: nat, req: SettingsUpdate, now: Timestamp): (s: Step<Settings>)
    ensures s.out.Ok? && s.out.value.theme != ""
    ensures req.theme.Some? ==> s.out.value.theme == StoredTheme(req.theme.value)
    ensures req.notifications.Some? ==> s.out.value.notifications == req.notifications.value
    ensures s.db == db.(settings := s.db.settings)
    ensures Valid(db) ==> Valid(s.db)
    ensures exists i :: 0 <= i < |s.db.settings| && s.db.settings[i].val.userId == userId
              && View(s.db.settings[i].val) == s.out.value
    ensures var (e, i) := Ensure(db, userId, now);
            var row := Apply(e.settings[i].val, req, now);
            s.db.settings == Tables.Update(e.settings, i, row) && s.out == Ok(View(row))
  {
    var (db', i) := Ensure(db, userId, now);
    var row := Apply(db'.settings[i].val, req, now);
    UpdateUnique(db'.settings, i, row, SettingKey);
    var db'' := db'.(settings := Tables.Update(db'.settings, i, row));
    assert db''.settings[i].val == row;
    Step(db'', Ok(View(row)))
  }

  /** What an update returns is what the next read shows. */
  lemma UpdateThenGet(db: Db, userId: nat, req: SettingsUpdate, now1: Timestamp, now2: Timestamp)
    requires Valid(db)
    ensures var u := Update(db, userId, req, now1);
            Get(u.db, userId, now2) == Step(u.db, u.out)
  {
    var u := Update(db, userId, req, now1);
    var i :| 0 <= i < |u.db.settings| && u.db.settings[i].val.userId == userId
              && View(u.db.settings[i].val) == u.out.value;
  }

  /** Reading twice: the first read creates the row if needed, the second
      changes nothing and shows the same settings. */
  lemma GetTwice(db: Db, userId: nat, now1: Timestamp, now2: Timestamp)
    requires Valid(db)
    ensures var first := Get(db, userId, now1);
            Get(first.db, userId, now2) == first
  {
    var first := Get(db, userId, now1);
    if !HasKey(db.settings, SettingKey, userId) {
      assert first.db.settings[|db.settings|].val.userId == userId;
    }
  }

  /** An empty update changes nothing but the creation of a missing row. */
  lemma EmptyUpdate(db: Db, userId: nat, now: Timestamp)
    requires Valid(db)
    ensures Update(db, userId, SettingsUpdate(None, None), now) == Get(db, userId, now)
  {
  }
}
